=== FILE: README.md ===
# Kalyani Collections storefront: a Dafny model of its rules

The storefront is a Next.js application: a product catalogue with a filter
sidebar, a client-side cart, appointment booking, product inquiries and a
contact form. Customers sign in with a password and then a six-digit code
sent by e-mail. Most of its code renders pages. This project models the
rules underneath:

- **One-time-code sign-in** (`LoginRoute`, `VerifyOtpRoute`, `RegisterRoute`,
  `ResendOtpRoute`, `OtpFlow`, `AuthLib`). Login replaces the ledger row for
  an email with a fresh code valid for ten minutes. Verification checks a
  fixed ladder: missing fields, unknown user, no row, wrong code, expired
  code, accepted. Registration and resend e-mail codes that verification
  never sees. `OtpFlow` proves what a code issued by one request means to a
  later verification.
- **Client stores** (`CartStore`, `SessionStore`). These are classes whose
  methods overwrite fields, specified by pure functions on the item list and
  the user. Two invariants are proved: one cart line per product, and
  authenticated exactly when a user is held.
- **Route access** (`Middleware`). The pass / redirect / forward decision and
  the matcher that keeps API paths away from it.
- **Catalogue query** (`ProductsRoute`, `FilterSidebar`). Query parsing; the
  `where` object built in a loop; what that filter selects; the sort order;
  the page window; administrator product creation; the sidebar's list
  toggles and active-filter count.
- **Per-user reads and form intake** (`RequestAuth`, `ProfileRoute`,
  `UserHistory`, `BookingsRoute`, `InquiriesRoute`, `ContactRoute`). Token
  extraction (cookie first, then the `Authorization` header); the profile
  projection and the name/phone-only update; the caller's bookings and
  contact forms, newest first; required-field checks and defaults.

`Common` holds JavaScript's semantics where the code relies on them:
truthiness, `|| null`, `filter`, `split`, `parseInt` without a radix
(Unicode white space, a sign, decimal digits, and a "0x" prefix read as
hexadecimal), `parseFloat` on whole numbers, `toString`, `includes`, and the
case folding behind the database's case-insensitive `contains`, on ASCII letters. It also holds `FindManyDesc`, which states what
a `findMany` with a `where` and `orderBy: { createdAt: 'desc' }` returns.
`Schema` holds the table rows, the reply shape and the `Database` class.
Every request handler is a pure `...Spec` function plus a method on
`Database`. The method's `modifies` clause names only the table the handler
writes, and its `ensures` ties the reply and the new table to the spec
function.

Clock readings, random draws, generated identifiers and whether the e-mail
transport throws are parameters. bcrypt and the JSON Web Token library
(RFC 7519) are passed in as uninterpreted functions (`Bcrypt`, `Jwt`).

### Behaviour of the code worth knowing

- Registration generates and e-mails a code but stores no ledger row, so the
  e-mailed code can never be verified (`OtpFlow.RegisteredCodeNotAccepted`).
- Resend writes to a map in the route module's memory. Verification reads
  only the persisted ledger, so a resent code is never accepted on its own
  (`OtpFlow.ResentCodeNotAccepted`).
- Verification compares the code before it checks expiry. A wrong guess at
  an expired row leaves that row in place (`OtpFlow.WrongGuessKeepsExpiredRow`).
- Codes are `100000 + draw`, so they never start with '0'; leading zeros
  cannot occur (`AuthLib.GenerateOTP`).
- `src/lib/auth.ts` falls back to the secret "fallback-secret-key"; the
  routes that call `jwt.verify` themselves fall back to a different literal.
  Without `JWT_SECRET` the two disagree (`AuthLib.SecretsAgreeIffConfigured`).
- Token extraction differs by route. The product POST reads only the header.
  The profile, contact-history and booking-history routes read the cookie
  first. The middleware reads only the cookie.
- The matcher excludes `/api`, so the `x-user-id` header that
  `/api/bookings` trusts is whatever the client sent
  (`Middleware.ApiPathsCarryNoIdentity`).
- "/administrator" counts as an admin path: the test is a plain prefix.
- Product search cannot succeed. `tags` is JSON text (prisma/seed.ts:132,
  src/app/(shop)/products/[id]/page.tsx:154), but the search adds a
  scalar-list `has` on it, and `mode: 'insensitive'`, which the SQLite
  provider does not offer. So every listing with a non-empty `search`
  answers 500 (`ProductsRoute.SearchQueryFails`).
- Colour conditions are pushed onto the search's OR list. The filter admits
  a product that matches either the search or a colour
  (`ProductsRoute.WhereMeaning`); without a search, any listed colour is
  enough.
- A page below 1 asks for a negative `skip` and answers 500
  (`ProductsRoute.PageZeroFails`). A zero limit is run and reports `pages`
  as null (`ProductsRoute.LimitZeroRuns`).
- A login or resend whose e-mail fails still leaves the new ledger row or map
  entry, and answers 500. A registration whose e-mail fails still leaves the
  new user.

## Model

| member | source | states |
|---|---|---|
| Common.OrNull | src/app/api/auth/register/route.ts:41 | `x \|\| null` keeps a value exactly when it is a non-empty string, and nulls it otherwise |
| Common.OrDefault | src/app/api/products/route.ts:14-18 | `x \|\| fallback` is the value when it is a non-empty string and the fallback otherwise |
| Common.Filter | src/stores/cart.ts:63 | `filter` keeps exactly the elements satisfying the predicate, in their order, and never grows the list |
| Common.FilterAppend | src/stores/cart.ts:63 | filtering distributes over concatenation |
| Common.FilterKeepsAll | src/stores/cart.ts:63 | a filter every element passes returns the list unchanged |
| Common.FilterMultiset | src/components/product/FilterSidebar.tsx:87 | filtering keeps every copy of an accepted element and no copy of a rejected one |
| Common.InsertDesc | src/app/api/bookings/route.ts:62-65 | inserting one row adds exactly that row, and it lands at the front or behind the old first row |
| Common.InsertDescSorted | src/app/api/bookings/route.ts:62-65 | inserting into a list sorted by a key, largest first, keeps it sorted |
| Common.SortDesc | src/app/api/bookings/route.ts:62-65 | `orderBy: { createdAt: 'desc' }` yields a permutation of its input sorted by a key, largest first |
| Common.SortDescMembers | src/app/api/bookings/route.ts:62-65 | sorting neither adds nor drops any row |
| Common.FindManyDesc | src/app/api/contact/user/route.ts:34-37 | `findMany` with a `where` and a descending order returns the matching rows, each as often as stored, sorted by the key, and no other row |
| Common.IndexOf | src/app/api/user/profile/route.ts:13 | the first position where a pattern occurs, or none when it never occurs |
| Common.RemoveFirst | src/app/api/user/profile/route.ts:13 | `replace(pat, '')` leaves text without the pattern unchanged; otherwise the text before the first occurrence is kept, the pattern's length is dropped, and the text after that occurrence follows unchanged |
| Common.RemoveLeading | src/app/api/user/profile/route.ts:13 | removing a pattern from text that begins with it leaves exactly the rest |
| Common.Split | src/app/api/products/route.ts:11-13 | `split(',')` gives at least one part and no part contains the separator |
| Common.JoinSplit | src/app/api/products/route.ts:11-13 | joining the parts of a split with the separator restores the text |
| Common.DecimalString | src/lib/auth.ts:45 | `toString()` of a natural number is a non-empty run of decimal digits |
| Common.DecimalRoundTrip | src/lib/auth.ts:45 | reading the printed digits back gives the number |
| Common.DecimalLength | src/lib/auth.ts:45 | a number in [10^k, 10^(k+1)) prints with k+1 digits and no leading '0' |
| Common.SixDigits | src/lib/auth.ts:45 | every number in [100000, 999999] prints as six digits not starting with '0' |
| Common.TrimStart | src/components/product/FilterSidebar.tsx:203 | the white space `parseInt` skips is removed: the result is no longer and does not begin with white space |
| Common.TrimStartSuffix | src/components/product/FilterSidebar.tsx:203 | the trimmed text is a suffix of the input and everything removed before it is white space |
| Common.TrimStartSpaces | src/components/product/FilterSidebar.tsx:203 | white space put in front of a text is trimmed away with the text's own |
| Common.LeadingDigits | src/components/product/FilterSidebar.tsx:203 | the longest prefix of decimal digits `parseInt` reads |
| Common.LeadingDigitsAppend | src/components/product/FilterSidebar.tsx:203 | the digit run stops at the first character that is not a digit |
| Common.ParseInt | src/app/api/products/route.ts:17-18 | after white space and one sign, no digit gives NaN, "0x" without hexadecimal digits gives NaN, a leading decimal digit gives a number; a negative result needs a '-' sign and a positive one excludes it |
| Common.ReadsUnsigned | src/app/api/products/route.ts:17-18 | unsigned text without leading white space reads as its hexadecimal or decimal magnitude |
| Common.ParseIntMinus | src/app/api/products/route.ts:17-18 | a leading '-' negates the reading of the rest |
| Common.ParseIntPlus | src/app/api/products/route.ts:17-18 | a leading '+' changes nothing |
| Common.ParseIntSkipsSpace | src/components/product/FilterSidebar.tsx:203 | white space before the text does not change the reading |
| Common.ParseIntStopsAtNonDigit | src/components/product/FilterSidebar.tsx:203 | a printed number followed by a non-digit reads as that number |
| Common.PrintedPlain | src/app/api/products/route.ts:17-18 | a printed natural number has no leading white space, no sign and no hexadecimal prefix |
| Common.ParsePrinted | src/app/api/products/route.ts:14-18 | `parseInt` and `parseFloat` of a printed natural number give the number back |
| Common.ParseIntHex | src/app/api/products/route.ts:17-18 | "0x2" reads as 2 and "0x" is NaN |
| Common.ParseIntHexSigned | src/app/api/products/route.ts:17-18 | "-0x1A" reads as -26 |
| Common.ParseFloat | src/app/api/products/route.ts:14-15 | `parseFloat` agrees with `parseInt` except that it reads "0x..." as 0 |
| Common.Lower | src/app/api/products/route.ts:29-30 | lower-casing, as case-insensitive matching needs it, keeps the length and maps each character |
| Schema.FindByEmail | src/app/api/auth/login/route.ts:19-21 | `findUnique` by email returns a stored user with that email, or none when no user has it |
| Schema.FindById | src/lib/auth.ts:39-41 | `findUnique` by id returns a stored user with that id, or none when no user has it |
| Schema.FindByEmailUnique | src/app/api/auth/verify-otp/route.ts:19-21 | under the unique-email constraint, the lookup finds the one user with that email |
| Schema.AppendedUnique | src/app/api/auth/register/route.ts:37-45 | appending a row whose email (or id) is not yet stored keeps emails (or ids) unique |
| Schema.UpdateById | src/app/api/auth/verify-otp/route.ts:63-66 | `update` by id rewrites the rows with that id and leaves every other row as it was |
| AuthLib.SecretsAgreeIffConfigured | src/lib/auth.ts:6 | the library's and the routes' JWT secrets coincide exactly when JWT_SECRET is a non-empty string |
| AuthLib.GenerateToken | src/lib/auth.ts:6-25 | `generateToken` signs exactly the given {userId, email, role} under the library secret, expiring in "7d" unless JWT_EXPIRES_IN is set |
| AuthLib.GeneratedTokenVerifies | src/lib/auth.ts:23-33 | with a JWT library whose verify undoes its sign under the same secret, `verifyToken` gives back exactly the claims `generateToken` signed |
| AuthLib.VerifyToken | src/lib/auth.ts:27-33 | `verifyToken` never throws: it is null exactly when verification fails, and otherwise the decoded payload |
| AuthLib.GetUserFromToken | src/lib/auth.ts:35-42 | null without a lookup for an invalid token; otherwise a stored user whose id is the payload's `userId`, found whenever one exists |
| AuthLib.GenerateOTP | src/lib/auth.ts:44-46 | a code is six decimal digits, the first not '0', and reads back as 100000 + draw |
| AuthLib.GenerateOTPInjective | src/lib/auth.ts:44-46 | different draws give different codes |
| RequestAuth.HeaderToken | src/app/api/user/profile/route.ts:12-13 | the header with its first "Bearer " removed, or nothing when the header is absent |
| RequestAuth.ExtractToken | src/app/api/user/profile/route.ts:8-14 | the cookie when it is a non-empty string, otherwise the header token |
| RequestAuth.CookieWins | src/app/api/contact/user/route.ts:8-12 | with a cookie token, the header has no influence |
| RequestAuth.BearerHeader | src/app/api/bookings/user/route.ts:7-11 | without a cookie, "Bearer t" yields exactly t |
| RequestAuth.OtherSchemeKept | src/app/api/user/profile/route.ts:60-63 | a header without "Bearer " is taken whole as the token |
| RequestAuth.Authenticate | src/app/api/user/profile/route.ts:22-29 | no token, a token the routes' secret rejects, or the decoded claims, each case exactly characterised |
| LoginRoute.LoginSpec | src/app/api/auth/login/route.ts:11-72 | 400 for a missing field; the same 401 for an unknown email or a wrong password; every failure leaves the ledger alone; success replaces only that email's row with the new code expiring at now + 600000 and e-mails it; a failed send answers 500 with the row kept |
| LoginRoute.BadCredentialsIndistinguishable | src/app/api/auth/login/route.ts:23-37 | an unknown email and a wrong password give identical replies and ledgers |
| LoginRoute.Login | src/app/api/auth/login/route.ts:6-74 | the handler writes only the OTP ledger and its reply, ledger and mail are those of `LoginSpec` |
| RegisterRoute.NewUser | src/app/api/auth/register/route.ts:37-45 | the created row holds the given id, name, email and hash, role USER, unverified, no avatar, created now, and a phone exactly when a non-empty one was given |
| RegisterRoute.RegisterSpec | src/app/api/auth/register/route.ts:11-62 | 400 for a missing field or an existing email with no change; otherwise appends one unverified user with the bcrypt hash, phone null when empty, the fresh id; e-mails a code; a failed send answers 500 with the user and the mail kept |
| RegisterRoute.RegisterNewEmail | src/app/api/auth/register/route.ts:11-58 | a complete request under an email not yet stored appends exactly the new row and e-mails the generated code whether or not the send fails; it succeeds exactly when the send does not fail |
| RegisterRoute.RegisterKeepsEmailsUnique | src/app/api/auth/register/route.ts:22-45 | the existence check before the insert keeps emails unique |
| RegisterRoute.RegisterKeepsIdsUnique | src/app/api/auth/register/route.ts:37-45 | a fresh id keeps user ids unique |
| RegisterRoute.Register | src/app/api/auth/register/route.ts:6-64 | the handler writes only the user table; the OTP ledger is unchanged |
| VerifyOtpRoute.Public | src/app/api/auth/verify-otp/route.ts:87-95 | the response's user keeps the id, email, role and verified flag |
| VerifyOtpRoute.PublicHidesOnlySecrets | src/app/api/auth/verify-otp/route.ts:87-95 | two users give the same response user exactly when they differ at most in the password hash and the creation time |
| VerifyOtpRoute.Classify | src/app/api/auth/verify-otp/route.ts:11-55 | which rung of the ladder an attempt stops at, with the acceptance condition exactly: fields given, user known, row present, code equal, now <= expiresAt |
| VerifyOtpRoute.VerifySpec | src/app/api/auth/verify-otp/route.ts:11-106 | each rung's status and message; the row is deleted only on expiry or acceptance; users change only on acceptance; acceptance marks the user verified, mints a token from the pre-update id/email/role, returns the user without the password, sets the httpOnly cookie with maxAge 604800, and sends the welcome mail only to a previously unverified user |
| VerifyOtpRoute.AcceptedVerifiesOnlyThatUser | src/app/api/auth/verify-otp/route.ts:63-66 | under unique keys, acceptance flips `verified` on the user with that email and changes no other row |
| VerifyOtpRoute.VerifyOtp | src/app/api/auth/verify-otp/route.ts:6-114 | the handler writes the user table and the ledger exactly as `VerifySpec` says |
| ResendOtpRoute.ResendSpec | src/app/api/auth/resend-otp/route.ts:14-54 | 400 without an email, 404 for an unknown user, both leaving the map; otherwise that email's entry becomes the new code expiring at now + 600000, other entries kept; a failed send answers 500 with the entry kept |
| ResendOtpRoute.OtpStore.Resend | src/app/api/auth/resend-otp/route.ts:7-40 | the handler writes only the module-level map; the ledger and the user table are unchanged |
| OtpFlow.FindByEmailAfterVerify | src/app/api/auth/verify-otp/route.ts:63-66 | marking a user verified changes no email lookup |
| OtpFlow.FindByEmailAppended | src/app/api/auth/register/route.ts:37-45 | a user added under a new email is what a lookup by that email finds |
| OtpFlow.LoginThenVerify | src/app/api/auth/login/route.ts:40-57 | the code a successful login e-mails is accepted within ten minutes |
| OtpFlow.NoReplay | src/app/api/auth/verify-otp/route.ts:58-60 | an accepted code is answered "Invalid or expired OTP" on any later attempt |
| OtpFlow.ExpiredIsPurged | src/app/api/auth/verify-otp/route.ts:45-55 | after an expired attempt, the next attempt finds no row |
| OtpFlow.RetryAfterWrongCode | src/app/api/auth/verify-otp/route.ts:40-42 | a wrong guess keeps the row, so the right code still succeeds before expiry |
| OtpFlow.WrongGuessKeepsExpiredRow | src/app/api/auth/verify-otp/route.ts:40-55 | a wrong guess at an expired row answers "Invalid OTP" and keeps the row |
| OtpFlow.SecondLoginSupersedes | src/app/api/auth/login/route.ts:46-57 | after a second login, the first login's code is a wrong code |
| OtpFlow.ResentCodeNotAccepted | src/app/api/auth/resend-otp/route.ts:37-40 | a resent code is not accepted when the ledger holds no row |
| OtpFlow.RegisteredCodeNotAccepted | src/app/api/auth/register/route.ts:34-49 | the code registration e-mails is answered "Invalid or expired OTP" |
| OtpFlow.RegisterLoginVerify | src/app/api/auth/verify-otp/route.ts:58-81 | register, then log in, then verify the login code: the user is verified, gets the welcome mail, and the row is gone |
| CartStore.FindProduct | src/stores/cart.ts:44 | `find` by product returns a line for that product, or none when no line has it |
| CartStore.Requantify | src/stores/cart.ts:48-52 | the `map` gives the product's lines the new quantity and keeps every other line |
| CartStore.WithAdded | src/stores/cart.ts:42-59 | an existing product's lines, in place, get the added quantity and every other line is unchanged; a new product is appended after the unchanged lines as a line with the new id and the item's fields |
| CartStore.Without | src/stores/cart.ts:61-65 | exactly the lines of other products remain |
| CartStore.WithoutCons | src/stores/cart.ts:61-65 | removal keeps the first line in front exactly when it is another product's, so the order of the kept lines is preserved |
| CartStore.WithoutAppend | src/stores/cart.ts:61-65 | removal distributes over concatenation, preserving order |
| CartStore.DistinctTail | src/stores/cart.ts:42-59 | with one line per product, the rest of the cart holds no line for the first line's product and is itself one line per product |
| CartStore.WithQuantity | src/stores/cart.ts:67-80 | a quantity <= 0 is removal; otherwise only the product's lines get the quantity |
| CartStore.TotalItems | src/stores/cart.ts:90-92 | the sum of quantities, 0 for an empty cart |
| CartStore.TotalPrice | src/stores/cart.ts:94-96 | the sum of price times quantity, 0 for an empty cart |
| CartStore.SumAppend | src/stores/cart.ts:90-96 | a sum over two lists is the sum of the sums |
| CartStore.SumRequantify | src/stores/cart.ts:48-52 | with one line per product, a re-quantified list's sum changes by that line alone |
| CartStore.SumWithout | src/stores/cart.ts:63 | with one line per product, removal subtracts exactly that line |
| CartStore.AddExistingItems | src/stores/cart.ts:46-53 | merging raises the item count by the added quantity |
| CartStore.AddExistingPrice | src/stores/cart.ts:46-53 | merging raises the total price by the added quantity times the line's own price |
| CartStore.RaisedLinePrice | src/stores/cart.ts:48-52 | with one line per product, raising a product's quantity by n raises the price total by n times its price |
| CartStore.AddExistingTotals | src/stores/cart.ts:46-53 | merging raises the item count by the added quantity and the price by it times the line's own price |
| CartStore.AddNewTotals | src/stores/cart.ts:54-58 | a new line adds its quantity and its price times quantity |
| CartStore.RemoveTotals | src/stores/cart.ts:61-65 | removal subtracts the product's line from both totals |
| CartStore.SetQuantityTotals | src/stores/cart.ts:73-79 | setting a positive quantity replaces the line's quantity in the item count |
| CartStore.AddKeepsDistinct | src/stores/cart.ts:42-59 | adding keeps one line per product |
| CartStore.RemoveKeepsDistinct | src/stores/cart.ts:61-65 | removing keeps one line per product |
| CartStore.UpdateKeepsDistinct | src/stores/cart.ts:67-80 | setting a quantity keeps one line per product |
| CartStore.RemoveIsExact | src/stores/cart.ts:63 | no line of the removed product is left and every other product's line is still found |
| CartStore.Cart.constructor | src/stores/cart.ts:37-39 | the store starts empty, closed and not loading |
| CartStore.Cart.AddItem | src/stores/cart.ts:42-59 | `items` becomes `WithAdded` under the clock-reading id, and one line per product holds |
| CartStore.Cart.RemoveItem | src/stores/cart.ts:61-65 | `items` becomes `Without`, invariant kept |
| CartStore.Cart.UpdateQuantity | src/stores/cart.ts:67-80 | `items` becomes `WithQuantity`, delegating to removal for q <= 0, invariant kept |
| CartStore.Cart.ClearCart | src/stores/cart.ts:82 | `items` becomes empty and nothing else is written |
| CartStore.Cart.ToggleCart | src/stores/cart.ts:84 | `isOpen` flips and nothing else is written |
| CartStore.Cart.SetCartOpen | src/stores/cart.ts:86 | `isOpen` takes the argument |
| CartStore.Cart.SetLoading | src/stores/cart.ts:88 | `isLoading` takes the argument |
| CartStore.Cart.GetTotalItems | src/stores/cart.ts:90-92 | the item count of the current list |
| CartStore.Cart.GetTotalPrice | src/stores/cart.ts:94-96 | the price total of the current list |
| CartStore.Cart.Partialize | src/stores/cart.ts:98-101 | only the items are persisted |
| SessionStore.Overlay | src/stores/auth.ts:77 | `{ ...user, ...updates }`: each field present in the patch wins, each absent one is kept |
| SessionStore.OverlayNothing | src/stores/auth.ts:77 | an empty patch changes nothing |
| SessionStore.OverlayIdempotent | src/stores/auth.ts:77 | the same patch twice equals once |
| SessionStore.OverlayThen | src/stores/auth.ts:77 | two updates in a row equal one update by the merged patch |
| SessionStore.AuthStore.constructor | src/stores/auth.ts:35-39 | all fields start empty and the invariant holds |
| SessionStore.AuthStore.SetUser | src/stores/auth.ts:42 | authenticated exactly when the given user is not null |
| SessionStore.AuthStore.SetLoading | src/stores/auth.ts:43 | `isLoading` takes the argument |
| SessionStore.AuthStore.SetOTPSent | src/stores/auth.ts:44 | an omitted or empty email is stored as null |
| SessionStore.AuthStore.Login | src/stores/auth.ts:46-52 | the user is held and authenticated; loading and the pending-code fields are cleared |
| SessionStore.AuthStore.Logout | src/stores/auth.ts:54-72 | all five fields are reset whatever the logout request did |
| SessionStore.AuthStore.UpdateUser | src/stores/auth.ts:74-79 | no user means no change; otherwise the patch is overlaid; the invariant is preserved |
| SessionStore.AuthStore.Partialize | src/stores/auth.ts:81-87 | only the user and the flag are persisted, and they agree under the invariant |
| Middleware.IsPublicRoute | src/middleware.ts:31-33 | every listed public route is itself public |
| Middleware.IsAdminRoute | src/middleware.ts:36-38 | an admin path is exactly one starting with "/admin" |
| Middleware.IsProtectedRoute | src/middleware.ts:41-43 | a protected path is exactly one starting with "/profile", "/cart" or "/bookings" |
| Middleware.Decide | src/middleware.ts:45-86 | public paths pass; no token on a guarded path redirects to /login remembering the path; a rejected token redirects to /login and deletes the cookie; an accepted token on an admin path without the ADMIN role redirects to "/", and anywhere else forwards the payload's id, email and role; no token elsewhere passes |
| Middleware.Matched | src/middleware.ts:89-100 | a matched path starts with "/" |
| Middleware.MatcherSkipsInternal | src/middleware.ts:89-100 | paths under "/api", "/_next/static" and "/_next/image" are never matched |
| Middleware.Route | src/middleware.ts:89-100 | paths the matcher excludes pass untouched; the rest get the decision |
| Middleware.HeadOfPrefix | src/middleware.ts:36-43 | a path starting with a long enough prefix shares its first five characters |
| Middleware.GuardedHead | src/middleware.ts:25-28 | every admin or protected path starts with one of four heads |
| Middleware.PublicRouteHead | src/middleware.ts:10-22 | every public route other than "/" starts with one of seven five-character heads |
| Middleware.PublicHead | src/middleware.ts:10-33 | every public path is "/", starts with "//", or starts with one of seven heads |
| Middleware.GuardedNeverPublic | src/middleware.ts:31-43 | no admin or protected path is public |
| Middleware.AnonymousGuardedRedirects | src/middleware.ts:51-55 | without a token (absent or empty), a guarded path redirects to /login with `redirect` set to the path |
| Middleware.AdminNeedsAdminRole | src/middleware.ts:58-71 | an admin path is forwarded exactly for a verified ADMIN token and never passes without identity |
| Middleware.AdministratorIsAdmin | src/middleware.ts:36-38 | "/administrator" is an admin path and not public |
| Middleware.ApiPathsCarryNoIdentity | src/middleware.ts:89-100 | every "/api" path skips the middleware, so it is never given identity headers |
| Middleware.ProductPagesPass | src/middleware.ts:31-48 | every page below "/products/" passes whatever the token |
| ProductsRoute.ListParam | src/app/api/products/route.ts:11-13 | absent gives no entries; present gives at least one, and they join back to the parameter |
| ProductsRoute.DefaultPricesParse | src/app/api/products/route.ts:14-15 | the default price texts parse to 0 and 50000 |
| ProductsRoute.DefaultWindowParse | src/app/api/products/route.ts:17-18 | the default page and limit texts parse to 1 and 50 |
| ProductsRoute.ParseQuery | src/app/api/products/route.ts:10-19 | absent or empty parameters take the defaults; `featured` is set exactly for "true"; the lists are the comma-split parameters |
| ProductsRoute.ColorConditions | src/app/api/products/route.ts:52-58 | one `colors contains` condition per colour, in order |
| ProductsRoute.BuildWhere | src/app/api/products/route.ts:22-72 | the loop that pushes colour conditions onto the search's OR list builds exactly `WhereOf(q)` |
| ProductsRoute.AnyOfSound | src/app/api/products/route.ts:27-59 | an OR entry that holds is a search hit or a colour hit |
| ProductsRoute.AnyOfComplete | src/app/api/products/route.ts:27-59 | a search hit or a colour hit makes some OR entry hold |
| ProductsRoute.WhereMeaning | src/app/api/products/route.ts:22-72 | the built filter selects a product exactly when it is available, matches the search or a colour, is in a listed category and subcategory, is within the inclusive price bounds when they narrow the default, and is featured when asked |
| ProductsRoute.SearchAloneQualifies | src/app/api/products/route.ts:50-59 | a product the search finds qualifies whatever colours are listed |
| ProductsRoute.NoParamsSelectsAvailable | src/app/api/products/route.ts:22-72 | with no parameters, the filter selects exactly the available products |
| ProductsRoute.OrderFor | src/app/api/products/route.ts:75-94 | the four named sorts; newest first exactly for every other value |
| ProductsRoute.Skip | src/app/api/products/route.ts:100 | `(page - 1) * limit`, NaN when either is NaN |
| ProductsRoute.Pages | src/app/api/products/route.ts:127 | null for a NaN or zero limit; for a positive limit the least page count covering the total |
| ProductsRoute.PagesExact | src/app/api/products/route.ts:100-127 | zero pages exactly for zero products; the last page starts before the total |
| ProductsRoute.FilterSameSelection | src/app/api/products/route.ts:97-119 | filtering by the built filter or by the query's description selects the same products |
| ProductsRoute.ListProducts | src/app/api/products/route.ts:7-137 | 500 exactly when the database refuses the query; otherwise 200 with the built filter, the sort, skip and take, and the pagination block: the parsed page and limit, the total counting the products the query describes, and `pages` as `Pages` of the two |
| ProductsRoute.SearchQueryFails | src/app/api/products/route.ts:25-137 | any non-empty `search` answers 500, whatever the other parameters |
| ProductsRoute.DefaultListing | src/app/api/products/route.ts:17-128 | with no parameters the reply lists page 1 of 50, skipping nothing, and `pages` is the exact ceiling of the total over 50 |
| ProductsRoute.PageZeroWindow | src/app/api/products/route.ts:17-101 | `?page=0` reads page 0 with the default limit 50, which gives skip -50, a query the database refuses |
| ProductsRoute.PageZeroFails | src/app/api/products/route.ts:96-137 | `?page=0` answers 500 |
| ProductsRoute.LimitZeroWindow | src/app/api/products/route.ts:17-101 | `?limit=0` reads page 1 with limit 0, which gives skip 0, a query the database runs |
| ProductsRoute.LimitZeroRuns | src/app/api/products/route.ts:96-128 | `?limit=0` is answered with an empty window and `pages` null |
| ProductsRoute.NewProduct | src/app/api/products/route.ts:183-198 | defaults: subcategory null, featured false, available unless explicitly false, stock 0, sku null |
| ProductsRoute.PostSpec | src/app/api/products/route.ts:140-213 | 401 without a header token; any insert needs a verified token of a stored ADMIN user and a complete body; it answers 201 with the new row appended |
| ProductsRoute.NonAdminRefused | src/app/api/products/route.ts:154-164 | a verified non-admin or unknown user gets 403 and nothing is written |
| ProductsRoute.AdminCreates | src/app/api/products/route.ts:183-205 | an administrator's complete body is stored with the defaults |
| ProductsRoute.CreateProduct | src/app/api/products/route.ts:140-213 | the handler writes only the product table, as `PostSpec` says |
| FilterSidebar.Toggle | src/components/product/FilterSidebar.tsx:84-106 | checking appends the slug even when present; unchecking removes every copy and keeps every other slug's count |
| FilterSidebar.UncheckCons | src/components/product/FilterSidebar.tsx:87 | unchecking keeps the first slug in front exactly when it is another slug, so the order of the kept slugs is preserved |
| FilterSidebar.UncheckAppend | src/components/product/FilterSidebar.tsx:87 | unchecking distributes over concatenation, preserving order |
| FilterSidebar.HandleCategoryChange | src/components/product/FilterSidebar.tsx:84-90 | merged into the state, the change replaces only the categories, by the toggled list; the slug is then selected exactly when it was checked |
| FilterSidebar.HandleSubcategoryChange | src/components/product/FilterSidebar.tsx:92-98 | merged into the state, the change replaces only the subcategories, by the toggled list; the slug is then selected exactly when it was checked |
| FilterSidebar.HandleColorChange | src/components/product/FilterSidebar.tsx:100-106 | merged into the state, the change replaces only the colours, by the toggled list; the colour is then selected exactly when it was checked |
| FilterSidebar.ActiveFiltersCount | src/components/product/FilterSidebar.tsx:114-118 | zero exactly when no slug or colour is selected and the range is not narrowed; never less than the number of selected slugs and colours, and at most one more |
| FilterSidebar.HandlePriceRangeChange | src/components/product/FilterSidebar.tsx:108-112 | only the given end of the range is replaced |
| FilterSidebar.ApplyChange | src/components/product/FilterSidebar.tsx:18 | the reported `Partial<FilterState>` field replaces its old value and nothing else changes, as the products page merges it (src/app/(shop)/products/page.tsx, lines 123-125) |
| FilterSidebar.NoActiveFilters | src/components/product/FilterSidebar.tsx:114-131 | the count is zero exactly when no slug or colour is selected and the range is the full one; the cleared state has count zero |
| FilterSidebar.CheckCounts | src/components/product/FilterSidebar.tsx:84-118 | checking a category adds one to the count, duplicates included |
| FilterSidebar.UncheckAfterCheck | src/components/product/FilterSidebar.tsx:84-90 | check then uncheck equals uncheck alone |
| FilterSidebar.UncheckAbsent | src/components/product/FilterSidebar.tsx:87 | unchecking an unselected slug leaves the list |
| FilterSidebar.MinInput | src/components/product/FilterSidebar.tsx:203 | NaN gives 0, otherwise the parsed number |
| FilterSidebar.MaxInput | src/components/product/FilterSidebar.tsx:211 | NaN or 0 gives 50000, otherwise the parsed number |
| FilterSidebar.MaxInputZeroRestoresDefault | src/components/product/FilterSidebar.tsx:211 | typing 0 as the maximum restores 50000 and keeps the minimum |
| FilterSidebar.ToggleSection | src/components/product/FilterSidebar.tsx:77-82 | the named section flips and no other |
| FilterSidebar.ToggleSectionTwice | src/components/product/FilterSidebar.tsx:77-82 | toggling twice restores the sections |
| ProfileRoute.View | src/app/api/user/profile/route.ts:32-41 | the projection copies every selected column |
| ProfileRoute.ViewHidesOnlyPassword | src/app/api/user/profile/route.ts:32-41 | two users with the same view differ at most in the password hash |
| ProfileRoute.GetProfile | src/app/api/user/profile/route.ts:5-53 | 401 "No token provided", 401 "Invalid token" for a rejected token, 404 for a missing user, else the view |
| ProfileRoute.WithProfile | src/app/api/user/profile/route.ts:74-81 | only the name and the phone change; a given name replaces the old one and an absent one keeps it; an absent phone is kept, a null one cleared, a given one stored |
| ProfileRoute.PutSpec | src/app/api/user/profile/route.ts:55-102 | 401 without a token; every failure once a token is present is 500, and no failure writes; success rewrites the caller's row by name and phone and returns its view |
| ProfileRoute.PutChangesOnlyNameAndPhone | src/app/api/user/profile/route.ts:76-81 | every other column of every row is kept |
| ProfileRoute.PutChangesOnlyCaller | src/app/api/user/profile/route.ts:76-77 | rows of other ids are kept |
| ProfileRoute.EmptyPutKeepsRows | src/app/api/user/profile/route.ts:74-81 | a body without name and phone rewrites nothing |
| ProfileRoute.UpdateProfile | src/app/api/user/profile/route.ts:55-102 | the handler writes only the user table, as `PutSpec` says |
| UserHistory.OwnerReply | src/app/api/contact/user/route.ts:14-31 | 401 "No token", 500 for a rejected token, 404 for a missing user, else 200 with the caller's result |
| UserHistory.UserContactForms | src/app/api/contact/user/route.ts:5-44 | 401 without a token, 500 for a rejected one, 404 for a caller not stored, success exactly otherwise; then the caller's forms by email, newest first, each as often as stored |
| UserHistory.UserBookings | src/app/api/bookings/user/route.ts:5-41 | 401 without a token, 500 for a rejected one, 404 for a caller not stored, success exactly otherwise; then the bookings under the caller's email, newest first, each as often as stored |
| UserHistory.AnonymousBookingListed | src/app/api/bookings/user/route.ts:31-34 | a booking made without a user id under the account's email is listed |
| UserHistory.OthersNotListed | src/app/api/contact/user/route.ts:34-37 | a form under another email is never listed |
| BookingsRoute.BookSpec | src/app/api/bookings/route.ts:4-48 | 400 for a missing field with no change; an unparsable date is 500; success appends one "pending" booking with message and user id null when empty and answers its id |
| BookingsRoute.EmptyPhoneRefused | src/app/api/bookings/route.ts:9-14 | an empty phone counts as missing |
| BookingsRoute.Book | src/app/api/bookings/route.ts:4-48 | the handler writes only the booking table, as `BookSpec` says |
| BookingsRoute.ListBookings | src/app/api/bookings/route.ts:50-76 | 401 without `x-user-id`; otherwise exactly the bookings with that user id, newest first, each as often as stored |
| BookingsRoute.BookThenList | src/app/api/bookings/route.ts:17-65 | a booking made with a user id is listed under that id |
| InquiriesRoute.InquireSpec | src/app/api/inquiries/route.ts:4-37 | 400 for a missing field with no change; otherwise 201 with the appended "Pending" row, optional fields null when empty |
| InquiriesRoute.Inquire | src/app/api/inquiries/route.ts:4-37 | the handler writes only the inquiry table, as `InquireSpec` says |
| InquiriesRoute.ListInquiries | src/app/api/inquiries/route.ts:39-72 | exactly the rows matching each given filter, newest first, each as often as stored |
| InquiriesRoute.NoFilterListsAll | src/app/api/inquiries/route.ts:45-47 | with neither filter, every row is returned, each as often as stored |
| InquiriesRoute.InquiryListedUnderItsIds | src/app/api/inquiries/route.ts:17-49 | a stored inquiry is listed under its own user and product filters |
| ContactRoute.SubmitSpec | src/app/api/contact/route.ts:4-43 | 400 for a missing field with no change; otherwise one "new" row with phone null when empty, answered with its id |
| ContactRoute.Submit | src/app/api/contact/route.ts:4-43 | the handler writes only the contact-form table, as `SubmitSpec` says |
| ContactRoute.SubmittedFormListed | src/app/api/contact/user/route.ts:34-37 | a stored submission appears in the history of the account with its email |

## Left out

- Rendering: pages, layout, header, footer and product card are not part of this model. The two totals and the cart actions they call are modelled.
- E-mail transport (src/lib/email.ts): only the mail a handler asks for, and a flag saying whether sending throws, are modelled.
- bcrypt and the JSON Web Token library: uninterpreted functions; no cryptographic property is claimed. Token expiry is part of `jwt.verify`.
- The ORM: tables are sequences (users, products, bookings, inquiries, contact forms) and a map keyed by email (the OTP ledger). Each handler is one atomic step, and concurrency is not modelled. Relation `include`/`select` clauses, foreign keys and database-generated ids (`freshId`) are not modelled. The user table is a sequence because lookups by both email and id are needed.
- Clock, `Math.random` and `new Date(date)` are integer parameters. Booking dates are the parsed millisecond value, or `None` when invalid.
- Floating point: prices, quantities, `parseFloat` and `Math.ceil` are on integers. `ParseFloat` reads the whole-number part only: a fraction, an exponent or "Infinity" is not modelled.
- Common.Lower: folds only the ASCII letters A-Z, because Unicode case mapping (accented and non-Latin letters, and mappings that change the length) is not modelled; the database's case-insensitive `contains` folds them as well.
- ProductsRoute.Runs: which queries the database refuses is an assumption about the ORM and SQLite; prisma/schema.prisma is not part of this model. A search is refused, because it uses the scalar-list `has` on the text column `tags` and `mode: 'insensitive'`. So are a NaN `skip` or `take` and a negative `skip`. A zero or negative `take` is run.
- The catch's 500 for a request body that is not JSON, or whose fields have the wrong type, in the POST and PUT handlers is not modelled.
- ProductsRoute.WhereMeaning: its search half reads the search conditions as they are written for: a case-insensitive `contains` on name and description, and a tag as a double-quoted element of the `tags` JSON text, with escapes not modelled. The database never runs a query with a search (`ProductsRoute.Runs`), so that half describes no reply of the program.
- ProductsRoute.SearchAloneQualifies: for the same reason, the product it states is selected is never listed: a query with a search answers 500.
- Console logging and the `/api/auth/logout` route called by `logout` are not part of this model.
- Product slugs are functions from the row's category and subcategory ids, standing for the joined tables.
- The database's reading of the filter (`ProductsRoute.Satisfies`) is an assumption: a NaN price bound is taken to admit no product, and a subcategory filter fails a product without a subcategory.
- ProductsRoute.PostSpec: a missing required field is modelled as a 500 from the insert. Field types inside the body are not checked.
- ProfileRoute.PutSpec: a null name is modelled as a 500 from the non-null column. An explicit `undefined` in the body is the same as absent.
- FilterSidebar: the range sliders pass `parseInt` without a fallback. Slider values are always numeric, so their inputs are not modelled separately. Search text, sort and view-mode changes replace their field through `handleFilterChange` and are not modelled separately.
- In `updateUser`, a field explicitly set to `undefined` in `updates` would blank it; the model treats it as absent.
- The resend map lives as long as the server process; restarts are not modelled.

=== FILE: auth_lib.dfy ===
/**
 * src/lib/auth.ts: password hashing, session tokens and one-time codes.
 * bcrypt and the JSON Web Token library (RFC 7519) are not modelled: they are
 * passed in as uninterpreted operations, and a token that fails verification
 * (bad signature, expired, malformed) is `None`.
 */
module AuthLib {
  import opened Common
  import opened Schema

  /** The claims a session token carries. */
  datatype Claims = Claims(userId: string, email: string, role: Role)

  /** bcrypt: `hash(plain)` and `compare(plain, hash)`. */
  datatype Bcrypt = Bcrypt(hash: string -> string, compare: (string, string) -> bool)

  /** jsonwebtoken: `sign(claims, secret, expiresIn)` and `verify(token, secret)`. */
  datatype Jwt = Jwt(sign: (Claims, string, string) -> string, verify: (string, string) -> Option<Claims>)

  /** The process environment the code consults. */
  datatype Env = Env(jwtSecret: Option<string>, jwtExpiresIn: Option<string>, production: bool)

  const LibFallbackSecret: string := "fallback-secret-key"
  /** The fallback written in the route files that call `jwt.verify` themselves. */
  const RouteFallbackSecret: string := "kalyani-house-secret-2025-super-secure"
  const DefaultExpiresIn: string := "7d"

  /** `JWT_SECRET` as src/lib/auth.ts reads it. */
  function LibSecret(env: Env): string {
    OrDefault(env.jwtSecret, LibFallbackSecret)
  }

  /** `JWT_SECRET` as the profile, contact, booking and product routes read it. */
  function RouteSecret(env: Env): string {
    OrDefault(env.jwtSecret, RouteFallbackSecret)
  }

  /**
   * The library and the routes use the same secret exactly when JWT_SECRET is set: without it,
   * tokens signed by `generateToken` are verified by the routes under a different key.
   */
  lemma SecretsAgreeIffConfigured(env: Env)
    ensures LibSecret(env) == RouteSecret(env) <==> Truthy(env.jwtSecret)
  {
    if !Truthy(env.jwtSecret) {
      assert LibFallbackSecret[0] != RouteFallbackSecret[0];
    }
  }

  function ExpiresIn(env: Env): string {
    OrDefault(env.jwtExpiresIn, DefaultExpiresIn)
  }

  /**
   * `generateToken(payload)`: the token carries exactly the given id, email and role,
   * under the library secret, and lasts "7d" unless JWT_EXPIRES_IN is set.
   */
  function GenerateToken(jwt: Jwt, env: Env, claims: Claims): (t: string)
    ensures t == jwt.sign(claims, LibSecret(env),
                          if Truthy(env.jwtExpiresIn) then env.jwtExpiresIn.value else "7d")
  {
    jwt.sign(claims, LibSecret(env), ExpiresIn(env))
  }

  /** With a library whose verify undoes its sign, `verifyToken` reads back what `generateToken` signed. */
  lemma GeneratedTokenVerifies(jwt: Jwt, env: Env, claims: Claims)
    requires forall c, e :: jwt.verify(jwt.sign(c, LibSecret(env), e), LibSecret(env)) == Some(c)
    ensures VerifyToken(jwt, env, GenerateToken(jwt, env, claims)) == Some(claims)
  {
  }

  /** `verifyToken(token)`: the library's exception becomes `None`, so it never throws. */
  function VerifyToken(jwt: Jwt, env: Env, token: string): (r: Option<Claims>)
    ensures r.None? <==> jwt.verify(token, LibSecret(env)).None?
    ensures r.Some? ==> r == jwt.verify(token, LibSecret(env))
  {
    match jwt.verify(token, LibSecret(env))
    case None => None
    case Some(claims) => Some(claims)
  }

  /** `getUserFromToken(token)` */
  function GetUserFromToken(jwt: Jwt, env: Env, users: seq<User>, token: string): (r: Option<User>)
    ensures VerifyToken(jwt, env, token).None? ==> r.None?
    ensures r.Some? ==> r.value in users && r.value.id == VerifyToken(jwt, env, token).value.userId
    ensures VerifyToken(jwt, env, token).Some? &&
            (exists i :: 0 <= i < |users| && users[i].id == VerifyToken(jwt, env, token).value.userId)
            ==> r.Some?
  {
    match VerifyToken(jwt, env, token)
    case None => None
    case Some(payload) => FindById(users, payload.userId)
  }

  /**
   * `generateOTP()`: 100000 plus a uniform random integer `draw` below 900000, printed in
   * decimal. The code is six decimal digits, the first one not '0'.
   */
  function GenerateOTP(draw: nat): (code: string)
    requires draw < 900000
    ensures |code| == 6 && code[0] != '0'
    ensures forall i :: 0 <= i < |code| ==> IsDigit(code[i])
    ensures ParseInt(code) == Num(100000 + draw)
  {
    var n := 100000 + draw;
    SixDigits(n);
    ParsePrinted(n);
    DecimalString(n)
  }

  /** Different draws give different codes. */
  lemma GenerateOTPInjective(a: nat, b: nat)
    requires a < 900000 && b < 900000 && a != b
    ensures GenerateOTP(a) != GenerateOTP(b)
  {
    assert ParseInt(GenerateOTP(a)) != ParseInt(GenerateOTP(b));
  }
}

=== FILE: bookings_route.dfy ===
/**
 * POST and GET /api/bookings (src/app/api/bookings/route.ts): book an
 * appointment, and list the bookings stored under an `x-user-id` header.
 * The middleware does not run for API paths, so that header is whatever the
 * client sent.
 */
module BookingsRoute {
  import opened Common
  import opened Schema

  const BookingFieldsRequired: string := "Name, email, phone, date, and time are required"

  /** The JSON body; `date` is the text `new Date(date)` reads. */
  datatype BookingInput = BookingInput(name: Option<string>, email: Option<string>, phone: Option<string>,
                                       date: Option<string>, time: Option<string>, message: Option<string>)

  predicate BookingComplete(b: BookingInput) {
    Truthy(b.name) && Truthy(b.email) && Truthy(b.phone) && Truthy(b.date) && Truthy(b.time)
  }

  datatype BookingResult = BookingResult(reply: Reply<Receipt>, bookings: seq<Booking>)

  /**
   * What one POST does. `parsedDate` is `new Date(date)` in milliseconds, `None` for an invalid
   * date, which the database refuses (500).
   */
  function BookSpec(bookings: seq<Booking>, b: BookingInput, userIdHeader: Option<string>,
                    parsedDate: Option<int>, freshId: string, now: int): (r: BookingResult)
    ensures !BookingComplete(b) ==> r == BookingResult(Fail(400, BookingFieldsRequired), bookings)
    ensures r.reply.Ok? <==> BookingComplete(b) && parsedDate.Some?
    ensures !r.reply.Ok? ==> r.bookings == bookings
    ensures r.reply.Ok? ==>
      && r.reply == Ok(200, Receipt("Appointment booked successfully", freshId))
      && |r.bookings| == |bookings| + 1 && r.bookings[..|bookings|] == bookings
      && var row := r.bookings[|bookings|];
         && row.id == freshId && row.name == b.name.value && row.email == b.email.value
         && row.phone == b.phone.value && row.date == parsedDate.value && row.time == b.time.value
         && row.status == "pending" && row.message == OrNull(b.message) && row.userId == OrNull(userIdHeader)
  {
    if !BookingComplete(b) then BookingResult(Fail(400, BookingFieldsRequired), bookings)
    else if parsedDate.None? then BookingResult(Fail(500, "Internal server error"), bookings)
    else
      var row := Booking(freshId, b.name.value, b.email.value, b.phone.value, parsedDate.value,
                         b.time.value, OrNull(b.message), "pending", OrNull(userIdHeader), now);
      assert (bookings + [row])[..|bookings|] == bookings;
      BookingResult(Ok(200, Receipt("Appointment booked successfully", freshId)), bookings + [row])
  }

  /** An empty string counts as missing: a booking with an empty phone is refused. */
  lemma EmptyPhoneRefused(bookings: seq<Booking>, b: BookingInput, userIdHeader: Option<string>,
                          parsedDate: Option<int>, freshId: string, now: int)
    requires b.phone == Some("")
    ensures BookSpec(bookings, b, userIdHeader, parsedDate, freshId, now).reply.status == 400
  {
  }

  /** The POST handler: it writes only the booking table. */
  method Book(db: Database, b: BookingInput, userIdHeader: Option<string>, parsedDate: Option<int>,
              freshId: string, now: int) returns (reply: Reply<Receipt>)
    modifies db`bookings
    ensures BookSpec(old(db.bookings), b, userIdHeader, parsedDate, freshId, now) == BookingResult(reply, db.bookings)
  {
    if !BookingComplete(b) {
      return Fail(400, BookingFieldsRequired);
    }
    if parsedDate.None? {
      return Fail(500, "Internal server error");
    }
    var row := Booking(freshId, b.name.value, b.email.value, b.phone.value, parsedDate.value,
                       b.time.value, OrNull(b.message), "pending", OrNull(userIdHeader), now);
    db.bookings := db.bookings + [row];
    reply := Ok(200, Receipt("Appointment booked successfully", freshId));
  }

  /** GET: the bookings stored under the header's user id, newest first. */
  function ListBookings(bookings: seq<Booking>, userIdHeader: Option<string>): (r: Reply<BookingList>)
    ensures !Truthy(userIdHeader) ==> r == Fail(401, "Authentication required")
    ensures Truthy(userIdHeader) ==>
      && r.Ok? && r.status == 200
      && SortedDesc(r.body.bookings, BookingCreatedAt)
      && (forall i :: 0 <= i < |r.body.bookings| ==>
            r.body.bookings[i].userId == userIdHeader && r.body.bookings[i] in bookings)
      && (forall i :: 0 <= i < |bookings| && bookings[i].userId == userIdHeader ==> bookings[i] in r.body.bookings)
      && (forall x :: multiset(r.body.bookings)[x] == if x.userId == userIdHeader then multiset(bookings)[x] else 0)
  {
    if !Truthy(userIdHeader) then Fail(401, "Authentication required")
    else
      var where := (x: Booking) => x.userId == userIdHeader;
      var listed := FindManyDesc(bookings, where, BookingCreatedAt);
      assert forall x :: multiset(listed)[x] == if x.userId == userIdHeader then multiset(bookings)[x] else 0 by {
        forall x ensures multiset(listed)[x] == if x.userId == userIdHeader then multiset(bookings)[x] else 0 {
          FilterMultiset(bookings, where, x);
        }
      }
      Ok(200, BookingList(listed))
  }

  /** A booking made with a user id is listed under that id. */
  lemma BookThenList(bookings: seq<Booking>, b: BookingInput, userId: string, date: int, freshId: string, now: int)
    requires BookingComplete(b) && userId != ""
    ensures var r := BookSpec(bookings, b, Some(userId), Some(date), freshId, now);
      r.bookings[|bookings|] in ListBookings(r.bookings, Some(userId)).body.bookings
  {
  }
}

=== FILE: cart.dfy ===
/**
 * The client cart store (src/stores/cart.ts): a list of line items keyed by
 * product, whether the cart drawer is open, and a loading flag. Each action
 * replaces one of these fields; the new item lists are built by the pure
 * functions below, and the store methods are specified by them.
 */
module CartStore {
  import opened Common

  /** Colours and sizes are optional lists in the item. Prices and quantities are whole numbers. */
  datatype CartItem = CartItem(id: string, productId: string, name: string, price: int, image: string,
                               quantity: int, colors: Option<seq<string>>, sizes: Option<seq<string>>)

  /** What `addItem` receives: an item without its id. */
  datatype NewItem = NewItem(productId: string, name: string, price: int, image: string,
                             quantity: int, colors: Option<seq<string>>, sizes: Option<seq<string>>)

  /** At most one line per product: the invariant every action keeps. */
  predicate DistinctProducts(items: seq<CartItem>) {
    forall i, j :: 0 <= i < j < |items| ==> items[i].productId != items[j].productId
  }

  /** `items.find(item => item.productId === productId)`: the first line for that product. */
  function FindProduct(items: seq<CartItem>, productId: string): (r: Option<CartItem>)
    ensures r.Some? ==> r.value in items && r.value.productId == productId
    ensures r.None? ==> forall i :: 0 <= i < |items| ==> items[i].productId != productId
    decreases |items|
  {
    if items == [] then None
    else if items[0].productId == productId then Some(items[0])
    else FindProduct(items[1..], productId)
  }

  /** Every line for `productId` gets the quantity `newQuantity(old quantity)`; every other line is kept. */
  function Requantify(items: seq<CartItem>, productId: string, newQuantity: int -> int): (r: seq<CartItem>)
    ensures |r| == |items|
    ensures forall i :: 0 <= i < |items| ==>
      r[i] == if items[i].productId == productId then items[i].(quantity := newQuantity(items[i].quantity))
              else items[i]
  {
    seq(|items|, i requires 0 <= i < |items| =>
      if items[i].productId == productId then items[i].(quantity := newQuantity(items[i].quantity))
      else items[i])
  }

  /**
   * The list after `addItem`: an existing line for the product has its quantity raised by
   * the new quantity and keeps its id, name and price; otherwise the item is appended
   * under the id `stamp` (the decimal form of the current time in milliseconds).
   */
  function WithAdded(items: seq<CartItem>, item: NewItem, stamp: string): (r: seq<CartItem>)
    ensures FindProduct(items, item.productId).Some? ==>
      && |r| == |items|
      && forall i :: 0 <= i < |items| ==>
           r[i] == if items[i].productId == item.productId
                   then items[i].(quantity := items[i].quantity + item.quantity) else items[i]
    ensures FindProduct(items, item.productId).None? ==>
      && |r| == |items| + 1 && r[..|items|] == items
      && r[|items|] == CartItem(stamp, item.productId, item.name, item.price, item.image,
                                item.quantity, item.colors, item.sizes)
  {
    if FindProduct(items, item.productId).Some? then
      Requantify(items, item.productId, q => q + item.quantity)
    else
      var appended := items + [CartItem(stamp, item.productId, item.name, item.price, item.image,
                                        item.quantity, item.colors, item.sizes)];
      assert appended[..|items|] == items;
      appended
  }

  /** The list after `removeItem`: the lines of other products, in their order. */
  function Without(items: seq<CartItem>, productId: string): (r: seq<CartItem>)
    ensures forall i :: 0 <= i < |r| ==> r[i].productId != productId && r[i] in items
    ensures forall i :: 0 <= i < |items| && items[i].productId != productId ==> items[i] in r
  {
    Filter(items, (it: CartItem) => it.productId != productId)
  }

  /** Removal works line by line from the front: the kept lines stay in their order. */
  lemma WithoutCons(x: CartItem, rest: seq<CartItem>, productId: string)
    ensures Without([x] + rest, productId) ==
      (if x.productId == productId then [] else [x]) + Without(rest, productId)
  {
    assert ([x] + rest)[0] == x && ([x] + rest)[1..] == rest;
  }

  /** Removing from two parts of the list removes from each and keeps them in order. */
  lemma WithoutAppend(a: seq<CartItem>, b: seq<CartItem>, productId: string)
    ensures Without(a + b, productId) == Without(a, productId) + Without(b, productId)
  {
    FilterAppend(a, b, (it: CartItem) => it.productId != productId);
  }

  /** The list after `updateQuantity`: a non-positive quantity removes the product's line. */
  function WithQuantity(items: seq<CartItem>, productId: string, quantity: int): (r: seq<CartItem>)
    ensures quantity <= 0 ==> r == Without(items, productId)
    ensures quantity > 0 ==>
      && |r| == |items|
      && forall i :: 0 <= i < |items| ==>
           r[i] == if items[i].productId == productId then items[i].(quantity := quantity) else items[i]
  {
    if quantity <= 0 then Without(items, productId)
    else Requantify(items, productId, _ => quantity)
  }

  /** `reduce((total, item) => total + measure(item), 0)`. */
  function Sum(items: seq<CartItem>, measure: CartItem -> int): int
    decreases |items|
  {
    if items == [] then 0 else measure(items[0]) + Sum(items[1..], measure)
  }

  function Quantity(it: CartItem): int { it.quantity }

  function LinePrice(it: CartItem): int { it.price * it.quantity }

  /** `getTotalItems`: the sum of the quantities. */
  function TotalItems(items: seq<CartItem>): (r: int)
    ensures items == [] ==> r == 0
  {
    Sum(items, Quantity)
  }

  /** `getTotalPrice`: the sum of price times quantity. */
  function TotalPrice(items: seq<CartItem>): (r: int)
    ensures items == [] ==> r == 0
  {
    Sum(items, LinePrice)
  }

  // ---------------------------------------------------------------------
  // Sums

  lemma {:induction false} SumAppend(a: seq<CartItem>, b: seq<CartItem>, measure: CartItem -> int)
    ensures Sum(a + b, measure) == Sum(a, measure) + Sum(b, measure)
    decreases |a|
  {
    if a == [] {
      assert a + b == b;
    } else {
      assert (a + b)[1..] == a[1..] + b;
      SumAppend(a[1..], b, measure);
    }
  }

  /** With one line per product, re-quantifying changes the sum by that one line's change. */
  lemma {:induction false} SumRequantify(items: seq<CartItem>, productId: string, newQuantity: int -> int,
                                         measure: CartItem -> int)
    requires DistinctProducts(items)
    ensures Sum(Requantify(items, productId, newQuantity), measure) ==
      match FindProduct(items, productId)
      case None => Sum(items, measure)
      case Some(it) => Sum(items, measure) - measure(it) + measure(it.(quantity := newQuantity(it.quantity)))
    decreases |items|
  {
    if items != [] {
      var r := Requantify(items, productId, newQuantity);
      assert r[1..] == Requantify(items[1..], productId, newQuantity);
      SumRequantify(items[1..], productId, newQuantity, measure);
      if items[0].productId == productId {
        assert FindProduct(items[1..], productId).None? by {
          forall i | 0 <= i < |items[1..]| ensures items[1..][i].productId != productId {
            assert items[1..][i] == items[i + 1];
          }
        }
      }
    }
  }

  /** With one line per product, removing a product subtracts exactly its line. */
  lemma {:induction false} SumWithout(items: seq<CartItem>, productId: string, measure: CartItem -> int)
    requires DistinctProducts(items)
    ensures Sum(Without(items, productId), measure) ==
      match FindProduct(items, productId)
      case None => Sum(items, measure)
      case Some(it) => Sum(items, measure) - measure(it)
    decreases |items|
  {
    if items != [] {
      var x, rest := items[0], items[1..];
      assert items == [x] + rest;
      WithoutCons(x, rest, productId);
      DistinctTail(items);
      assert Sum(items, measure) == measure(x) + Sum(rest, measure);
      if x.productId == productId {
        FilterKeepsAll(rest, (it: CartItem) => it.productId != productId);
        assert Without(items, productId) == rest;
        assert FindProduct(items, productId) == Some(x);
      } else {
        SumWithout(rest, productId, measure);
        var w := Without(rest, productId);
        assert Without(items, productId) == [x] + w;
        assert ([x] + w)[0] == x && ([x] + w)[1..] == w;
        assert Sum([x] + w, measure) == measure(x) + Sum(w, measure);
        assert FindProduct(items, productId) == FindProduct(rest, productId);
      }
    }
  }

  /** The tail of a list with one line per product has one line per product, none for the head's product. */
  lemma DistinctTail(items: seq<CartItem>)
    requires DistinctProducts(items) && items != []
    ensures DistinctProducts(items[1..])
    ensures forall i :: 0 <= i < |items[1..]| ==> items[1..][i].productId != items[0].productId
  {
    forall i, j | 0 <= i < j < |items[1..]| ensures items[1..][i].productId != items[1..][j].productId {
      assert items[1..][i] == items[i + 1] && items[1..][j] == items[j + 1];
    }
    forall i | 0 <= i < |items[1..]| ensures items[1..][i].productId != items[0].productId {
      assert items[1..][i] == items[i + 1];
    }
  }

  // ---------------------------------------------------------------------
  // What the actions promise

  /** Merging into an existing line raises the item count by the added quantity, priced at the line's own price. */
  lemma AddExistingTotals(items: seq<CartItem>, item: NewItem, stamp: string)
    requires DistinctProducts(items)
    requires FindProduct(items, item.productId).Some?
    ensures var old_ := FindProduct(items, item.productId).value;
      && TotalItems(WithAdded(items, item, stamp)) == TotalItems(items) + item.quantity
      && TotalPrice(WithAdded(items, item, stamp)) == TotalPrice(items) + old_.price * item.quantity
  {
    AddExistingItems(items, item, stamp);
    AddExistingPrice(items, item, stamp);
  }

  lemma AddExistingItems(items: seq<CartItem>, item: NewItem, stamp: string)
    requires DistinctProducts(items)
    requires FindProduct(items, item.productId).Some?
    ensures TotalItems(WithAdded(items, item, stamp)) == TotalItems(items) + item.quantity
  {
    var add := q => q + item.quantity;
    assert WithAdded(items, item, stamp) == Requantify(items, item.productId, add);
    SumRequantify(items, item.productId, add, Quantity);
  }

  lemma AddExistingPrice(items: seq<CartItem>, item: NewItem, stamp: string)
    requires DistinctProducts(items)
    requires FindProduct(items, item.productId).Some?
    ensures TotalPrice(WithAdded(items, item, stamp)) ==
      TotalPrice(items) + FindProduct(items, item.productId).value.price * item.quantity
  {
    var add := q => q + item.quantity;
    assert WithAdded(items, item, stamp) == Requantify(items, item.productId, add);
    RaisedLinePrice(items, item.productId, item.quantity);
  }

  /** Raising one product's line by `n` raises the price total by `n` times that line's price. */
  lemma RaisedLinePrice(items: seq<CartItem>, productId: string, n: int)
    requires DistinctProducts(items)
    requires FindProduct(items, productId).Some?
    ensures Sum(Requantify(items, productId, q => q + n), LinePrice) ==
      Sum(items, LinePrice) + FindProduct(items, productId).value.price * n
  {
    var it := FindProduct(items, productId).value;
    SumRequantify(items, productId, q => q + n, LinePrice);
    calc {
      LinePrice(it.(quantity := it.quantity + n));
      it.price * (it.quantity + n);
      LinePrice(it) + it.price * n;
    }
  }

  /** A new product adds its own line to both totals. */
  lemma AddNewTotals(items: seq<CartItem>, item: NewItem, stamp: string)
    requires FindProduct(items, item.productId).None?
    ensures TotalItems(WithAdded(items, item, stamp)) == TotalItems(items) + item.quantity
    ensures TotalPrice(WithAdded(items, item, stamp)) == TotalPrice(items) + item.price * item.quantity
  {
    var line := CartItem(stamp, item.productId, item.name, item.price, item.image, item.quantity, item.colors, item.sizes);
    SumAppend(items, [line], Quantity);
    SumAppend(items, [line], LinePrice);
  }

  /** Removing a product subtracts its line from both totals. */
  lemma RemoveTotals(items: seq<CartItem>, productId: string)
    requires DistinctProducts(items)
    ensures var q := match FindProduct(items, productId) case None => 0 case Some(it) => it.quantity;
      TotalItems(Without(items, productId)) == TotalItems(items) - q
    ensures var p := match FindProduct(items, productId) case None => 0 case Some(it) => it.price * it.quantity;
      TotalPrice(Without(items, productId)) == TotalPrice(items) - p
  {
    SumWithout(items, productId, Quantity);
    SumWithout(items, productId, LinePrice);
  }

  /** A positive quantity replaces the line's quantity in the item count. */
  lemma SetQuantityTotals(items: seq<CartItem>, productId: string, quantity: int)
    requires DistinctProducts(items) && quantity > 0
    requires FindProduct(items, productId).Some?
    ensures TotalItems(WithQuantity(items, productId, quantity)) ==
            TotalItems(items) - FindProduct(items, productId).value.quantity + quantity
  {
    SumRequantify(items, productId, _ => quantity, Quantity);
  }

  /** Adding keeps one line per product. */
  lemma AddKeepsDistinct(items: seq<CartItem>, item: NewItem, stamp: string)
    requires DistinctProducts(items)
    ensures DistinctProducts(WithAdded(items, item, stamp))
  {
    var r := WithAdded(items, item, stamp);
    if FindProduct(items, item.productId).None? {
      forall i, j | 0 <= i < j < |r| ensures r[i].productId != r[j].productId {
        if j == |items| {
          assert r[i] == items[i];
        } else {
          assert r[i] == items[i] && r[j] == items[j];
        }
      }
    }
  }

  /** Removing keeps one line per product. */
  lemma {:induction false} RemoveKeepsDistinct(items: seq<CartItem>, productId: string)
    requires DistinctProducts(items)
    ensures DistinctProducts(Without(items, productId))
    decreases |items|
  {
    if items != [] {
      var keep := (it: CartItem) => it.productId != productId;
      assert DistinctProducts(items[1..]) by {
        forall i, j | 0 <= i < j < |items[1..]| ensures items[1..][i].productId != items[1..][j].productId {
          assert items[1..][i] == items[i + 1] && items[1..][j] == items[j + 1];
        }
      }
      RemoveKeepsDistinct(items[1..], productId);
      var tail := Filter(items[1..], keep);
      if keep(items[0]) {
        forall j | 0 <= j < |tail| ensures items[0].productId != tail[j].productId {
          var k :| 0 <= k < |items[1..]| && items[1..][k] == tail[j];
          assert items[k + 1] == tail[j];
        }
      }
    }
  }

  /** Setting a quantity keeps one line per product. */
  lemma UpdateKeepsDistinct(items: seq<CartItem>, productId: string, quantity: int)
    requires DistinctProducts(items)
    ensures DistinctProducts(WithQuantity(items, productId, quantity))
  {
    if quantity <= 0 {
      RemoveKeepsDistinct(items, productId);
    }
  }

  /** After a removal no line for that product is left, and a line for any other product is still there. */
  lemma RemoveIsExact(items: seq<CartItem>, productId: string, other: string)
    requires other != productId
    ensures FindProduct(Without(items, productId), productId).None?
    ensures FindProduct(Without(items, productId), other).Some? <==> FindProduct(items, other).Some?
  {
    var r := Without(items, productId);
    if FindProduct(items, other).Some? {
      var it := FindProduct(items, other).value;
      var k :| 0 <= k < |items| && items[k] == it;
      var m :| 0 <= m < |r| && r[m] == it;
    }
    if FindProduct(r, other).Some? {
      var it := FindProduct(r, other).value;
      var m :| 0 <= m < |r| && r[m] == it;
      var k :| 0 <= k < |items| && items[k] == it;
    }
  }

  // ---------------------------------------------------------------------
  // The store

  /** The part of the state written to local storage under "cart-storage". */
  datatype Persisted = Persisted(items: seq<CartItem>)

  class Cart {
    var items: seq<CartItem>
    var isOpen: bool
    var isLoading: bool

    constructor ()
      ensures items == [] && !isOpen && !isLoading
    {
      items := [];
      isOpen := false;
      isLoading := false;
    }

    predicate Valid()
      reads this
    {
      DistinctProducts(items)
    }

    /** `addItem`; `now` is the clock reading in milliseconds that names a new line. */
    method AddItem(item: NewItem, now: nat)
      requires Valid()
      modifies this`items
      ensures items == WithAdded(old(items), item, DecimalString(now))
      ensures Valid()
    {
      AddKeepsDistinct(items, item, DecimalString(now));
      var existing := FindProduct(items, item.productId);
      if existing.Some? {
        items := Requantify(items, item.productId, q => q + item.quantity);
      } else {
        items := items + [CartItem(DecimalString(now), item.productId, item.name, item.price, item.image,
                                   item.quantity, item.colors, item.sizes)];
      }
    }

    method RemoveItem(productId: string)
      requires Valid()
      modifies this`items
      ensures items == Without(old(items), productId)
      ensures Valid()
    {
      RemoveKeepsDistinct(items, productId);
      items := Filter(items, (it: CartItem) => it.productId != productId);
    }

    /** `updateQuantity`: a non-positive quantity delegates to `removeItem`. */
    method UpdateQuantity(productId: string, quantity: int)
      requires Valid()
      modifies this`items
      ensures items == WithQuantity(old(items), productId, quantity)
      ensures Valid()
    {
      if quantity <= 0 {
        RemoveItem(productId);
        return;
      }
      UpdateKeepsDistinct(items, productId, quantity);
      items := Requantify(items, productId, _ => quantity);
    }

    method ClearCart()
      modifies this`items
      ensures items == [] && Valid()
    {
      items := [];
    }

    method ToggleCart()
      modifies this`isOpen
      ensures isOpen == !old(isOpen)
    {
      isOpen := !isOpen;
    }

    method SetCartOpen(open: bool)
      modifies this`isOpen
      ensures isOpen == open
    {
      isOpen := open;
    }

    method SetLoading(loading: bool)
      modifies this`isLoading
      ensures isLoading == loading
    {
      isLoading := loading;
    }

    function GetTotalItems(): (r: int)
      reads this
      ensures r == TotalItems(items)
    {
      Sum(items, Quantity)
    }

    function GetTotalPrice(): (r: int)
      reads this
      ensures r == TotalPrice(items)
    {
      Sum(items, LinePrice)
    }

    /** `partialize`: only the items are persisted; the drawer and loading flags are not. */
    function Partialize(): (p: Persisted)
      reads this
      ensures p.items == items
    {
      Persisted(items)
    }
  }
}

=== FILE: common.dfy ===
/**
 * Values and list/string helpers shared by the whole storefront model:
 * optional values, JavaScript truthiness, `Array.prototype.filter`,
 * an `orderBy: { createdAt: 'desc' }` sort, `String.prototype.replace`
 * with a string pattern, `String.prototype.split` on one character,
 * `Number.prototype.toString` and `parseInt` on decimal text.
 */
module Common {

  datatype Option<T> = None | Some(value: T)

  /** A JavaScript number as the model needs it: NaN, or an integer. */
  datatype JsNum = NaN | Num(n: int)

  /** `!!s` for a string that may be null/undefined: the empty string is falsy. */
  predicate Truthy(s: Option<string>) {
    s.Some? && s.value != ""
  }

  /** `!!x` for a number: NaN and 0 are falsy. */
  predicate NumTruthy(x: JsNum) {
    x.Num? && x.n != 0
  }

  /** `s || null` */
  function OrNull(s: Option<string>): (r: Option<string>)
    ensures r.Some? <==> Truthy(s)
    ensures r.Some? ==> r == s
  {
    if Truthy(s) then s else None
  }

  /** `s || fallback` */
  function OrDefault(s: Option<string>, fallback: string): (r: string)
    ensures Truthy(s) ==> r == s.value
    ensures !Truthy(s) ==> r == fallback
  {
    if Truthy(s) then s.value else fallback
  }

  // ---------------------------------------------------------------------
  // Array.prototype.filter

  /** The elements of `s` that `keep` accepts, in their original order. */
  function Filter<T>(s: seq<T>, keep: T -> bool): (r: seq<T>)
    ensures |r| <= |s|
    ensures forall i :: 0 <= i < |r| ==> r[i] in s && keep(r[i])
    ensures forall i :: 0 <= i < |s| && keep(s[i]) ==> s[i] in r
    decreases |s|
  {
    if s == [] then []
    else (if keep(s[0]) then [s[0]] else []) + Filter(s[1..], keep)
  }

  /** Filtering a concatenation filters each part: the order of kept elements is preserved. */
  lemma {:induction false} FilterAppend<T>(a: seq<T>, b: seq<T>, keep: T -> bool)
    ensures Filter(a + b, keep) == Filter(a, keep) + Filter(b, keep)
    decreases |a|
  {
    if a == [] {
      assert a + b == b;
    } else {
      assert (a + b)[1..] == a[1..] + b;
      FilterAppend(a[1..], b, keep);
    }
  }

  /** Filtering with a predicate that accepts every element changes nothing. */
  lemma {:induction false} FilterKeepsAll<T>(s: seq<T>, keep: T -> bool)
    requires forall i :: 0 <= i < |s| ==> keep(s[i])
    ensures Filter(s, keep) == s
    decreases |s|
  {
    if s != [] {
      FilterKeepsAll(s[1..], keep);
    }
  }

  /** Each element occurs in the filtered sequence as often as in `s` if kept, never otherwise. */
  lemma {:induction false} FilterMultiset<T>(s: seq<T>, keep: T -> bool, y: T)
    ensures multiset(Filter(s, keep))[y] == if keep(y) then multiset(s)[y] else 0
    decreases |s|
  {
    if s != [] {
      FilterMultiset(s[1..], keep, y);
      assert s == [s[0]] + s[1..];
      assert multiset(s) == multiset{s[0]} + multiset(s[1..]);
    }
  }

  // ---------------------------------------------------------------------
  // findMany({ orderBy: { <key>: 'desc' } })

  predicate SortedDesc<T>(s: seq<T>, key: T -> int) {
    forall i, j :: 0 <= i < j < |s| ==> key(s[i]) >= key(s[j])
  }

  function InsertDesc<T>(x: T, s: seq<T>, key: T -> int): (r: seq<T>)
    ensures multiset(r) == multiset(s) + multiset{x}
    ensures |r| == |s| + 1 && (r[0] == x || (s != [] && r[0] == s[0]))
    decreases |s|
  {
    if s == [] then [x]
    else if key(x) >= key(s[0]) then [x] + s
    else
      assert s == [s[0]] + s[1..];
      [s[0]] + InsertDesc(x, s[1..], key)
  }

  /** Inserting into a sorted list keeps it sorted. */
  lemma {:induction false} InsertDescSorted<T>(x: T, s: seq<T>, key: T -> int)
    requires SortedDesc(s, key)
    ensures SortedDesc(InsertDesc(x, s, key), key)
    decreases |s|
  {
    if s != [] && key(x) < key(s[0]) {
      var tail := InsertDesc(x, s[1..], key);
      InsertDescSorted(x, s[1..], key);
      var r := [s[0]] + tail;
      assert r == InsertDesc(x, s, key);
      assert key(s[0]) >= key(tail[0]);
      forall i, j | 0 <= i < j < |r| ensures key(r[i]) >= key(r[j]) {
        assert r[j] == tail[j - 1];
        if i > 0 {
          assert r[i] == tail[i - 1];
        } else if j > 1 {
          assert key(tail[0]) >= key(tail[j - 1]);
        }
      }
    }
  }

  function SortDesc<T>(s: seq<T>, key: T -> int): (r: seq<T>)
    ensures SortedDesc(r, key)
    ensures multiset(r) == multiset(s)
    decreases |s|
  {
    if s == [] then []
    else
      assert s == [s[0]] + s[1..];
      InsertDescSorted(s[0], SortDesc(s[1..], key), key);
      InsertDesc(s[0], SortDesc(s[1..], key), key)
  }

  /** A row is returned by a sorted read iff it is one of the rows read. */
  lemma SortDescMembers<T>(s: seq<T>, key: T -> int, x: T)
    ensures x in SortDesc(s, key) <==> x in s
  {
    assert x in SortDesc(s, key) <==> x in multiset(SortDesc(s, key));
    assert x in s <==> x in multiset(s);
  }

  /**
   * `findMany({ where, orderBy: { createdAt: 'desc' } })`: exactly the rows `where` accepts,
   * each as often as stored, with `key` never increasing.
   */
  function FindManyDesc<T>(rows: seq<T>, where: T -> bool, key: T -> int): (r: seq<T>)
    ensures SortedDesc(r, key)
    ensures multiset(r) == multiset(Filter(rows, where))
    ensures forall i :: 0 <= i < |r| ==> where(r[i]) && r[i] in rows
    ensures forall i :: 0 <= i < |rows| && where(rows[i]) ==> rows[i] in r
  {
    var selected := Filter(rows, where);
    var r := SortDesc(selected, key);
    forall i | 0 <= i < |r| ensures where(r[i]) && r[i] in rows {
      SortDescMembers(selected, key, r[i]);
    }
    forall i | 0 <= i < |rows| && where(rows[i]) ensures rows[i] in r {
      SortDescMembers(selected, key, rows[i]);
    }
    r
  }

  // ---------------------------------------------------------------------
  // String.prototype.indexOf / includes / replace with a string pattern

  predicate OccursAt(s: string, pat: string, j: nat) {
    j + |pat| <= |s| && s[j..j + |pat|] == pat
  }

  /** The first position where `pat` occurs in `s`. */
  function IndexOf(s: string, pat: string): (r: Option<nat>)
    ensures r.Some? ==> OccursAt(s, pat, r.value)
    ensures r.Some? ==> forall j: nat :: j < r.value ==> !OccursAt(s, pat, j)
    ensures r.None? ==> forall j: nat :: !OccursAt(s, pat, j)
    decreases |s|
  {
    if pat <= s then
      assert s[0..|pat|] == pat;
      Some(0)
    else if s == [] then
      assert |pat| > 0;
      None
    else
      var tail := IndexOf(s[1..], pat);
      assert !OccursAt(s, pat, 0) by { assert !(pat <= s); }
      assert forall j: nat :: OccursAt(s, pat, j + 1) <==> OccursAt(s[1..], pat, j) by {
        forall j: nat ensures OccursAt(s, pat, j + 1) <==> OccursAt(s[1..], pat, j) {
          if j + 1 + |pat| <= |s| {
            assert s[j + 1..j + 1 + |pat|] == s[1..][j..j + |pat|];
          }
        }
      }
      match tail
      case None =>
        assert forall j: nat :: !OccursAt(s, pat, j) by {
          forall j: nat ensures !OccursAt(s, pat, j) {
            if j > 0 { assert !OccursAt(s[1..], pat, j - 1); }
          }
        }
        None
      case Some(k) =>
        assert forall j: nat :: j < k + 1 ==> !OccursAt(s, pat, j) by {
          forall j: nat | j < k + 1 ensures !OccursAt(s, pat, j) {
            if j > 0 { assert !OccursAt(s[1..], pat, j - 1); }
          }
        }
        Some(k + 1)
  }

  /** `s.includes(pat)` */
  predicate Contains(s: string, pat: string) {
    IndexOf(s, pat).Some?
  }

  /** `s.replace(pat, "")`: only the first occurrence of `pat` is removed. */
  function RemoveFirst(s: string, pat: string): (r: string)
    ensures IndexOf(s, pat).None? ==> r == s
    ensures IndexOf(s, pat).Some? ==>
      var k := IndexOf(s, pat).value;
      |r| == |s| - |pat| && r[..k] == s[..k] && r[k..] == s[k + |pat|..]
    ensures pat <= s ==> r == s[|pat|..]
  {
    match IndexOf(s, pat)
    case None => s
    case Some(k) =>
      assert OccursAt(s, pat, k);
      if pat <= s then
        assert OccursAt(s, pat, 0);
        s[|pat|..]
      else
        s[..k] + s[k + |pat|..]
  }

  /** A string that starts with the pattern loses exactly that prefix. */
  lemma RemoveLeading(pat: string, rest: string)
    ensures RemoveFirst(pat + rest, pat) == rest
  {
    assert pat <= pat + rest;
    assert (pat + rest)[|pat|..] == rest;
  }

  // ---------------------------------------------------------------------
  // String.prototype.split with a one-character separator

  /** `s.split(sep)`: always at least one part (`"".split(",")` is `[""]`). */
  function Split(s: string, sep: char): (r: seq<string>)
    ensures |r| >= 1
    ensures forall i :: 0 <= i < |r| ==> sep !in r[i]
    decreases |s|
  {
    if s == [] then [""]
    else
      var rest := Split(s[1..], sep);
      if s[0] == sep then [""] + rest
      else [[s[0]] + rest[0]] + rest[1..]
  }

  /** `parts.join(sep)` */
  function Join(parts: seq<string>, sep: char): string
    requires |parts| >= 1
    decreases |parts|
  {
    if |parts| == 1 then parts[0] else parts[0] + [sep] + Join(parts[1..], sep)
  }

  /** Splitting loses nothing: joining the parts back gives the original text. */
  lemma {:induction false} JoinSplit(s: string, sep: char)
    ensures Join(Split(s, sep), sep) == s
    decreases |s|
  {
    if s != [] {
      var rest := Split(s[1..], sep);
      JoinSplit(s[1..], sep);
      if s[0] == sep {
        assert ([""] + rest)[1..] == rest;
        assert s == [sep] + s[1..];
      } else {
        var parts := [[s[0]] + rest[0]] + rest[1..];
        if |rest| == 1 {
          assert Join(parts, sep) == [s[0]] + rest[0];
          assert s == [s[0]] + s[1..];
        } else {
          assert parts[1..] == rest[1..];
          assert Join(rest, sep) == rest[0] + [sep] + Join(rest[1..], sep);
          assert s == [s[0]] + s[1..];
        }
      }
    }
  }

  // ---------------------------------------------------------------------
  // Decimal text: (n).toString() and parseInt(text)

  predicate IsDigit(c: char) {
    '0' <= c <= '9'
  }

  function DigitChar(d: nat): (c: char)
    requires d < 10
    ensures IsDigit(c) && DigitValue(c) == d
  {
    "0123456789"[d]
  }

  function DigitValue(c: char): nat
    requires IsDigit(c)
  {
    (c as int - '0' as int) as nat
  }

  /** `n.toString()` for a non-negative integer. */
  function DecimalString(n: nat): (r: string)
    ensures |r| >= 1
    ensures forall i :: 0 <= i < |r| ==> IsDigit(r[i])
    decreases n
  {
    if n < 10 then [DigitChar(n)]
    else DecimalString(n / 10) + [DigitChar(n % 10)]
  }

  /** The value of a string of decimal digits. */
  function DecimalValue(s: string): nat
    requires forall i :: 0 <= i < |s| ==> IsDigit(s[i])
    decreases |s|
  {
    if s == [] then 0
    else DecimalValue(s[..|s| - 1]) * 10 + DigitValue(s[|s| - 1])
  }

  lemma {:induction false} DecimalRoundTrip(n: nat)
    ensures DecimalValue(DecimalString(n)) == n
    decreases n
  {
    if n >= 10 {
      DecimalRoundTrip(n / 10);
      var s := DecimalString(n);
      assert s[..|s| - 1] == DecimalString(n / 10);
    }
  }

  function Pow10(k: nat): (r: nat)
    ensures r >= 1
  {
    if k == 0 then 1 else 10 * Pow10(k - 1)
  }

  /** A number with k + 1 decimal digits prints as k + 1 characters, the first one not '0'. */
  lemma {:induction false} DecimalLength(n: nat, k: nat)
    requires Pow10(k) <= n < Pow10(k + 1)
    ensures |DecimalString(n)| == k + 1
    ensures DecimalString(n)[0] != '0'
    decreases k
  {
    if k == 0 {
      assert 1 <= n < 10;
    } else {
      assert Pow10(k) == 10 * Pow10(k - 1);
      assert Pow10(k + 1) == 10 * Pow10(k);
      assert Pow10(k - 1) <= n / 10 < Pow10(k);
      DecimalLength(n / 10, k - 1);
    }
  }

  /** Every number from 100000 to 999999 prints as six digits, the first one not '0'. */
  lemma SixDigits(n: nat)
    requires 100000 <= n <= 999999
    ensures |DecimalString(n)| == 6 && DecimalString(n)[0] != '0'
  {
    assert Pow10(5) == 100000 by {
      assert Pow10(1) == 10;
      assert Pow10(2) == 100;
      assert Pow10(3) == 1000;
      assert Pow10(4) == 10000;
    }
    assert Pow10(6) == 1000000;
    DecimalLength(n, 5);
  }

  /**
   * The characters `parseInt` skips before the number: ECMAScript's white space (tab,
   * vertical tab, form feed, space, no-break space, the byte order mark and the Unicode
   * space separators) and its line terminators (LF, CR, LS, PS).
   */
  predicate IsSpace(c: char) {
    || c == '\t' || c == '\n' || c == '\U{000B}' || c == '\U{000C}' || c == '\r' || c == ' '
    || c == '\U{00A0}' || c == '\U{1680}' || ('\U{2000}' <= c <= '\U{200A}')
    || c == '\U{2028}' || c == '\U{2029}' || c == '\U{202F}' || c == '\U{205F}'
    || c == '\U{3000}' || c == '\U{FEFF}'
  }

  /** The text after its leading white space; it no longer starts with white space. */
  function TrimStart(s: string): (r: string)
    ensures |r| <= |s|
    ensures r == [] || !IsSpace(r[0])
    decreases |s|
  {
    if s != [] && IsSpace(s[0]) then TrimStart(s[1..]) else s
  }

  /** Trimming keeps a suffix of the text and drops only white space. */
  lemma {:induction false} TrimStartSuffix(s: string)
    ensures var r := TrimStart(s);
      && r == s[|s| - |r|..]
      && forall i :: 0 <= i < |s| - |r| ==> IsSpace(s[i])
    decreases |s|
  {
    if s != [] && IsSpace(s[0]) {
      var r := TrimStart(s[1..]);
      TrimStartSuffix(s[1..]);
      assert s[1..][|s| - 1 - |r|..] == s[|s| - |r|..];
      forall i | 1 <= i < |s| - |r| ensures IsSpace(s[i]) {
        assert s[i] == s[1..][i - 1];
      }
    }
  }

  /** Leading white space does not change what is left after trimming. */
  lemma {:induction false} TrimStartSpaces(ws: string, s: string)
    requires forall i :: 0 <= i < |ws| ==> IsSpace(ws[i])
    ensures TrimStart(ws + s) == TrimStart(s)
    decreases |ws|
  {
    if ws != [] {
      assert (ws + s)[1..] == ws[1..] + s;
      TrimStartSpaces(ws[1..], s);
    } else {
      assert ws + s == s;
    }
  }

  /** The longest prefix of `s` made of decimal digits. */
  function LeadingDigits(s: string): (r: string)
    ensures r <= s
    ensures forall i :: 0 <= i < |r| ==> IsDigit(r[i])
    ensures |r| < |s| ==> !IsDigit(s[|r|])
    decreases |s|
  {
    if s != [] && IsDigit(s[0]) then [s[0]] + LeadingDigits(s[1..]) else []
  }

  /** A run of digits followed by a non-digit reads as exactly that run. */
  lemma {:induction false} LeadingDigitsAppend(d: string, rest: string)
    requires forall i :: 0 <= i < |d| ==> IsDigit(d[i])
    requires rest == [] || !IsDigit(rest[0])
    ensures LeadingDigits(d + rest) == d
    decreases |d|
  {
    if d != [] {
      assert (d + rest)[1..] == d[1..] + rest;
      LeadingDigitsAppend(d[1..], rest);
    } else {
      assert d + rest == rest;
    }
  }

  predicate IsHexDigit(c: char) {
    IsDigit(c) || 'a' <= c <= 'f' || 'A' <= c <= 'F'
  }

  function HexDigitValue(c: char): (v: nat)
    requires IsHexDigit(c)
    ensures v < 16
  {
    if IsDigit(c) then DigitValue(c)
    else if 'a' <= c <= 'f' then (c as int - 'a' as int + 10) as nat
    else (c as int - 'A' as int + 10) as nat
  }

  /** The longest prefix of `s` made of hexadecimal digits. */
  function LeadingHexDigits(s: string): (r: string)
    ensures r <= s
    ensures forall i :: 0 <= i < |r| ==> IsHexDigit(r[i])
    ensures |r| < |s| ==> !IsHexDigit(s[|r|])
    decreases |s|
  {
    if s != [] && IsHexDigit(s[0]) then [s[0]] + LeadingHexDigits(s[1..]) else []
  }

  /** The value of a string of hexadecimal digits. */
  function HexValue(s: string): nat
    requires forall i :: 0 <= i < |s| ==> IsHexDigit(s[i])
    decreases |s|
  {
    if s == [] then 0
    else HexValue(s[..|s| - 1]) * 16 + HexDigitValue(s[|s| - 1])
  }

  /** The text after one optional sign. */
  function Unsigned(t: string): string {
    if t != [] && (t[0] == '+' || t[0] == '-') then t[1..] else t
  }

  /** Without a radix argument, `parseInt` reads text starting "0x" or "0X" as hexadecimal. */
  predicate HexPrefixed(b: string) {
    |b| >= 2 && b[0] == '0' && (b[1] == 'x' || b[1] == 'X')
  }

  /** What `parseInt` reads after the sign: hexadecimal digits after the prefix, decimal ones otherwise. */
  function Magnitude(b: string): Option<nat> {
    if HexPrefixed(b) then
      var h := LeadingHexDigits(b[2..]);
      if h == [] then None else Some(HexValue(h))
    else
      var d := LeadingDigits(b);
      if d == [] then None else Some(DecimalValue(d))
  }

  /**
   * `parseInt(s)` without a radix: leading white space, an optional sign, then the longest
   * run of hexadecimal digits after "0x"/"0X" or of decimal digits otherwise; NaN when
   * there is none.
   */
  function ParseInt(s: string): (r: JsNum)
    ensures var t := TrimStart(s); var b := Unsigned(t);
      && (b == [] || !IsDigit(b[0]) ==> r.NaN?)
      && (HexPrefixed(b) && LeadingHexDigits(b[2..]) == [] ==> r.NaN?)
      && (b != [] && IsDigit(b[0]) && !HexPrefixed(b) ==> r.Num?)
      && (r.Num? && r.n < 0 ==> t != [] && t[0] == '-')
      && (r.Num? && r.n > 0 ==> t == [] || t[0] != '-')
  {
    var t := TrimStart(s);
    match Magnitude(Unsigned(t))
    case None => NaN
    case Some(m) =>
      var v: int := m;
      Num(if t != [] && t[0] == '-' then -v else v)
  }

  /** The sign of `parseInt`'s result, applied to the magnitude. */
  function Negate(x: JsNum): JsNum {
    match x
    case NaN => NaN
    case Num(n) => Num(-n)
  }

  /** Text that starts with neither white space nor a sign is read as its magnitude. */
  lemma ReadsUnsigned(s: string)
    requires s == [] || (!IsSpace(s[0]) && s[0] != '+' && s[0] != '-')
    ensures ParseInt(s) == match Magnitude(s) case None => NaN case Some(k) => Num(k)
  {
    assert TrimStart(s) == s;
    assert Unsigned(s) == s;
  }

  /** A minus sign in front of unsigned text negates what it reads. */
  lemma ParseIntMinus(s: string)
    requires s == [] || (!IsSpace(s[0]) && s[0] != '+' && s[0] != '-')
    ensures ParseInt("-" + s) == Negate(ParseInt(s))
  {
    ReadsUnsigned(s);
    assert TrimStart("-" + s) == "-" + s;
    assert Unsigned("-" + s) == s;
  }

  /** A plus sign in front of unsigned text changes nothing. */
  lemma ParseIntPlus(s: string)
    requires s == [] || (!IsSpace(s[0]) && s[0] != '+' && s[0] != '-')
    ensures ParseInt("+" + s) == ParseInt(s)
  {
    ReadsUnsigned(s);
    assert TrimStart("+" + s) == "+" + s;
    assert Unsigned("+" + s) == s;
  }

  /** White space before the number is ignored. */
  lemma ParseIntSkipsSpace(ws: string, s: string)
    requires forall i :: 0 <= i < |ws| ==> IsSpace(ws[i])
    ensures ParseInt(ws + s) == ParseInt(s)
  {
    TrimStartSpaces(ws, s);
  }

  /** A printed number followed by anything but a digit (or an 'x' after a lone "0") reads as that number. */
  lemma ParseIntStopsAtNonDigit(n: nat, rest: string)
    requires rest == [] || (!IsDigit(rest[0]) && !(n == 0 && (rest[0] == 'x' || rest[0] == 'X')))
    ensures ParseInt(DecimalString(n) + rest) == Num(n)
  {
    var d := DecimalString(n);
    var s := d + rest;
    assert s[0] == d[0];
    assert TrimStart(s) == s;
    assert Unsigned(s) == s;
    assert !HexPrefixed(s) by {
      if |d| == 1 {
        if d[0] == '0' {
          assert n == 0;
        }
      } else {
        assert s[1] == d[1];
      }
    }
    LeadingDigitsAppend(d, rest);
    DecimalRoundTrip(n);
  }

  /** Printed numbers carry no sign, no white space and no hexadecimal prefix. */
  lemma PrintedPlain(n: nat)
    ensures var d := DecimalString(n); TrimStart(d) == d && Unsigned(d) == d && !HexPrefixed(d)
  {
    var d := DecimalString(n);
    if |d| == 1 && d[0] == '0' {
      assert n == 0;
    }
  }

  /** Printing a number and parsing it back gives the number. */
  lemma ParsePrinted(n: nat)
    ensures ParseInt(DecimalString(n)) == Num(n)
    ensures ParseFloat(DecimalString(n)) == Num(n)
  {
    ParseIntStopsAtNonDigit(n, []);
    assert DecimalString(n) + [] == DecimalString(n);
    PrintedPlain(n);
  }

  /** Hexadecimal text is read in base 16; a bare prefix is NaN. */
  lemma ParseIntHex()
    ensures ParseInt("0x2") == Num(2)
    ensures ParseInt("0x") == NaN
  {
    assert TrimStart("0x2") == "0x2";
    assert LeadingHexDigits("2") == "2";
    assert TrimStart("0x") == "0x";
  }

  /** A sign may precede the prefix. */
  lemma ParseIntHexSigned()
    ensures ParseInt("-0x1A") == Num(-26)
  {
    assert TrimStart("-0x1A") == "-0x1A";
    assert Unsigned("-0x1A") == "0x1A";
    assert LeadingHexDigits("1A") == "1A";
    assert HexValue("1A") == HexValue("1") * 16 + 10;
  }

  /**
   * The whole-number reading of `parseFloat(s)`: like `parseInt`, except that "0x" is no
   * prefix (reading stops at the 'x').
   */
  function ParseFloat(s: string): (r: JsNum)
    ensures !HexPrefixed(Unsigned(TrimStart(s))) ==> r == ParseInt(s)
    ensures HexPrefixed(Unsigned(TrimStart(s))) ==> r == Num(0)
  {
    var t := TrimStart(s);
    var d := LeadingDigits(Unsigned(t));
    if d == [] then NaN
    else
      var v: int := DecimalValue(d);
      if HexPrefixed(Unsigned(t)) then
        assert d == "0";
        Num(0)
      else Num(if t != [] && t[0] == '-' then -v else v)
  }

  // ---------------------------------------------------------------------
  // ASCII case folding, for `contains` with `mode: 'insensitive'`

  function LowerChar(c: char): char {
    if 'A' <= c <= 'Z' then (c as int - 'A' as int + 'a' as int) as char else c
  }

  function Lower(s: string): (r: string)
    ensures |r| == |s|
    ensures forall i :: 0 <= i < |s| ==> r[i] == LowerChar(s[i])
  {
    seq(|s|, i requires 0 <= i < |s| => LowerChar(s[i]))
  }
}

=== FILE: contact_route.dfy ===
/**
 * POST /api/contact (src/app/api/contact/route.ts): store a contact-form
 * submission.
 */
module ContactRoute {
  import opened Common
  import opened Schema
  import opened AuthLib
  import opened RequestAuth
  import opened UserHistory

  const ContactFieldsRequired: string := "Name, email, subject, and message are required"

  datatype ContactInput = ContactInput(name: Option<string>, email: Option<string>, phone: Option<string>,
                                       subject: Option<string>, message: Option<string>)

  predicate ContactComplete(b: ContactInput) {
    Truthy(b.name) && Truthy(b.email) && Truthy(b.subject) && Truthy(b.message)
  }

  datatype ContactResult = ContactResult(reply: Reply<Receipt>, forms: seq<ContactForm>)

  /** What one POST does. */
  function SubmitSpec(forms: seq<ContactForm>, b: ContactInput, freshId: string, now: int): (r: ContactResult)
    ensures r.reply.Ok? <==> ContactComplete(b)
    ensures !ContactComplete(b) ==> r == ContactResult(Fail(400, ContactFieldsRequired), forms)
    ensures ContactComplete(b) ==>
      && r.reply == Ok(200, Receipt("Contact form submitted successfully", freshId))
      && |r.forms| == |forms| + 1 && r.forms[..|forms|] == forms
      && r.forms[|forms|] == ContactForm(freshId, b.name.value, b.email.value, OrNull(b.phone),
                                         b.subject.value, b.message.value, "new", now)
  {
    if !ContactComplete(b) then ContactResult(Fail(400, ContactFieldsRequired), forms)
    else
      var row := ContactForm(freshId, b.name.value, b.email.value, OrNull(b.phone),
                             b.subject.value, b.message.value, "new", now);
      assert (forms + [row])[..|forms|] == forms;
      ContactResult(Ok(200, Receipt("Contact form submitted successfully", freshId)), forms + [row])
  }

  /** The POST handler: it writes only the contact-form table. */
  method Submit(db: Database, b: ContactInput, freshId: string, now: int) returns (reply: Reply<Receipt>)
    modifies db`contactForms
    ensures SubmitSpec(old(db.contactForms), b, freshId, now) == ContactResult(reply, db.contactForms)
  {
    if !ContactComplete(b) {
      return Fail(400, ContactFieldsRequired);
    }
    var row := ContactForm(freshId, b.name.value, b.email.value, OrNull(b.phone),
                           b.subject.value, b.message.value, "new", now);
    db.contactForms := db.contactForms + [row];
    reply := Ok(200, Receipt("Contact form submitted successfully", freshId));
  }

  /** A stored submission appears in the history of the account registered under its email. */
  lemma SubmittedFormListed(users: seq<User>, forms: seq<ContactForm>, b: ContactInput, freshId: string, now: int,
                            cookie: Option<string>, authorization: Option<string>, jwt: Jwt, env: Env)
    requires ContactComplete(b)
    requires var after := SubmitSpec(forms, b, freshId, now).forms;
      UserContactForms(users, after, cookie, authorization, jwt, env).Ok?
    requires b.email.value == FindById(users, Authenticate(cookie, authorization, jwt, env).claims.userId).value.email
    ensures var after := SubmitSpec(forms, b, freshId, now).forms;
      after[|forms|] in UserContactForms(users, after, cookie, authorization, jwt, env).body
  {
  }
}

=== FILE: filter_sidebar.dfy ===
/**
 * The catalogue filter sidebar (src/components/product/FilterSidebar.tsx) and
 * the products page that merges its changes into the filter state
 * (src/app/(shop)/products/page.tsx). The handlers compute a new list or range
 * and report that one field; the page lays the report over its state.
 */
module FilterSidebar {
  import opened Common

  datatype ViewMode = Grid | ListView

  datatype PriceRange = PriceRange(lo: int, hi: int)

  datatype FilterState = FilterState(search: string, categories: seq<string>, subcategories: seq<string>,
                                     priceRange: PriceRange, colors: seq<string>, sortBy: string,
                                     viewMode: ViewMode)

  /** The `Partial<FilterState>` a handler reports: exactly one field. */
  datatype FilterChange =
    | CategoriesChange(categories: seq<string>)
    | SubcategoriesChange(subcategories: seq<string>)
    | ColorsChange(colors: seq<string>)
    | PriceRangeChange(priceRange: PriceRange)

  /** A checkbox change: checking appends (even a slug already present); unchecking removes every copy. */
  function Toggle(list: seq<string>, slug: string, checked: bool): (r: seq<string>)
    ensures checked ==> |r| == |list| + 1 && r[..|list|] == list && r[|list|] == slug
    ensures !checked ==> slug !in r
    ensures !checked ==> forall x :: x != slug ==> multiset(r)[x] == multiset(list)[x]
  {
    if checked then
      assert (list + [slug])[..|list|] == list;
      list + [slug]
    else
      var r := Filter(list, (c: string) => c != slug);
      forall x | x != slug ensures multiset(r)[x] == multiset(list)[x] {
        FilterMultiset(list, (c: string) => c != slug, x);
      }
      r
  }

  /** Unchecking works element by element from the front: the other slugs stay in their order. */
  lemma UncheckCons(x: string, rest: seq<string>, slug: string)
    ensures Toggle([x] + rest, slug, false) == (if x == slug then [] else [x]) + Toggle(rest, slug, false)
  {
    assert ([x] + rest)[0] == x && ([x] + rest)[1..] == rest;
  }

  /** Unchecking in two parts of the list unchecks in each and keeps them in order. */
  lemma UncheckAppend(a: seq<string>, b: seq<string>, slug: string)
    ensures Toggle(a + b, slug, false) == Toggle(a, slug, false) + Toggle(b, slug, false)
  {
    FilterAppend(a, b, (c: string) => c != slug);
  }

  function HandleCategoryChange(f: FilterState, slug: string, checked: bool): (c: FilterChange)
    ensures ApplyChange(f, c) == f.(categories := Toggle(f.categories, slug, checked))
    ensures checked <==> slug in ApplyChange(f, c).categories
  {
    CategoriesChange(Toggle(f.categories, slug, checked))
  }

  function HandleSubcategoryChange(f: FilterState, slug: string, checked: bool): (c: FilterChange)
    ensures ApplyChange(f, c) == f.(subcategories := Toggle(f.subcategories, slug, checked))
    ensures checked <==> slug in ApplyChange(f, c).subcategories
  {
    SubcategoriesChange(Toggle(f.subcategories, slug, checked))
  }

  function HandleColorChange(f: FilterState, color: string, checked: bool): (c: FilterChange)
    ensures ApplyChange(f, c) == f.(colors := Toggle(f.colors, color, checked))
    ensures checked <==> color in ApplyChange(f, c).colors
  {
    ColorsChange(Toggle(f.colors, color, checked))
  }

  /** The two number inputs call this with index 0 (minimum) or 1 (maximum). */
  function HandlePriceRangeChange(f: FilterState, index: nat, value: int): (c: FilterChange)
    requires index < 2
    ensures c.PriceRangeChange?
    ensures index == 0 ==> c.priceRange == PriceRange(value, f.priceRange.hi)
    ensures index == 1 ==> c.priceRange == PriceRange(f.priceRange.lo, value)
  {
    if index == 0 then PriceRangeChange(f.priceRange.(lo := value))
    else PriceRangeChange(f.priceRange.(hi := value))
  }

  /** `setFilters(prev => ({ ...prev, ...newFilters }))`: the reported field replaces the old one. */
  function ApplyChange(f: FilterState, c: FilterChange): (r: FilterState)
    ensures c.CategoriesChange? ==> r == f.(categories := c.categories)
    ensures c.SubcategoriesChange? ==> r == f.(subcategories := c.subcategories)
    ensures c.ColorsChange? ==> r == f.(colors := c.colors)
    ensures c.PriceRangeChange? ==> r == f.(priceRange := c.priceRange)
  {
    match c
    case CategoriesChange(l) => f.(categories := l)
    case SubcategoriesChange(l) => f.(subcategories := l)
    case ColorsChange(l) => f.(colors := l)
    case PriceRangeChange(p) => f.(priceRange := p)
  }

  const MaxPrice: int := 50000

  /** The price range counts as one filter when it narrows the default range. */
  predicate PriceNarrowed(p: PriceRange) {
    p.lo > 0 || p.hi < MaxPrice
  }

  function ActiveFiltersCount(f: FilterState): (n: nat)
    ensures n == 0 <==> f.categories == [] && f.subcategories == [] && f.colors == [] && !PriceNarrowed(f.priceRange)
    ensures |f.categories| + |f.subcategories| + |f.colors| <= n <= |f.categories| + |f.subcategories| + |f.colors| + 1
  {
    |f.categories| + |f.subcategories| + |f.colors| + (if PriceNarrowed(f.priceRange) then 1 else 0)
  }

  /** The state `clearFilters` installs. */
  const Cleared: FilterState := FilterState("", [], [], PriceRange(0, MaxPrice), [], "newest", Grid)

  /** No active filter means no selected slug, no colour and the full price range ("Clear All" is hidden). */
  lemma NoActiveFilters(f: FilterState)
    ensures ActiveFiltersCount(f) == 0 <==>
      f.categories == [] && f.subcategories == [] && f.colors == [] && f.priceRange.lo <= 0 && f.priceRange.hi >= MaxPrice
    ensures ActiveFiltersCount(Cleared) == 0
  {
  }

  /** Checking a category adds one to the count, whether or not it was already selected. */
  lemma CheckCounts(f: FilterState, slug: string)
    ensures ActiveFiltersCount(ApplyChange(f, HandleCategoryChange(f, slug, true))) == ActiveFiltersCount(f) + 1
  {
  }

  /** Unchecking right after checking is the same as unchecking alone: every copy goes. */
  lemma UncheckAfterCheck(list: seq<string>, slug: string)
    ensures Toggle(Toggle(list, slug, true), slug, false) == Toggle(list, slug, false)
  {
    var keep := (c: string) => c != slug;
    FilterAppend(list, [slug], keep);
    assert Filter([slug], keep) == [];
  }

  /** Unchecking a slug that is not selected leaves the list as it was. */
  lemma UncheckAbsent(list: seq<string>, slug: string)
    requires slug !in list
    ensures Toggle(list, slug, false) == list
  {
    FilterKeepsAll(list, (c: string) => c != slug);
  }

  /** The minimum input: `parseInt(text) || 0`, so NaN and 0 both give 0. */
  function MinInput(text: string): (v: int)
    ensures ParseInt(text).NaN? ==> v == 0
    ensures ParseInt(text).Num? ==> v == ParseInt(text).n
  {
    var x := ParseInt(text);
    if NumTruthy(x) then x.n else 0
  }

  /** The maximum input: `parseInt(text) || 50000`, so NaN and 0 both give 50000. */
  function MaxInput(text: string): (v: int)
    ensures ParseInt(text).NaN? || ParseInt(text) == Num(0) ==> v == MaxPrice
    ensures NumTruthy(ParseInt(text)) ==> v == ParseInt(text).n
  {
    var x := ParseInt(text);
    if NumTruthy(x) then x.n else MaxPrice
  }

  /** Clearing the maximum field (typing 0 or nothing) restores the unbounded maximum. */
  lemma MaxInputZeroRestoresDefault(f: FilterState)
    ensures var r := ApplyChange(f, HandlePriceRangeChange(f, 1, MaxInput("0")));
      r.priceRange.hi == MaxPrice && r.priceRange.lo == f.priceRange.lo
    ensures var r := ApplyChange(f, HandlePriceRangeChange(f, 1, MaxInput("")));
      r.priceRange.hi == MaxPrice && r.priceRange.lo == f.priceRange.lo
  {
    ParsePrinted(0);
  }

  // ---------------------------------------------------------------------
  // Collapsible sections

  datatype Section = Categories | Price | Colors

  datatype Expanded = Expanded(categories: bool, price: bool, colors: bool)

  const InitiallyExpanded: Expanded := Expanded(true, true, true)

  function IsOpen(e: Expanded, s: Section): bool {
    match s
    case Categories => e.categories
    case Price => e.price
    case Colors => e.colors
  }

  /** `toggleSection`: flips the named section and no other. */
  function ToggleSection(e: Expanded, s: Section): (r: Expanded)
    ensures IsOpen(r, s) == !IsOpen(e, s)
    ensures forall t :: t != s ==> IsOpen(r, t) == IsOpen(e, t)
  {
    match s
    case Categories => e.(categories := !e.categories)
    case Price => e.(price := !e.price)
    case Colors => e.(colors := !e.colors)
  }

  /** Toggling twice restores the sections. */
  lemma ToggleSectionTwice(e: Expanded, s: Section)
    ensures ToggleSection(ToggleSection(e, s), s) == e
  {
  }
}

=== FILE: inquiries_route.dfy ===
/**
 * POST and GET /api/inquiries (src/app/api/inquiries/route.ts): store a
 * product inquiry, and list inquiries, optionally narrowed by user and product.
 */
module InquiriesRoute {
  import opened Common
  import opened Schema

  const InquiryFieldsRequired: string := "Name, email, and message are required"

  datatype InquiryInput = InquiryInput(name: Option<string>, email: Option<string>, phone: Option<string>,
                                       message: Option<string>, productId: Option<string>, userId: Option<string>)

  datatype InquiryResult = InquiryResult(reply: Reply<Inquiry>, inquiries: seq<Inquiry>)

  /** What one POST does: the stored row is returned with status 201. */
  function InquireSpec(inquiries: seq<Inquiry>, b: InquiryInput, freshId: string, now: int): (r: InquiryResult)
    ensures r.reply.Ok? <==> Truthy(b.name) && Truthy(b.email) && Truthy(b.message)
    ensures !r.reply.Ok? ==> r == InquiryResult(Fail(400, InquiryFieldsRequired), inquiries)
    ensures r.reply.Ok? ==>
      && r.reply.status == 201 && r.inquiries == inquiries + [r.reply.body]
      && var row := r.reply.body;
         && row.id == freshId && row.name == b.name.value && row.email == b.email.value
         && row.message == b.message.value && row.status == "Pending"
         && row.phone == OrNull(b.phone) && row.productId == OrNull(b.productId) && row.userId == OrNull(b.userId)
  {
    if !Truthy(b.name) || !Truthy(b.email) || !Truthy(b.message) then
      InquiryResult(Fail(400, InquiryFieldsRequired), inquiries)
    else
      var row := Inquiry(freshId, b.name.value, b.email.value, OrNull(b.phone), b.message.value,
                         OrNull(b.productId), OrNull(b.userId), "Pending", now);
      InquiryResult(Ok(201, row), inquiries + [row])
  }

  /** The POST handler: it writes only the inquiry table. */
  method Inquire(db: Database, b: InquiryInput, freshId: string, now: int) returns (reply: Reply<Inquiry>)
    modifies db`inquiries
    ensures InquireSpec(old(db.inquiries), b, freshId, now) == InquiryResult(reply, db.inquiries)
  {
    if !Truthy(b.name) || !Truthy(b.email) || !Truthy(b.message) {
      return Fail(400, InquiryFieldsRequired);
    }
    var row := Inquiry(freshId, b.name.value, b.email.value, OrNull(b.phone), b.message.value,
                       OrNull(b.productId), OrNull(b.userId), "Pending", now);
    db.inquiries := db.inquiries + [row];
    reply := Ok(201, row);
  }

  /** The GET filter: a parameter narrows the list only when it is a non-empty string. */
  predicate Matches(q: Inquiry, userId: Option<string>, productId: Option<string>) {
    && (Truthy(userId) ==> q.userId == userId)
    && (Truthy(productId) ==> q.productId == productId)
  }

  /** GET: the matching inquiries, newest first. */
  function ListInquiries(inquiries: seq<Inquiry>, userId: Option<string>, productId: Option<string>): (r: seq<Inquiry>)
    ensures SortedDesc(r, InquiryCreatedAt)
    ensures forall i :: 0 <= i < |r| ==> Matches(r[i], userId, productId) && r[i] in inquiries
    ensures forall i :: 0 <= i < |inquiries| && Matches(inquiries[i], userId, productId) ==> inquiries[i] in r
    ensures forall q :: multiset(r)[q] == if Matches(q, userId, productId) then multiset(inquiries)[q] else 0
  {
    var where := (q: Inquiry) => Matches(q, userId, productId);
    var r := FindManyDesc(inquiries, where, InquiryCreatedAt);
    assert forall q :: multiset(r)[q] == if Matches(q, userId, productId) then multiset(inquiries)[q] else 0 by {
      forall q ensures multiset(r)[q] == if Matches(q, userId, productId) then multiset(inquiries)[q] else 0 {
        FilterMultiset(inquiries, where, q);
      }
    }
    r
  }

  /** Without either parameter every inquiry is listed, each as often as stored. */
  lemma NoFilterListsAll(inquiries: seq<Inquiry>, userId: Option<string>, productId: Option<string>)
    requires !Truthy(userId) && !Truthy(productId)
    ensures multiset(ListInquiries(inquiries, userId, productId)) == multiset(inquiries)
  {
    FilterKeepsAll(inquiries, (q: Inquiry) => Matches(q, userId, productId));
  }

  /** A stored inquiry is listed when the list is narrowed to its own user and product. */
  lemma InquiryListedUnderItsIds(inquiries: seq<Inquiry>, b: InquiryInput, freshId: string, now: int)
    requires Truthy(b.name) && Truthy(b.email) && Truthy(b.message)
    ensures var r := InquireSpec(inquiries, b, freshId, now);
      r.reply.body in ListInquiries(r.inquiries, b.userId, b.productId)
  {
    var r := InquireSpec(inquiries, b, freshId, now);
    assert r.inquiries[|inquiries|] == r.reply.body;
  }
}

=== FILE: login_route.dfy ===
/**
 * POST /api/auth/login (src/app/api/auth/login/route.ts): password check, then a
 * fresh one-time code replaces whatever the ledger held for that email, then the
 * code is e-mailed.
 */
module LoginRoute {
  import opened Common
  import opened Schema
  import opened AuthLib

  /** Ten minutes, in milliseconds. */
  const OtpLifetimeMs: int := 10 * 60 * 1000

  const InvalidCredentials: string := "Invalid email or password"

  datatype LoginBody = LoginBody(message: string, otpSent: bool)

  /** The reply, the OTP ledger afterwards, and the e-mail the handler tried to send. */
  datatype LoginResult = LoginResult(reply: Reply<LoginBody>, otps: map<string, OtpRecord>, mail: Option<Mail>)

  /** Both fields are given, the email belongs to a user, and the password matches that user's hash. */
  predicate CredentialsOk(users: seq<User>, email: Option<string>, password: Option<string>, bcrypt: Bcrypt) {
    && Truthy(email) && Truthy(password)
    && FindByEmail(users, email.value).Some?
    && bcrypt.compare(password.value, FindByEmail(users, email.value).value.password)
  }

  /** What one login request does to the OTP ledger and what it answers. */
  function LoginSpec(users: seq<User>, otps: map<string, OtpRecord>, email: Option<string>,
                     password: Option<string>, bcrypt: Bcrypt, draw: nat, now: int,
                     sendFails: bool): (r: LoginResult)
    requires draw < 900000
    ensures !Truthy(email) || !Truthy(password) ==> r.reply == Fail(400, "Email and password are required")
    ensures !CredentialsOk(users, email, password, bcrypt) ==> r.reply.Fail? && r.otps == otps && r.mail.None?
    ensures r.reply.Fail? && r.reply.status == 401 ==> r.reply.message == InvalidCredentials
    ensures CredentialsOk(users, email, password, bcrypt) ==>
      && r.otps.Keys == otps.Keys + {email.value}
      && r.otps[email.value] == OtpRecord(GenerateOTP(draw), now + OtpLifetimeMs)
      && (forall e :: e in otps && e != email.value ==> r.otps[e] == otps[e])
      && r.mail == Some(OtpMail(email.value, GenerateOTP(draw), FindByEmail(users, email.value).value.name))
      && r.reply == (if sendFails then Fail(500, "Internal server error")
                     else Ok(200, LoginBody("OTP sent to your email", true)))
  {
    if !Truthy(email) || !Truthy(password) then
      LoginResult(Fail(400, "Email and password are required"), otps, None)
    else
      match FindByEmail(users, email.value)
      case None => LoginResult(Fail(401, InvalidCredentials), otps, None)
      case Some(user) =>
        if !bcrypt.compare(password.value, user.password) then
          LoginResult(Fail(401, InvalidCredentials), otps, None)
        else
          var code := GenerateOTP(draw);
          var cleared := otps - {email.value};
          var issued := cleared[email.value := OtpRecord(code, now + OtpLifetimeMs)];
          var reply := if sendFails then Fail(500, "Internal server error")
                       else Ok(200, LoginBody("OTP sent to your email", true));
          LoginResult(reply, issued, Some(OtpMail(email.value, code, user.name)))
  }

  /**
   * An unknown email and a wrong password get the same answer, and neither touches the ledger:
   * the reply does not tell which emails are registered.
   */
  lemma BadCredentialsIndistinguishable(users: seq<User>, otps: map<string, OtpRecord>,
                                        unknown: string, known: string, p1: string, p2: string,
                                        bcrypt: Bcrypt, d1: nat, d2: nat, t1: int, t2: int,
                                        f1: bool, f2: bool)
    requires d1 < 900000 && d2 < 900000
    requires unknown != "" && known != "" && p1 != "" && p2 != ""
    requires FindByEmail(users, unknown).None?
    requires FindByEmail(users, known).Some? && !bcrypt.compare(p2, FindByEmail(users, known).value.password)
    ensures LoginSpec(users, otps, Some(unknown), Some(p1), bcrypt, d1, t1, f1) ==
            LoginSpec(users, otps, Some(known), Some(p2), bcrypt, d2, t2, f2)
    ensures LoginSpec(users, otps, Some(known), Some(p2), bcrypt, d2, t2, f2) ==
            LoginResult(Fail(401, InvalidCredentials), otps, None)
  {
  }

  /** The handler itself, one atomic step on the database. */
  method Login(db: Database, email: Option<string>, password: Option<string>, bcrypt: Bcrypt,
               draw: nat, now: int, sendFails: bool) returns (reply: Reply<LoginBody>, mail: Option<Mail>)
    requires draw < 900000
    modifies db`otps
    ensures LoginSpec(db.users, old(db.otps), email, password, bcrypt, draw, now, sendFails) ==
            LoginResult(reply, db.otps, mail)
  {
    if !Truthy(email) || !Truthy(password) {
      return Fail(400, "Email and password are required"), None;
    }
    var user := FindByEmail(db.users, email.value);
    if user.None? {
      return Fail(401, InvalidCredentials), None;
    }
    if !bcrypt.compare(password.value, user.value.password) {
      return Fail(401, InvalidCredentials), None;
    }
    var code := GenerateOTP(draw);
    var expiresAt := now + OtpLifetimeMs;
    db.otps := db.otps - {email.value};
    db.otps := db.otps[email.value := OtpRecord(code, expiresAt)];
    mail := Some(OtpMail(email.value, code, user.value.name));
    if sendFails {
      return Fail(500, "Internal server error"), mail;
    }
    reply := Ok(200, LoginBody("OTP sent to your email", true));
  }
}

=== FILE: middleware.dfy ===
/**
 * The route-access decision of src/middleware.ts: from the path and the
 * `auth-token` cookie to pass, redirect, or pass with identity headers; and
 * the `config.matcher` that decides which paths reach the decision at all.
 */
module Middleware {
  import opened Common
  import opened Schema
  import opened AuthLib

  const PublicRoutes: seq<string> := [
    "/", "/about", "/contact", "/products", "/login", "/register", "/forgot-password",
    "/api/auth/login", "/api/auth/register", "/api/auth/verify-otp", "/api/auth/resend-otp"
  ]

  const AdminRoutes: seq<string> := ["/admin"]

  const ProtectedRoutes: seq<string> := ["/profile", "/cart", "/bookings"]

  /** `path.startsWith(prefix)` */
  predicate StartsWith(path: string, prefix: string) {
    prefix <= path
  }

  /** Equal to a public route, or below one: the route followed by "/" is a prefix. */
  predicate IsPublicRoute(path: string)
    ensures path in PublicRoutes ==> IsPublicRoute(path)
  {
    exists i :: 0 <= i < |PublicRoutes| && (path == PublicRoutes[i] || StartsWith(path, PublicRoutes[i] + "/"))
  }

  /** A plain prefix test, so "/administrator" counts as well. */
  predicate IsAdminRoute(path: string)
    ensures IsAdminRoute(path) <==> StartsWith(path, "/admin")
  {
    var admin := exists i :: 0 <= i < |AdminRoutes| && StartsWith(path, AdminRoutes[i]);
    assert StartsWith(path, "/admin") ==> StartsWith(path, AdminRoutes[0]);
    admin
  }

  predicate IsProtectedRoute(path: string)
    ensures IsProtectedRoute(path) <==>
      StartsWith(path, "/profile") || StartsWith(path, "/cart") || StartsWith(path, "/bookings")
  {
    var guarded := exists i :: 0 <= i < |ProtectedRoutes| && StartsWith(path, ProtectedRoutes[i]);
    assert StartsWith(path, "/profile") ==> StartsWith(path, ProtectedRoutes[0]);
    assert StartsWith(path, "/cart") ==> StartsWith(path, ProtectedRoutes[1]);
    assert StartsWith(path, "/bookings") ==> StartsWith(path, ProtectedRoutes[2]);
    guarded
  }

  /**
   * What the middleware answers. `Forward` passes the request on with `x-user-id`,
   * `x-user-email` and `x-user-role` set from the token; `Redirect` names the target,
   * the `redirect` query parameter if any, and whether the `auth-token` cookie is deleted.
   */
  datatype Decision =
    | Pass
    | Forward(userId: string, email: string, role: Role)
    | Redirect(target: string, redirectParam: Option<string>, deleteCookie: bool)

  /** The decision cascade for one request to a matched path. */
  function Decide(path: string, token: Option<string>, jwt: Jwt, env: Env): (d: Decision)
    ensures IsPublicRoute(path) ==> d == Pass
    ensures !IsPublicRoute(path) && !Truthy(token) && (IsProtectedRoute(path) || IsAdminRoute(path)) ==>
      d == Redirect("/login", Some(path), false)
    ensures !IsPublicRoute(path) && Truthy(token) && VerifyToken(jwt, env, token.value).None? ==>
      d == Redirect("/login", None, true)
    ensures !IsPublicRoute(path) && Truthy(token) && VerifyToken(jwt, env, token.value).Some? ==>
      var c := VerifyToken(jwt, env, token.value).value;
      d == if IsAdminRoute(path) && c.role != ADMIN then Redirect("/", None, false)
           else Forward(c.userId, c.email, c.role)
    ensures d.Forward? ==>
      && Truthy(token) && VerifyToken(jwt, env, token.value).Some?
      && var c := VerifyToken(jwt, env, token.value).value;
         d == Forward(c.userId, c.email, c.role) && (IsAdminRoute(path) ==> c.role == ADMIN)
    ensures !IsPublicRoute(path) && !Truthy(token) && !IsProtectedRoute(path) && !IsAdminRoute(path) ==> d == Pass
  {
    if IsPublicRoute(path) then Pass
    else if !Truthy(token) && (IsProtectedRoute(path) || IsAdminRoute(path)) then
      Redirect("/login", Some(path), false)
    else if Truthy(token) then
      match VerifyToken(jwt, env, token.value)
      case None => Redirect("/login", None, true)
      case Some(payload) =>
        if IsAdminRoute(path) && payload.role != ADMIN then Redirect("/", None, false)
        else Forward(payload.userId, payload.email, payload.role)
    else Pass
  }

  /**
   * `config.matcher`, `/((?!api|_next/static|_next/image|favicon.ico).*)`: after the leading
   * "/", the path must not start with "api", "_next/static", "_next/image", or "favicon",
   * any one character, "ico" (the unescaped '.' matches any character).
   */
  predicate Matched(path: string)
    ensures Matched(path) ==> |path| >= 1 && path[0] == '/'
  {
    && |path| >= 1 && path[0] == '/'
    && var rest := path[1..];
       && !StartsWith(rest, "api")
       && !StartsWith(rest, "_next/static")
       && !StartsWith(rest, "_next/image")
       && !(|rest| >= 11 && rest[..7] == "favicon" && rest[8..11] == "ico")
  }

  /** Paths under "/api", "/_next/static" and "/_next/image" never reach the middleware. */
  lemma MatcherSkipsInternal(prefix: string, rest: string)
    requires prefix in ["api", "_next/static", "_next/image"]
    ensures !Matched("/" + prefix + rest)
  {
    assert ("/" + prefix + rest)[1..] == prefix + rest;
  }

  /** What a request gets: unmatched paths skip the middleware and pass untouched. */
  function Route(path: string, token: Option<string>, jwt: Jwt, env: Env): (d: Decision)
    ensures !Matched(path) ==> d == Pass
    ensures Matched(path) ==> d == Decide(path, token, jwt, env)
  {
    if Matched(path) then Decide(path, token, jwt, env) else Pass
  }

  // ---------------------------------------------------------------------
  // Properties

  /** The first five characters of the guarded prefixes. */
  const GuardedHeads: set<string> := {"/prof", "/cart", "/book", "/admi"}

  /** The first five characters of the public routes other than "/". */
  const PublicHeads: set<string> := {"/abou", "/cont", "/prod", "/logi", "/regi", "/forg", "/api/"}

  lemma HeadOfPrefix(path: string, prefix: string)
    requires |prefix| >= 5 && StartsWith(path, prefix)
    ensures |path| >= 5 && path[..5] == prefix[..5]
  {
  }

  lemma GuardedHead(path: string)
    requires IsProtectedRoute(path) || IsAdminRoute(path)
    ensures |path| >= 5 && path[..5] in GuardedHeads
  {
    if IsAdminRoute(path) {
      var g :| 0 <= g < |AdminRoutes| && StartsWith(path, AdminRoutes[g]);
      HeadOfPrefix(path, AdminRoutes[g]);
      assert AdminRoutes[0][..5] == "/admi";
    } else {
      var g :| 0 <= g < |ProtectedRoutes| && StartsWith(path, ProtectedRoutes[g]);
      HeadOfPrefix(path, ProtectedRoutes[g]);
      assert ProtectedRoutes[0][..5] == "/prof" && ProtectedRoutes[1][..5] == "/cart"
          && ProtectedRoutes[2][..5] == "/book";
    }
  }

  lemma PublicRouteHead(i: nat)
    requires 1 <= i < |PublicRoutes|
    ensures |PublicRoutes[i]| >= 5 && PublicRoutes[i][..5] in PublicHeads
  {
    if i == 1 { assert PublicRoutes[1][..5] == "/abou"; }
    else if i == 2 { assert PublicRoutes[2][..5] == "/cont"; }
    else if i == 3 { assert PublicRoutes[3][..5] == "/prod"; }
    else if i == 4 { assert PublicRoutes[4][..5] == "/logi"; }
    else if i == 5 { assert PublicRoutes[5][..5] == "/regi"; }
    else if i == 6 { assert PublicRoutes[6][..5] == "/forg"; }
    else { assert PublicRoutes[i][..5] == "/api/"; }
  }

  lemma PublicHead(path: string)
    requires IsPublicRoute(path)
    ensures path == "/" || (|path| >= 2 && path[1] == '/') || (|path| >= 5 && path[..5] in PublicHeads)
  {
    var i :| 0 <= i < |PublicRoutes| && (path == PublicRoutes[i] || StartsWith(path, PublicRoutes[i] + "/"));
    if i == 0 {
      if path != "/" {
        assert path[..2] == "//";
      }
    } else {
      var route := PublicRoutes[i];
      PublicRouteHead(i);
      if path != route {
        assert (route + "/")[..|route|] == route;
        HeadOfPrefix(path, route);
      }
    }
  }

  /** No admin or protected path is public, so a public-route match never lets one through. */
  lemma GuardedNeverPublic(path: string)
    requires IsProtectedRoute(path) || IsAdminRoute(path)
    ensures !IsPublicRoute(path)
  {
    GuardedHead(path);
    if IsPublicRoute(path) {
      PublicHead(path);
      assert false;
    }
  }

  /** Without a token, an admin or protected path always redirects to the login page, remembering the path. */
  lemma AnonymousGuardedRedirects(path: string, jwt: Jwt, env: Env)
    requires IsProtectedRoute(path) || IsAdminRoute(path)
    ensures Decide(path, None, jwt, env) == Redirect("/login", Some(path), false)
    ensures Decide(path, Some(""), jwt, env) == Redirect("/login", Some(path), false)
  {
    GuardedNeverPublic(path);
  }

  /** An admin path lets through only a verified token whose role is ADMIN. */
  lemma AdminNeedsAdminRole(path: string, token: Option<string>, jwt: Jwt, env: Env)
    requires IsAdminRoute(path)
    ensures Decide(path, token, jwt, env).Forward? <==>
      Truthy(token) && VerifyToken(jwt, env, token.value).Some? && VerifyToken(jwt, env, token.value).value.role == ADMIN
    ensures Decide(path, token, jwt, env) == Pass ==> false
  {
    assert IsAdminRoute(path) || IsProtectedRoute(path);
    GuardedNeverPublic(path);
  }

  /** "/administrator" is an admin path: the test is a plain prefix. */
  lemma AdministratorIsAdmin()
    ensures IsAdminRoute("/administrator")
    ensures !IsPublicRoute("/administrator")
  {
    assert StartsWith("/administrator", AdminRoutes[0]);
    GuardedNeverPublic("/administrator");
  }

  /**
   * API paths skip the middleware, so no request to them is ever given identity headers:
   * an `x-user-id` seen by an API route is whatever the client sent.
   */
  lemma ApiPathsCarryNoIdentity(rest: string, token: Option<string>, jwt: Jwt, env: Env)
    ensures Route("/api" + rest, token, jwt, env) == Pass
  {
    var path := "/api" + rest;
    assert path[1..][..3] == "api";
  }

  /** Page paths below a public route pass whatever the token. */
  lemma ProductPagesPass(id: string, token: Option<string>, jwt: Jwt, env: Env)
    ensures Route("/products/" + id, token, jwt, env) == Pass
  {
    var path := "/products/" + id;
    assert StartsWith(path, PublicRoutes[3] + "/");
    assert path[1..][0] == 'p';
  }
}

=== FILE: otp_flow.dfy ===
/**
 * Properties of the login / register / resend / verify handlers taken together:
 * what a code issued by one request means to a later verification.
 */
module OtpFlow {
  import opened Common
  import opened Schema
  import opened AuthLib
  import opened LoginRoute
  import opened RegisterRoute
  import opened ResendOtpRoute
  import opened VerifyOtpRoute

  /** Marking a user verified changes no email, so lookups by email find a user exactly as before. */
  lemma FindByEmailAfterVerify(users: seq<User>, id: string, email: string)
    ensures FindByEmail(UpdateById(users, id, MarkVerified), email).Some? <==> FindByEmail(users, email).Some?
  {
    var updated := UpdateById(users, id, MarkVerified);
    assert forall i :: 0 <= i < |users| ==> updated[i].email == users[i].email;
    if FindByEmail(users, email).Some? {
      var u := FindByEmail(users, email).value;
      var k :| 0 <= k < |users| && users[k] == u;
      assert updated[k].email == email;
    }
    if FindByEmail(updated, email).Some? {
      var u := FindByEmail(updated, email).value;
      var k :| 0 <= k < |updated| && updated[k] == u;
      assert users[k].email == email;
    }
  }

  /** A user appended under an email nobody had is the one a lookup by that email finds. */
  lemma {:induction false} FindByEmailAppended(users: seq<User>, u: User)
    requires FindByEmail(users, u.email).None?
    ensures FindByEmail(users + [u], u.email) == Some(u)
    decreases |users|
  {
    if users != [] {
      assert (users + [u])[1..] == users[1..] + [u];
      FindByEmailAppended(users[1..], u);
    }
  }

  /** The code a successful login e-mails is accepted by a verification within ten minutes. */
  lemma LoginThenVerify(users: seq<User>, otps: map<string, OtpRecord>, email: string, password: string,
                        bcrypt: Bcrypt, draw: nat, now: int, later: int, jwt: Jwt, env: Env)
    requires draw < 900000
    requires CredentialsOk(users, Some(email), Some(password), bcrypt)
    requires later <= now + OtpLifetimeMs
    ensures var login := LoginSpec(users, otps, Some(email), Some(password), bcrypt, draw, now, false);
      && login.reply.Ok?
      && VerifySpec(users, login.otps, Some(email), Some(GenerateOTP(draw)), later, jwt, env).reply.Ok?
  {
  }

  /** A code is single-use: once accepted, the same code is answered "Invalid or expired OTP". */
  lemma NoReplay(users: seq<User>, otps: map<string, OtpRecord>, email: string, code: string,
                 now: int, later: int, jwt: Jwt, env: Env)
    requires VerifySpec(users, otps, Some(email), Some(code), now, jwt, env).reply.Ok?
    ensures var first := VerifySpec(users, otps, Some(email), Some(code), now, jwt, env);
      VerifySpec(first.users, first.otps, Some(email), Some(code), later, jwt, env).reply ==
        Fail(400, "Invalid or expired OTP")
  {
    var u := FindByEmail(users, email).value;
    FindByEmailAfterVerify(users, u.id, email);
  }

  /** An expired row is purged on the first matching attempt; the next attempt finds no row. */
  lemma ExpiredIsPurged(users: seq<User>, otps: map<string, OtpRecord>, email: string, code: string,
                        now: int, later: int, again: string, jwt: Jwt, env: Env)
    requires Classify(users, otps, Some(email), Some(code), now) == Expired
    requires again != ""
    ensures var first := VerifySpec(users, otps, Some(email), Some(code), now, jwt, env);
      VerifySpec(first.users, first.otps, Some(email), Some(again), later, jwt, env).reply ==
        Fail(400, "Invalid or expired OTP")
  {
  }

  /** A wrong guess keeps the row, so the right code still succeeds before the expiry. */
  lemma RetryAfterWrongCode(users: seq<User>, otps: map<string, OtpRecord>, email: string,
                            guess: string, now: int, later: int, jwt: Jwt, env: Env)
    requires email != "" && FindByEmail(users, email).Some? && email in otps && otps[email].otp != ""
    requires guess != "" && guess != otps[email].otp
    requires later <= otps[email].expiresAt
    ensures var first := VerifySpec(users, otps, Some(email), Some(guess), now, jwt, env);
      && first.reply == Fail(400, "Invalid OTP")
      && VerifySpec(first.users, first.otps, Some(email), Some(otps[email].otp), later, jwt, env).reply.Ok?
  {
  }

  /** The mismatch check comes first: a wrong guess at an expired row leaves the row in place. */
  lemma WrongGuessKeepsExpiredRow(users: seq<User>, otps: map<string, OtpRecord>, email: string,
                                  guess: string, now: int, jwt: Jwt, env: Env)
    requires email != "" && FindByEmail(users, email).Some? && email in otps
    requires guess != "" && guess != otps[email].otp && now > otps[email].expiresAt
    ensures var r := VerifySpec(users, otps, Some(email), Some(guess), now, jwt, env);
      r.reply == Fail(400, "Invalid OTP") && r.otps == otps
  {
  }

  /** A second login supersedes the first: the first code is then a wrong code. */
  lemma SecondLoginSupersedes(users: seq<User>, otps: map<string, OtpRecord>, email: string,
                              password: string, bcrypt: Bcrypt, d1: nat, d2: nat, t1: int, t2: int,
                              later: int, jwt: Jwt, env: Env)
    requires d1 < 900000 && d2 < 900000 && d1 != d2
    requires CredentialsOk(users, Some(email), Some(password), bcrypt)
    ensures var first := LoginSpec(users, otps, Some(email), Some(password), bcrypt, d1, t1, false);
      var second := LoginSpec(users, first.otps, Some(email), Some(password), bcrypt, d2, t2, false);
      VerifySpec(users, second.otps, Some(email), Some(GenerateOTP(d1)), later, jwt, env).reply ==
        Fail(400, "Invalid OTP")
  {
    GenerateOTPInjective(d1, d2);
  }

  /** A resent code lands only in the in-memory map, so verification never accepts it on its own. */
  lemma ResentCodeNotAccepted(users: seq<User>, otps: map<string, OtpRecord>, entries: map<string, ResendEntry>,
                              email: string, draw: nat, now: int, later: int, jwt: Jwt, env: Env)
    requires draw < 900000
    requires email != "" && FindByEmail(users, email).Some? && email !in otps
    ensures var resent := ResendSpec(users, entries, Some(email), draw, now, false);
      && resent.reply.Ok?
      && VerifySpec(users, otps, Some(email), Some(resent.entries[email].otp), later, jwt, env).reply ==
           Fail(400, "Invalid or expired OTP")
  {
  }

  /** Registration e-mails a code it never stores: verifying that code finds no ledger row. */
  lemma RegisteredCodeNotAccepted(users: seq<User>, otps: map<string, OtpRecord>, name: string, email: string,
                                  password: string, bcrypt: Bcrypt, freshId: string, draw: nat, now: int,
                                  later: int, jwt: Jwt, env: Env)
    requires draw < 900000
    requires name != "" && email != "" && password != ""
    requires FindByEmail(users, email).None? && email !in otps
    ensures var reg := RegisterSpec(users, Some(name), Some(email), None, Some(password), bcrypt, freshId, draw, now, false);
      && reg.reply.Ok?
      && reg.mail == Some(OtpMail(email, GenerateOTP(draw), name))
      && VerifySpec(reg.users, otps, Some(email), Some(GenerateOTP(draw)), later, jwt, env).reply ==
           Fail(400, "Invalid or expired OTP")
  {
    var u := NewUser(freshId, name, email, None, bcrypt.hash(password), now);
    RegisterNewEmail(users, name, email, None, password, bcrypt, freshId, draw, now, false);
    var reg := RegisterSpec(users, Some(name), Some(email), None, Some(password), bcrypt, freshId, draw, now, false);
    FindByEmailAppended(users, u);
    assert Classify(reg.users, otps, Some(email), Some(GenerateOTP(draw)), later) == NoChallenge;
  }

  /**
   * Register, then log in with the same password, then verify the login code: the new user is
   * verified, receives a welcome e-mail, and the code is gone. bcrypt must accept a password
   * against its own hash.
   */
  lemma RegisterLoginVerify(users: seq<User>, otps: map<string, OtpRecord>, name: string, email: string,
                            password: string, bcrypt: Bcrypt, freshId: string, d1: nat, d2: nat,
                            t1: int, t2: int, t3: int, jwt: Jwt, env: Env)
    requires d1 < 900000 && d2 < 900000
    requires name != "" && email != "" && password != ""
    requires bcrypt.compare(password, bcrypt.hash(password))
    requires FindByEmail(users, email).None?
    requires t3 <= t2 + OtpLifetimeMs
    ensures var reg := RegisterSpec(users, Some(name), Some(email), None, Some(password), bcrypt, freshId, d1, t1, false);
      var login := LoginSpec(reg.users, otps, Some(email), Some(password), bcrypt, d2, t2, false);
      var verify := VerifySpec(reg.users, login.otps, Some(email), Some(GenerateOTP(d2)), t3, jwt, env);
      && reg.reply.Ok? && login.reply.Ok? && verify.reply.Ok?
      && verify.reply.body.user.verified
      && verify.mail == Some(WelcomeMail(email, name))
      && email !in verify.otps
  {
    var u := NewUser(freshId, name, email, None, bcrypt.hash(password), t1);
    RegisterNewEmail(users, name, email, None, password, bcrypt, freshId, d1, t1, false);
    var reg := RegisterSpec(users, Some(name), Some(email), None, Some(password), bcrypt, freshId, d1, t1, false);
    FindByEmailAppended(users, u);
    assert CredentialsOk(reg.users, Some(email), Some(password), bcrypt);
    LoginThenVerify(reg.users, otps, email, password, bcrypt, d2, t2, t3, jwt, env);
  }
}

=== FILE: products.dfy ===
/**
 * GET and POST /api/products (src/app/api/products/route.ts). GET turns the
 * query string into a filter, a sort order and a page window; what the filter
 * means is given by `Satisfies`, and `Qualifies` restates it directly in terms
 * of the query. POST lets an administrator create a product, filling defaults.
 */
module ProductsRoute {
  import opened Common
  import opened Schema
  import opened AuthLib
  import opened RequestAuth

  // ---------------------------------------------------------------------
  // JavaScript number comparisons and arithmetic: NaN compares false and propagates

  predicate Gt(x: JsNum, k: int) { x.Num? && x.n > k }
  predicate Lt(x: JsNum, k: int) { x.Num? && x.n < k }
  predicate AtMost(lo: JsNum, v: int) { lo.Num? && lo.n <= v }
  predicate AtLeast(hi: JsNum, v: int) { hi.Num? && v <= hi.n }

  function Minus(x: JsNum, k: int): JsNum {
    if x.NaN? then NaN else Num(x.n - k)
  }

  function Times(x: JsNum, y: JsNum): JsNum {
    if x.NaN? || y.NaN? then NaN else Num(x.n * y.n)
  }

  // ---------------------------------------------------------------------
  // The query string

  const DefaultMinPrice: int := 0
  const DefaultMaxPrice: int := 50000
  const DefaultPage: int := 1
  const DefaultLimit: int := 50

  function Param(params: map<string, string>, key: string): Option<string> {
    if key in params then Some(params[key]) else None
  }

  /** `params.get(key)?.split(',') || []`: absent gives no entries; present gives at least one. */
  function ListParam(params: map<string, string>, key: string): (r: seq<string>)
    ensures key !in params ==> r == []
    ensures key in params ==> |r| >= 1 && Join(r, ',') == params[key]
  {
    if key in params then
      JoinSplit(params[key], ',');
      Split(params[key], ',')
    else []
  }

  datatype Query = Query(search: Option<string>, categories: seq<string>, subcategories: seq<string>,
                         colors: seq<string>, minPrice: JsNum, maxPrice: JsNum, sortBy: string,
                         page: JsNum, limit: JsNum, featured: bool)

  /** The default price texts read as the default bounds. */
  lemma DefaultPricesParse()
    ensures ParseFloat("0") == Num(DefaultMinPrice) && ParseFloat("50000") == Num(DefaultMaxPrice)
  {
    ParsePrinted(0);
    assert DecimalString(50000) == "50000" by {
      assert DecimalString(5) == "5";
      assert DecimalString(50) == "50";
      assert DecimalString(500) == "500";
      assert DecimalString(5000) == "5000";
    }
    ParsePrinted(50000);
  }

  /** The default page texts read as the first page of fifty. */
  lemma DefaultWindowParse()
    ensures ParseInt("1") == Num(DefaultPage) && ParseInt("50") == Num(DefaultLimit)
  {
    ParsePrinted(1);
    assert DecimalString(50) == "50" by {
      assert DecimalString(5) == "5";
    }
    ParsePrinted(50);
  }

  /**
   * The parameters as the handler reads them. `minPrice`/`maxPrice` use `parseFloat`, here
   * its whole-number reading; `page`/`limit` use `parseInt` without a radix. An absent or empty
   * parameter falls back to its default text.
   */
  function ParseQuery(params: map<string, string>): (q: Query)
    ensures !Truthy(Param(params, "minPrice")) ==> q.minPrice == Num(DefaultMinPrice)
    ensures !Truthy(Param(params, "maxPrice")) ==> q.maxPrice == Num(DefaultMaxPrice)
    ensures !Truthy(Param(params, "page")) ==> q.page == Num(DefaultPage)
    ensures !Truthy(Param(params, "limit")) ==> q.limit == Num(DefaultLimit)
    ensures !Truthy(Param(params, "sortBy")) ==> q.sortBy == "newest"
    ensures q.featured <==> Param(params, "featured") == Some("true")
    ensures q.categories == ListParam(params, "categories") && q.colors == ListParam(params, "colors")
    ensures q.subcategories == ListParam(params, "subcategories") && q.search == Param(params, "search")
  {
    DefaultPricesParse();
    DefaultWindowParse();
    Query(Param(params, "search"),
          ListParam(params, "categories"), ListParam(params, "subcategories"), ListParam(params, "colors"),
          ParseFloat(OrDefault(Param(params, "minPrice"), "0")),
          ParseFloat(OrDefault(Param(params, "maxPrice"), "50000")),
          OrDefault(Param(params, "sortBy"), "newest"),
          ParseInt(OrDefault(Param(params, "page"), "1")),
          ParseInt(OrDefault(Param(params, "limit"), "50")),
          Param(params, "featured") == Some("true"))
  }

  // ---------------------------------------------------------------------
  // The filter

  /** One entry of `where.OR`. */
  datatype Condition =
    | NameContains(text: string)          // case-insensitive
    | DescriptionContains(text: string)   // case-insensitive
    | TagsHas(tag: string)
    | ColorsContains(text: string)        // a substring of the JSON text

  datatype PriceBound = PriceBound(gte: JsNum, lte: JsNum)

  /** The `where` object; `available: true` is always part of it. */
  datatype Where = Where(anyOf: Option<seq<Condition>>, categorySlugs: Option<seq<string>>,
                         subcategorySlugs: Option<seq<string>>, price: Option<PriceBound>, featuredOnly: bool)

  /** The three conditions a search term contributes. */
  function SearchConditions(term: string): seq<Condition> {
    [NameContains(term), DescriptionContains(term), TagsHas(term)]
  }

  function ColorConditions(colors: seq<string>): (r: seq<Condition>)
    ensures |r| == |colors| && forall i :: 0 <= i < |colors| ==> r[i] == ColorsContains(colors[i])
  {
    seq(|colors|, i requires 0 <= i < |colors| => ColorsContains(colors[i]))
  }

  /** The price bound is added only when it narrows the default range. */
  predicate PriceFiltered(q: Query) {
    Gt(q.minPrice, DefaultMinPrice) || Lt(q.maxPrice, DefaultMaxPrice)
  }

  /** The `where` object the handler builds, stated as a value. */
  function WhereOf(q: Query): Where {
    var search := if Truthy(q.search) then SearchConditions(q.search.value) else [];
    Where(if Truthy(q.search) || |q.colors| > 0 then Some(search + ColorConditions(q.colors)) else None,
          if |q.categories| > 0 then Some(q.categories) else None,
          if |q.subcategories| > 0 then Some(q.subcategories) else None,
          if PriceFiltered(q) then Some(PriceBound(q.minPrice, q.maxPrice)) else None,
          q.featured)
  }

  /**
   * The handler's construction: the search conditions first, then one `colors` condition per
   * colour pushed onto the same OR list in a loop.
   */
  method BuildWhere(q: Query) returns (w: Where)
    ensures w == WhereOf(q)
  {
    var anyOf: Option<seq<Condition>> := None;
    if Truthy(q.search) {
      anyOf := Some(SearchConditions(q.search.value));
    }
    var categorySlugs: Option<seq<string>> := None;
    if |q.categories| > 0 {
      categorySlugs := Some(q.categories);
    }
    var subcategorySlugs: Option<seq<string>> := None;
    if |q.subcategories| > 0 {
      subcategorySlugs := Some(q.subcategories);
    }
    if |q.colors| > 0 {
      var list := if anyOf.Some? then anyOf.value else [];
      var i := 0;
      while i < |q.colors|
        invariant 0 <= i <= |q.colors|
        invariant list == (if Truthy(q.search) then SearchConditions(q.search.value) else [])
                          + ColorConditions(q.colors[..i])
      {
        assert ColorConditions(q.colors[..i + 1]) == ColorConditions(q.colors[..i]) + [ColorsContains(q.colors[i])];
        list := list + [ColorsContains(q.colors[i])];
        i := i + 1;
      }
      assert q.colors[..i] == q.colors;
      anyOf := Some(list);
    } else if Truthy(q.search) {
      assert SearchConditions(q.search.value) + ColorConditions(q.colors) == SearchConditions(q.search.value);
    }
    var price: Option<PriceBound> := None;
    if Gt(q.minPrice, DefaultMinPrice) || Lt(q.maxPrice, DefaultMaxPrice) {
      price := Some(PriceBound(q.minPrice, q.maxPrice));
    }
    w := Where(anyOf, categorySlugs, subcategorySlugs, price, q.featured);
  }

  /** Whether one OR entry holds for a product. */
  predicate Holds(c: Condition, p: ProductRow) {
    match c
    case NameContains(t) => Contains(Lower(p.name), Lower(t))
    case DescriptionContains(t) => Contains(Lower(p.description), Lower(t))
    case TagsHas(t) => Contains(p.tags, Quoted(t))
    case ColorsContains(t) => Contains(p.colors, t)
  }

  /**
   * What the database does with the `where` object for one product, given the slugs of the
   * product's category and (if any) subcategory. A relation filter on a missing subcategory
   * fails, and a NaN price bound admits nothing.
   */
  predicate Satisfies(w: Where, p: ProductRow, categorySlug: string, subcategorySlug: Option<string>) {
    && p.available
    && (w.anyOf.Some? ==> AnyHolds(w.anyOf.value, p))
    && (w.categorySlugs.Some? ==> categorySlug in w.categorySlugs.value)
    && (w.subcategorySlugs.Some? ==> subcategorySlug.Some? && subcategorySlug.value in w.subcategorySlugs.value)
    && (w.price.Some? ==> AtMost(w.price.value.gte, p.price) && AtLeast(w.price.value.lte, p.price))
    && (w.featuredOnly ==> p.featured)
  }

  /** A tag as an element of the JSON text: the term between double quotes (escapes are not modelled). */
  function Quoted(term: string): (r: string)
    ensures |r| == |term| + 2 && r[0] == '"' && r[|r| - 1] == '"' && r[1..|r| - 1] == term
  {
    "\"" + term + "\""
  }

  /**
   * A search term matches the name or description (ignoring case) or is one of the tags, the
   * reading the search conditions are written for.
   */
  predicate SearchHit(term: string, p: ProductRow) {
    Contains(Lower(p.name), Lower(term)) || Contains(Lower(p.description), Lower(term)) || Contains(p.tags, Quoted(term))
  }

  /**
   * Which products a query selects, stated on the query itself: available; matching the search
   * OR any listed colour (one disjunction, not two filters); in a listed category and
   * subcategory when lists are given; within the price bounds when they narrow the default
   * range; featured when asked.
   */
  predicate Qualifies(q: Query, p: ProductRow, categorySlug: string, subcategorySlug: Option<string>) {
    && p.available
    && (Truthy(q.search) || |q.colors| > 0 ==>
          (Truthy(q.search) && SearchHit(q.search.value, p))
          || ColorHit(q.colors, p))
    && (|q.categories| > 0 ==> categorySlug in q.categories)
    && (|q.subcategories| > 0 ==> subcategorySlug.Some? && subcategorySlug.value in q.subcategories)
    && (PriceFiltered(q) ==> q.minPrice.Num? && q.maxPrice.Num? && q.minPrice.n <= p.price <= q.maxPrice.n)
    && (q.featured ==> p.featured)
  }

  predicate ColorHit(colors: seq<string>, p: ProductRow) {
    exists i :: 0 <= i < |colors| && Contains(p.colors, colors[i])
  }

  predicate AnyHolds(list: seq<Condition>, p: ProductRow) {
    exists i :: 0 <= i < |list| && Holds(list[i], p)
  }

  /** An OR entry that holds is a search hit or a colour hit. */
  lemma AnyOfSound(search: Option<string>, colors: seq<string>, p: ProductRow)
    requires AnyHolds((if Truthy(search) then SearchConditions(search.value) else []) + ColorConditions(colors), p)
    ensures (Truthy(search) && SearchHit(search.value, p)) || ColorHit(colors, p)
  {
    var terms := if Truthy(search) then SearchConditions(search.value) else [];
    var list := terms + ColorConditions(colors);
    var i :| 0 <= i < |list| && Holds(list[i], p);
    if i >= |terms| {
      var k := i - |terms|;
      assert list[i] == ColorsContains(colors[k]);
      assert Contains(p.colors, colors[k]);
    } else {
      var t := search.value;
      assert list[i] == [NameContains(t), DescriptionContains(t), TagsHas(t)][i];
    }
  }

  /** A search hit or a colour hit makes some OR entry hold. */
  lemma AnyOfComplete(search: Option<string>, colors: seq<string>, p: ProductRow)
    requires (Truthy(search) && SearchHit(search.value, p)) || ColorHit(colors, p)
    ensures AnyHolds((if Truthy(search) then SearchConditions(search.value) else []) + ColorConditions(colors), p)
  {
    var terms := if Truthy(search) then SearchConditions(search.value) else [];
    var list := terms + ColorConditions(colors);
    if ColorHit(colors, p) {
      var i :| 0 <= i < |colors| && Contains(p.colors, colors[i]);
      assert list[|terms| + i] == ColorsContains(colors[i]);
      assert Holds(list[|terms| + i], p);
    } else {
      var term := search.value;
      if Contains(Lower(p.name), Lower(term)) {
        assert Holds(list[0], p);
      } else if Contains(Lower(p.description), Lower(term)) {
        assert Holds(list[1], p);
      } else {
        assert Holds(list[2], p);
      }
    }
  }

  /** The filter the handler builds selects exactly the products the query describes. */
  lemma WhereMeaning(q: Query, p: ProductRow, categorySlug: string, subcategorySlug: Option<string>)
    ensures Satisfies(WhereOf(q), p, categorySlug, subcategorySlug) <==> Qualifies(q, p, categorySlug, subcategorySlug)
  {
    if Truthy(q.search) || |q.colors| > 0 {
      if AnyHolds(WhereOf(q).anyOf.value, p) {
        AnyOfSound(q.search, q.colors, p);
      }
      if (Truthy(q.search) && SearchHit(q.search.value, p)) || ColorHit(q.colors, p) {
        AnyOfComplete(q.search, q.colors, p);
      }
    }
  }

  /** A product found by the search qualifies whatever colours are listed. */
  lemma SearchAloneQualifies(q: Query, p: ProductRow, categorySlug: string, subcategorySlug: Option<string>)
    requires Truthy(q.search) && SearchHit(q.search.value, p)
    requires p.available && |q.categories| == 0 && |q.subcategories| == 0 && !PriceFiltered(q) && !q.featured
    ensures Satisfies(WhereOf(q), p, categorySlug, subcategorySlug)
  {
    WhereMeaning(q, p, categorySlug, subcategorySlug);
  }

  /** With no parameters at all, every available product qualifies and nothing else does. */
  lemma NoParamsSelectsAvailable(p: ProductRow, categorySlug: string, subcategorySlug: Option<string>)
    ensures Satisfies(WhereOf(ParseQuery(map[])), p, categorySlug, subcategorySlug) <==> p.available
  {
    var q := ParseQuery(map[]);
    assert !PriceFiltered(q);
  }

  // ---------------------------------------------------------------------
  // Sort order and page window

  datatype SortField = CreatedAt | Price | Name
  datatype Direction = Asc | Desc
  datatype OrderBy = OrderBy(field: SortField, direction: Direction)

  /** The `sortBy` switch; "newest" and every unknown value give newest first. */
  function OrderFor(sortBy: string): (o: OrderBy)
    ensures sortBy == "oldest" ==> o == OrderBy(CreatedAt, Asc)
    ensures sortBy == "price-low" ==> o == OrderBy(Price, Asc)
    ensures sortBy == "price-high" ==> o == OrderBy(Price, Desc)
    ensures sortBy == "name" ==> o == OrderBy(Name, Asc)
    ensures o == OrderBy(CreatedAt, Desc) <==> sortBy !in {"oldest", "price-low", "price-high", "name"}
  {
    match sortBy
    case "oldest" => OrderBy(CreatedAt, Asc)
    case "price-low" => OrderBy(Price, Asc)
    case "price-high" => OrderBy(Price, Desc)
    case "name" => OrderBy(Name, Asc)
    case _ => OrderBy(CreatedAt, Desc)
  }

  /** `(page - 1) * limit` */
  function Skip(page: JsNum, limit: JsNum): (r: JsNum)
    ensures page.Num? && limit.Num? ==> r == Num((page.n - 1) * limit.n)
    ensures page.NaN? || limit.NaN? ==> r.NaN?
  {
    Times(Minus(page, 1), limit)
  }

  /**
   * `Math.ceil(total / limit)` as the JSON reply carries it: `None` (JSON null) when the
   * quotient is not finite, that is for a NaN limit, or a zero limit.
   */
  function Pages(total: nat, limit: JsNum): (r: Option<int>)
    ensures limit.NaN? || limit == Num(0) ==> r.None?
    ensures limit.Num? && limit.n > 0 ==>
      && r.Some? && r.value >= 0
      && (r.value - 1) * limit.n < total <= r.value * limit.n
  {
    if limit.NaN? || limit.n == 0 then None
    else if limit.n > 0 then Some((total + limit.n - 1) / limit.n)
    else Some(-(total / -limit.n))
  }

  /** With a positive limit, no page is empty: the last page starts before the total. */
  lemma PagesExact(total: nat, limit: int)
    requires limit > 0
    ensures Pages(total, Num(limit)).value == 0 <==> total == 0
    ensures total > 0 ==> Skip(Num(Pages(total, Num(limit)).value), Num(limit)).n < total
  {
  }

  datatype Pagination = Pagination(page: JsNum, limit: JsNum, total: nat, pages: Option<int>)

  /** What the handler asks the database for, and the pagination block of its reply. */
  datatype Listing = Listing(where_: Where, orderBy: OrderBy, skip: JsNum, take: JsNum, pagination: Pagination)

  /**
   * Whether the database runs the query at all. `tags` is a text column, so the search's
   * `{ tags: { has } }` and `mode: 'insensitive'` are refused by the SQLite provider; so are a
   * NaN `skip` or `take` and a negative `skip`. A zero or negative `take` is accepted.
   */
  predicate Runs(q: Query) {
    && !Truthy(q.search)
    && Skip(q.page, q.limit).Num? && q.limit.Num?
    && Skip(q.page, q.limit).n >= 0
  }

  /**
   * The GET handler for a store of products; `categorySlug` and `subcategorySlug` stand for the
   * joined category tables. A query the database refuses lands in the catch, which answers 500;
   * otherwise the reply names the request and the pagination block, whose total counts the
   * products the filter selects.
   */
  function ListProducts(params: map<string, string>, products: seq<ProductRow>,
                        categorySlug: string -> string, subcategorySlug: Option<string> -> Option<string>): (r: Reply<Listing>)
    ensures var q := ParseQuery(params);
      !Runs(q) <==> r == Fail(500, "Internal server error")
    ensures var q := ParseQuery(params);
      r.Ok? ==>
      && r.status == 200
      && r.body.where_ == WhereOf(q) && r.body.orderBy == OrderFor(q.sortBy)
      && r.body.skip == Skip(q.page, q.limit) && r.body.take == q.limit
      && var total :=
           |Filter(products, (p: ProductRow) => Qualifies(q, p, categorySlug(p.categoryId), subcategorySlug(p.subcategoryId)))|;
         r.body.pagination == Pagination(q.page, q.limit, total, Pages(total, q.limit))
  {
    var q := ParseQuery(params);
    if !Runs(q) then Fail(500, "Internal server error")
    else
      var w := WhereOf(q);
      var sat := (p: ProductRow) => Satisfies(w, p, categorySlug(p.categoryId), subcategorySlug(p.subcategoryId));
      var qual := (p: ProductRow) => Qualifies(q, p, categorySlug(p.categoryId), subcategorySlug(p.subcategoryId));
      FilterSameSelection(products, sat, qual, q, categorySlug, subcategorySlug);
      var total := |Filter(products, sat)|;
      Ok(200, Listing(w, OrderFor(q.sortBy), Skip(q.page, q.limit), q.limit,
                      Pagination(q.page, q.limit, total, Pages(total, q.limit))))
  }

  /** Any non-empty search answers 500, whatever else the query says. */
  lemma SearchQueryFails(params: map<string, string>, term: string, products: seq<ProductRow>,
                         categorySlug: string -> string, subcategorySlug: Option<string> -> Option<string>)
    requires term != ""
    ensures ListProducts(params["search" := term], products, categorySlug, subcategorySlug) ==
      Fail(500, "Internal server error")
  {
    assert Param(params["search" := term], "search") == Some(term);
  }

  /** Without parameters the first page of 50 is listed, and `pages` is the exact ceiling. */
  lemma DefaultListing(products: seq<ProductRow>,
                       categorySlug: string -> string, subcategorySlug: Option<string> -> Option<string>)
    ensures var r := ListProducts(map[], products, categorySlug, subcategorySlug);
      && r.Ok? && r.body.skip == Num(0) && r.body.take == Num(50)
      && r.body.pagination.page == Num(1) && r.body.pagination.limit == Num(50)
      && r.body.pagination.pages.Some?
      && (r.body.pagination.pages.value - 1) * 50 < r.body.pagination.total <= r.body.pagination.pages.value * 50
  {
    DefaultWindowParse();
  }

  /** A page below 1 asks for a negative skip, which the database refuses. */
  lemma PageZeroFails(products: seq<ProductRow>,
                      categorySlug: string -> string, subcategorySlug: Option<string> -> Option<string>)
    ensures ListProducts(map["page" := "0"], products, categorySlug, subcategorySlug) == Fail(500, "Internal server error")
  {
    PageZeroWindow();
  }

  lemma PageZeroWindow()
    ensures var q := ParseQuery(map["page" := "0"]);
      q.page == Num(0) && q.limit == Num(50) && Skip(q.page, q.limit) == Num(-50) && !Runs(q)
  {
    var params := map["page" := "0"];
    ParsePrinted(0);
    DefaultWindowParse();
    assert Param(params, "page") == Some("0") && Param(params, "limit") == None;
  }

  /** A zero limit is run: an empty window, and `pages` is JSON null. */
  lemma LimitZeroRuns(products: seq<ProductRow>,
                      categorySlug: string -> string, subcategorySlug: Option<string> -> Option<string>)
    ensures var r := ListProducts(map["limit" := "0"], products, categorySlug, subcategorySlug);
      r.Ok? && r.body.take == Num(0) && r.body.pagination.pages.None?
  {
    LimitZeroWindow();
  }

  lemma LimitZeroWindow()
    ensures var q := ParseQuery(map["limit" := "0"]);
      q.page == Num(1) && q.limit == Num(0) && Skip(q.page, q.limit) == Num(0) && Runs(q)
  {
    var params := map["limit" := "0"];
    ParsePrinted(0);
    DefaultWindowParse();
    assert Param(params, "limit") == Some("0") && Param(params, "page") == None && Param(params, "search") == None;
  }

  lemma {:induction false} FilterSameSelection(products: seq<ProductRow>, sat: ProductRow -> bool,
                                               qual: ProductRow -> bool, q: Query,
                                               categorySlug: string -> string,
                                               subcategorySlug: Option<string> -> Option<string>)
    requires forall p :: sat(p) == Satisfies(WhereOf(q), p, categorySlug(p.categoryId), subcategorySlug(p.subcategoryId))
    requires forall p :: qual(p) == Qualifies(q, p, categorySlug(p.categoryId), subcategorySlug(p.subcategoryId))
    ensures Filter(products, sat) == Filter(products, qual)
    decreases |products|
  {
    if products != [] {
      var p := products[0];
      WhereMeaning(q, p, categorySlug(p.categoryId), subcategorySlug(p.subcategoryId));
      FilterSameSelection(products[1..], sat, qual, q, categorySlug, subcategorySlug);
    }
  }

  // ---------------------------------------------------------------------
  // POST

  /** The request body; the `|| default` fields are optional. */
  datatype ProductInput = ProductInput(
    name: Option<string>, description: Option<string>, price: Option<int>, images: Option<string>,
    colors: Option<string>, sizes: Option<string>, categoryId: Option<string>,
    subcategoryId: Option<string>, featured: Option<bool>, available: Option<bool>,
    stock: Option<int>, sku: Option<string>, tags: Option<string>)

  /** The fields the table requires; a create without one of them fails. */
  predicate Complete(b: ProductInput) {
    && b.name.Some? && b.description.Some? && b.price.Some? && b.images.Some?
    && b.colors.Some? && b.sizes.Some? && b.categoryId.Some? && b.tags.Some?
  }

  /** The row `product.create` inserts, with the handler's defaults. */
  function NewProduct(id: string, b: ProductInput, now: int): (p: ProductRow)
    requires Complete(b)
    ensures p.subcategoryId == OrNull(b.subcategoryId)
    ensures p.featured <==> b.featured == Some(true)
    ensures !p.available <==> b.available == Some(false)
    ensures p.stock == (if b.stock.Some? then b.stock.value else 0)
    ensures p.sku == OrNull(b.sku)
  {
    ProductRow(id, b.name.value, b.description.value, b.price.value, b.images.value, b.colors.value,
               b.sizes.value, b.categoryId.value, OrNull(b.subcategoryId),
               b.featured.Some? && b.featured.value,
               b.available != Some(false),
               if b.stock.Some? then b.stock.value else 0,
               OrNull(b.sku), b.tags.value, now)
  }

  datatype PostResult = PostResult(reply: Reply<ProductRow>, products: seq<ProductRow>)

  /** The POST handler: token, then administrator check, then insert. */
  function PostSpec(users: seq<User>, products: seq<ProductRow>, authorization: Option<string>,
                    body: ProductInput, jwt: Jwt, env: Env, freshId: string, now: int): (r: PostResult)
    ensures !Truthy(HeaderToken(authorization)) ==> r == PostResult(Fail(401, "No token provided"), products)
    ensures r.reply.Ok? ==>
      && var claims := jwt.verify(HeaderToken(authorization).value, RouteSecret(env));
         claims.Some? && FindById(users, claims.value.userId).Some?
         && FindById(users, claims.value.userId).value.role == ADMIN
    ensures r.reply.Ok? <==> r.products != products
    ensures r.reply.Ok? ==>
      && r.reply.status == 201 && Complete(body)
      && r.reply.body == NewProduct(freshId, body, now) && r.products == products + [r.reply.body]
  {
    var token := HeaderToken(authorization);
    if !Truthy(token) then PostResult(Fail(401, "No token provided"), products)
    else
      match jwt.verify(token.value, RouteSecret(env))
      case None => PostResult(Fail(500, "Internal server error"), products)
      case Some(decoded) =>
        var admin := FindById(users, decoded.userId);
        if admin.None? || admin.value.role != ADMIN then PostResult(Fail(403, "Unauthorized"), products)
        else if !Complete(body) then PostResult(Fail(500, "Internal server error"), products)
        else
          var row := NewProduct(freshId, body, now);
          assert products + [row] != products by { assert |products + [row]| == |products| + 1; }
          PostResult(Ok(201, row), products + [row])
  }

  /** A verified token of a user who is not an administrator is refused with 403 and nothing is written. */
  lemma NonAdminRefused(users: seq<User>, products: seq<ProductRow>, authorization: Option<string>,
                        body: ProductInput, jwt: Jwt, env: Env, freshId: string, now: int)
    requires Truthy(HeaderToken(authorization))
    requires var claims := jwt.verify(HeaderToken(authorization).value, RouteSecret(env));
      claims.Some? && (FindById(users, claims.value.userId).None? || FindById(users, claims.value.userId).value.role == USER)
    ensures PostSpec(users, products, authorization, body, jwt, env, freshId, now) ==
            PostResult(Fail(403, "Unauthorized"), products)
  {
  }

  /** A complete body from an administrator is stored with the defaults filled in. */
  lemma AdminCreates(users: seq<User>, products: seq<ProductRow>, authorization: Option<string>,
                     body: ProductInput, jwt: Jwt, env: Env, freshId: string, now: int)
    requires Truthy(HeaderToken(authorization)) && Complete(body)
    requires var claims := jwt.verify(HeaderToken(authorization).value, RouteSecret(env));
      claims.Some? && FindById(users, claims.value.userId).Some? && FindById(users, claims.value.userId).value.role == ADMIN
    ensures var r := PostSpec(users, products, authorization, body, jwt, env, freshId, now);
      && r.reply.Ok? && r.products[|products|] == r.reply.body
      && r.reply.body.available == (body.available != Some(false))
      && r.reply.body.stock == (if body.stock.Some? then body.stock.value else 0)
  {
  }

  /** The handler itself: it writes only the product table. */
  method CreateProduct(db: Database, authorization: Option<string>, body: ProductInput, jwt: Jwt, env: Env,
                       freshId: string, now: int) returns (reply: Reply<ProductRow>)
    modifies db`products
    ensures PostSpec(db.users, old(db.products), authorization, body, jwt, env, freshId, now) ==
            PostResult(reply, db.products)
  {
    var token := HeaderToken(authorization);
    if !Truthy(token) {
      return Fail(401, "No token provided");
    }
    var decoded := jwt.verify(token.value, RouteSecret(env));
    if decoded.None? {
      return Fail(500, "Internal server error");
    }
    var admin := FindById(db.users, decoded.value.userId);
    if admin.None? || admin.value.role != ADMIN {
      return Fail(403, "Unauthorized");
    }
    if !Complete(body) {
      return Fail(500, "Internal server error");
    }
    var row := NewProduct(freshId, body, now);
    db.products := db.products + [row];
    reply := Ok(201, row);
  }
}

=== FILE: profile.dfy ===
/**
 * GET and PUT /api/user/profile (src/app/api/user/profile/route.ts): the
 * caller's own profile, read as a projection without the password hash, and
 * an update restricted to the name and the phone number.
 */
module ProfileRoute {
  import opened Common
  import opened Schema
  import opened AuthLib
  import opened RequestAuth

  /** The selected columns: everything but the password hash. */
  datatype ProfileView = ProfileView(id: string, name: string, email: string, phone: Option<string>,
                                     avatar: Option<string>, role: Role, verified: bool, createdAt: int)

  function View(u: User): (v: ProfileView)
    ensures v.id == u.id && v.email == u.email && v.name == u.name && v.phone == u.phone
    ensures v.avatar == u.avatar && v.role == u.role && v.verified == u.verified && v.createdAt == u.createdAt
  {
    ProfileView(u.id, u.name, u.email, u.phone, u.avatar, u.role, u.verified, u.createdAt)
  }

  /** The view determines the user up to the password hash. */
  lemma ViewHidesOnlyPassword(u: User, w: User)
    requires View(u) == View(w)
    ensures u.(password := w.password) == w
  {
  }

  /** GET: any failure of the token check, like a missing user, is answered without the profile. */
  function GetProfile(users: seq<User>, cookie: Option<string>, authorization: Option<string>,
                      jwt: Jwt, env: Env): (r: Reply<ProfileView>)
    ensures Authenticate(cookie, authorization, jwt, env) == NoToken ==> r == Fail(401, "No token provided")
    ensures Authenticate(cookie, authorization, jwt, env) == BadToken ==> r == Fail(401, "Invalid token")
    ensures r.Ok? <==>
      && Authenticate(cookie, authorization, jwt, env).Decoded?
      && FindById(users, Authenticate(cookie, authorization, jwt, env).claims.userId).Some?
    ensures r.Ok? ==>
      && r.status == 200
      && r.body == View(FindById(users, Authenticate(cookie, authorization, jwt, env).claims.userId).value)
    ensures Authenticate(cookie, authorization, jwt, env).Decoded? && !r.Ok? ==> r == Fail(404, "User not found")
  {
    match Authenticate(cookie, authorization, jwt, env)
    case NoToken => Fail(401, "No token provided")
    case BadToken => Fail(401, "Invalid token")
    case Decoded(claims) =>
      match FindById(users, claims.userId)
      case None => Fail(404, "User not found")
      case Some(u) => Ok(200, View(u))
  }

  /**
   * A body field as JSON gives it: left out (`undefined`, so the column is not written),
   * `null`, or a value.
   */
  datatype Field = Absent | Null | Value(text: string)

  /** The two columns an update writes; a null name is rejected by the non-null column. */
  predicate Writable(name: Field) {
    !name.Null?
  }

  function WithProfile(u: User, name: Field, phone: Field): (r: User)
    requires Writable(name)
    ensures r.(name := u.name, phone := u.phone) == u
    ensures r.name == if name.Value? then name.text else u.name
    ensures phone.Absent? ==> r.phone == u.phone
    ensures phone.Null? ==> r.phone.None?
    ensures phone.Value? ==> r.phone == Some(phone.text)
  {
    u.(name := if name.Value? then name.text else u.name,
       phone := match phone case Absent => u.phone case Null => None case Value(t) => Some(t))
  }

  datatype PutResult = PutResult(reply: Reply<ProfileView>, users: seq<User>)

  /** PUT: every failure, the token check included, is a 500 and writes nothing. */
  function PutSpec(users: seq<User>, cookie: Option<string>, authorization: Option<string>,
                   name: Field, phone: Field, jwt: Jwt, env: Env): (r: PutResult)
    ensures Authenticate(cookie, authorization, jwt, env) == NoToken ==> r == PutResult(Fail(401, "No token provided"), users)
    ensures Authenticate(cookie, authorization, jwt, env) == BadToken ==> r == PutResult(Fail(500, "Internal server error"), users)
    ensures Authenticate(cookie, authorization, jwt, env) != NoToken && !r.reply.Ok? ==>
      r.reply == Fail(500, "Internal server error")
    ensures !r.reply.Ok? ==> r.users == users
    ensures r.reply.Ok? <==>
      && Authenticate(cookie, authorization, jwt, env).Decoded? && Writable(name)
      && FindById(users, Authenticate(cookie, authorization, jwt, env).claims.userId).Some?
    ensures r.reply.Ok? ==>
      var id := Authenticate(cookie, authorization, jwt, env).claims.userId;
      && r.users == UpdateById(users, id, u => WithProfile(u, name, phone))
      && r.reply == Ok(200, View(WithProfile(FindById(users, id).value, name, phone)))
  {
    match Authenticate(cookie, authorization, jwt, env)
    case NoToken => PutResult(Fail(401, "No token provided"), users)
    case BadToken => PutResult(Fail(500, "Internal server error"), users)
    case Decoded(claims) =>
      if !Writable(name) then PutResult(Fail(500, "Internal server error"), users)
      else
        match FindById(users, claims.userId)
        case None => PutResult(Fail(500, "Internal server error"), users)
        case Some(u) =>
          PutResult(Ok(200, View(WithProfile(u, name, phone))),
                    UpdateById(users, claims.userId, v => WithProfile(v, name, phone)))
  }

  /** An update touches only the name and the phone: every other column of every row is kept. */
  lemma PutChangesOnlyNameAndPhone(users: seq<User>, cookie: Option<string>, authorization: Option<string>,
                                   name: Field, phone: Field, jwt: Jwt, env: Env)
    ensures var r := PutSpec(users, cookie, authorization, name, phone, jwt, env);
      && |r.users| == |users|
      && forall i :: 0 <= i < |users| ==>
           r.users[i].(name := users[i].name, phone := users[i].phone) == users[i]
  {
  }

  /** Under unique ids, only the caller's row can change. */
  lemma PutChangesOnlyCaller(users: seq<User>, cookie: Option<string>, authorization: Option<string>,
                             name: Field, phone: Field, jwt: Jwt, env: Env, i: nat)
    requires i < |users|
    requires Authenticate(cookie, authorization, jwt, env).Decoded?
    requires users[i].id != Authenticate(cookie, authorization, jwt, env).claims.userId
    ensures PutSpec(users, cookie, authorization, name, phone, jwt, env).users[i] == users[i]
  {
  }

  /** Leaving both fields out rewrites the row unchanged. */
  lemma EmptyPutKeepsRows(users: seq<User>, cookie: Option<string>, authorization: Option<string>, jwt: Jwt, env: Env)
    ensures PutSpec(users, cookie, authorization, Absent, Absent, jwt, env).users == users
  {
    var r := PutSpec(users, cookie, authorization, Absent, Absent, jwt, env);
    if r.reply.Ok? {
      assert forall i :: 0 <= i < |users| ==> r.users[i] == users[i];
    }
  }

  /** The PUT handler: it writes only the user table. */
  method UpdateProfile(db: Database, cookie: Option<string>, authorization: Option<string>,
                       name: Field, phone: Field, jwt: Jwt, env: Env) returns (reply: Reply<ProfileView>)
    modifies db`users
    ensures PutSpec(old(db.users), cookie, authorization, name, phone, jwt, env) == PutResult(reply, db.users)
  {
    var caller := Authenticate(cookie, authorization, jwt, env);
    if caller == NoToken {
      return Fail(401, "No token provided");
    }
    if caller == BadToken {
      return Fail(500, "Internal server error");
    }
    if !Writable(name) {
      return Fail(500, "Internal server error");
    }
    var found := FindById(db.users, caller.claims.userId);
    if found.None? {
      return Fail(500, "Internal server error");
    }
    db.users := UpdateById(db.users, caller.claims.userId, v => WithProfile(v, name, phone));
    reply := Ok(200, View(WithProfile(found.value, name, phone)));
  }
}

=== FILE: register_route.dfy ===
/**
 * POST /api/auth/register (src/app/api/auth/register/route.ts): create an
 * unverified user and e-mail a one-time code. The code is generated and sent but
 * never written to the OTP ledger.
 */
module RegisterRoute {
  import opened Common
  import opened Schema
  import opened AuthLib

  datatype RegisterBody = RegisterBody(message: string, userId: string, otpSent: bool)

  /** The reply, the user table afterwards, and the e-mail the handler tried to send. */
  datatype RegisterResult = RegisterResult(reply: Reply<RegisterBody>, users: seq<User>, mail: Option<Mail>)

  /**
   * The row `user.create` inserts; role, avatar and creation time come from the schema's
   * defaults (USER, null, now). `id` is the identifier the database generates.
   */
  function NewUser(id: string, name: string, email: string, phone: Option<string>,
                   hashed: string, now: int): (u: User)
    ensures u.id == id && u.name == name && u.email == email && u.password == hashed
    ensures u.role == USER && !u.verified && u.avatar.None? && u.createdAt == now
    ensures u.phone.Some? <==> Truthy(phone)
    ensures u.phone.Some? ==> u.phone == phone
  {
    User(id, name, email, OrNull(phone), None, hashed, USER, false, now)
  }

  /** What one registration request does to the user table and what it answers. */
  function RegisterSpec(users: seq<User>, name: Option<string>, email: Option<string>,
                        phone: Option<string>, password: Option<string>, bcrypt: Bcrypt,
                        freshId: string, draw: nat, now: int, sendFails: bool): (r: RegisterResult)
    requires draw < 900000
    ensures !Truthy(name) || !Truthy(email) || !Truthy(password) ==>
      r == RegisterResult(Fail(400, "Name, email, and password are required"), users, None)
    ensures Truthy(name) && Truthy(email) && Truthy(password) && FindByEmail(users, email.value).Some? ==>
      r == RegisterResult(Fail(400, "User with this email already exists"), users, None)
    ensures Truthy(name) && Truthy(email) && Truthy(password) && FindByEmail(users, email.value).None? ==>
      && |r.users| == |users| + 1 && r.users[..|users|] == users
      && var u := r.users[|users|];
         u.id == freshId && u.name == name.value && u.email == email.value
         && !u.verified && u.password == bcrypt.hash(password.value)
         && u.phone == (if Truthy(phone) then phone else None)
         && r.mail == Some(OtpMail(email.value, GenerateOTP(draw), name.value))
         && r.reply == (if sendFails then Fail(500, "Internal server error")
                        else Ok(200, RegisterBody("User created successfully. Please verify your email.", freshId, true)))
    ensures r.reply.Ok? ==> r.users != users && r.reply.body.userId == freshId && r.reply.body.otpSent
  {
    if !Truthy(name) || !Truthy(email) || !Truthy(password) then
      RegisterResult(Fail(400, "Name, email, and password are required"), users, None)
    else if FindByEmail(users, email.value).Some? then
      RegisterResult(Fail(400, "User with this email already exists"), users, None)
    else
      var hashed := bcrypt.hash(password.value);
      var code := GenerateOTP(draw);
      var created := users + [NewUser(freshId, name.value, email.value, phone, hashed, now)];
      assert created[..|users|] == users;
      var reply := if sendFails then Fail(500, "Internal server error")
                   else Ok(200, RegisterBody("User created successfully. Please verify your email.", freshId, true));
      RegisterResult(reply, created, Some(OtpMail(email.value, code, name.value)))
  }

  /** A fresh identifier keeps the primary key unique. */
  lemma RegisterKeepsIdsUnique(users: seq<User>, name: Option<string>, email: Option<string>,
                               phone: Option<string>, password: Option<string>, bcrypt: Bcrypt,
                               freshId: string, draw: nat, now: int, sendFails: bool)
    requires draw < 900000
    requires UniqueIds(users) && FindById(users, freshId).None?
    ensures UniqueIds(RegisterSpec(users, name, email, phone, password, bcrypt, freshId, draw, now, sendFails).users)
  {
    if Truthy(name) && Truthy(email) && Truthy(password) {
      AppendedUnique(users, NewUser(freshId, name.value, email.value, phone, bcrypt.hash(password.value), now));
    }
  }

  /**
   * A complete request under a new email appends exactly the new row and mails the code,
   * whether or not the send then fails; only the reply depends on the send.
   */
  lemma RegisterNewEmail(users: seq<User>, name: string, email: string, phone: Option<string>, password: string,
                         bcrypt: Bcrypt, freshId: string, draw: nat, now: int, sendFails: bool)
    requires draw < 900000
    requires name != "" && email != "" && password != ""
    requires FindByEmail(users, email).None?
    ensures var r := RegisterSpec(users, Some(name), Some(email), phone, Some(password), bcrypt, freshId, draw, now, sendFails);
      && r.reply.Ok? == !sendFails
      && r.users == users + [NewUser(freshId, name, email, phone, bcrypt.hash(password), now)]
      && r.mail == Some(OtpMail(email, GenerateOTP(draw), name))
  {
  }

  /** The existence check before the insert keeps emails unique. */
  lemma RegisterKeepsEmailsUnique(users: seq<User>, name: Option<string>, email: Option<string>,
                                  phone: Option<string>, password: Option<string>, bcrypt: Bcrypt,
                                  freshId: string, draw: nat, now: int, sendFails: bool)
    requires draw < 900000
    requires UniqueEmails(users)
    ensures UniqueEmails(RegisterSpec(users, name, email, phone, password, bcrypt, freshId, draw, now, sendFails).users)
  {
    if Truthy(name) && Truthy(email) && Truthy(password) {
      AppendedUnique(users, NewUser(freshId, name.value, email.value, phone, bcrypt.hash(password.value), now));
    }
  }

  /** The handler itself. It writes only the user table: no OTP row is created. */
  method Register(db: Database, name: Option<string>, email: Option<string>, phone: Option<string>,
                  password: Option<string>, bcrypt: Bcrypt, freshId: string, draw: nat, now: int,
                  sendFails: bool) returns (reply: Reply<RegisterBody>, mail: Option<Mail>)
    requires draw < 900000
    modifies db`users
    ensures RegisterSpec(old(db.users), name, email, phone, password, bcrypt, freshId, draw, now, sendFails) ==
            RegisterResult(reply, db.users, mail)
    ensures db.otps == old(db.otps)
  {
    if !Truthy(name) || !Truthy(email) || !Truthy(password) {
      return Fail(400, "Name, email, and password are required"), None;
    }
    var existing := FindByEmail(db.users, email.value);
    if existing.Some? {
      return Fail(400, "User with this email already exists"), None;
    }
    var hashed := bcrypt.hash(password.value);
    var code := GenerateOTP(draw);
    db.users := db.users + [NewUser(freshId, name.value, email.value, phone, hashed, now)];
    mail := Some(OtpMail(email.value, code, name.value));
    if sendFails {
      return Fail(500, "Internal server error"), mail;
    }
    reply := Ok(200, RegisterBody("User created successfully. Please verify your email.", freshId, true));
  }
}

=== FILE: request_auth.dfy ===
/**
 * How the profile, history and product routes find the caller: the
 * `auth-token` cookie first, then the `Authorization` header with the first
 * "Bearer " removed (an approximation of section 2.1 of RFC 6750), then a
 * token check under the routes' own secret.
 */
module RequestAuth {
  import opened Common
  import opened Schema
  import opened AuthLib

  /** `authorization?.replace('Bearer ', '')`: the first occurrence is removed, wherever it is. */
  function HeaderToken(authorization: Option<string>): (t: Option<string>)
    ensures authorization.None? ==> t.None?
    ensures authorization.Some? ==> t == Some(RemoveFirst(authorization.value, "Bearer "))
  {
    if authorization.None? then None else Some(RemoveFirst(authorization.value, "Bearer "))
  }

  /** The cookie if it is a non-empty string, otherwise the header token. */
  function ExtractToken(cookie: Option<string>, authorization: Option<string>): (t: Option<string>)
    ensures Truthy(cookie) ==> t == cookie
    ensures !Truthy(cookie) ==> t == HeaderToken(authorization)
  {
    if Truthy(cookie) then cookie else HeaderToken(authorization)
  }

  /** A cookie token makes the header irrelevant. */
  lemma CookieWins(cookie: string, a1: Option<string>, a2: Option<string>)
    requires cookie != ""
    ensures ExtractToken(Some(cookie), a1) == ExtractToken(Some(cookie), a2) == Some(cookie)
  {
  }

  /** Without a cookie, "Bearer <t>" yields exactly `t`. */
  lemma BearerHeader(cookie: Option<string>, t: string)
    requires !Truthy(cookie)
    ensures ExtractToken(cookie, Some("Bearer " + t)) == Some(t)
  {
    RemoveLeading("Bearer ", t);
  }

  /** A header without "Bearer " in it is taken whole as the token, whatever its scheme. */
  lemma OtherSchemeKept(header: string)
    requires !Contains(header, "Bearer ")
    ensures ExtractToken(None, Some(header)) == Some(header)
  {
  }

  /** Who the request says it comes from. */
  datatype Caller = NoToken | BadToken | Decoded(claims: Claims)

  /** Token extraction, then `jwt.verify` under the routes' secret; a failing verify is `BadToken`. */
  function Authenticate(cookie: Option<string>, authorization: Option<string>, jwt: Jwt, env: Env): (c: Caller)
    ensures c == NoToken <==> !Truthy(ExtractToken(cookie, authorization))
    ensures c == BadToken <==>
      Truthy(ExtractToken(cookie, authorization)) && jwt.verify(ExtractToken(cookie, authorization).value, RouteSecret(env)).None?
    ensures c.Decoded? ==> Some(c.claims) == jwt.verify(ExtractToken(cookie, authorization).value, RouteSecret(env))
  {
    var token := ExtractToken(cookie, authorization);
    if !Truthy(token) then NoToken
    else
      match jwt.verify(token.value, RouteSecret(env))
      case None => BadToken
      case Some(claims) => Decoded(claims)
  }
}

=== FILE: resend_otp_route.dfy ===
/**
 * POST /api/auth/resend-otp (src/app/api/auth/resend-otp/route.ts): a fresh code
 * is written to a map that lives in the route module's memory, then e-mailed.
 * The persisted OTP ledger, which is what verification reads, is never touched.
 */
module ResendOtpRoute {
  import opened Common
  import opened Schema
  import opened AuthLib

  /** Ten minutes, in milliseconds. */
  const ResendLifetimeMs: int := 10 * 60 * 1000

  datatype ResendEntry = ResendEntry(otp: string, expires: int)

  /** The reply, the in-memory map afterwards, and the e-mail the handler tried to send. */
  datatype ResendResult = ResendResult(reply: Reply<string>, entries: map<string, ResendEntry>, mail: Option<Mail>)

  /** What one resend request does to the in-memory map and what it answers. */
  function ResendSpec(users: seq<User>, entries: map<string, ResendEntry>, email: Option<string>,
                      draw: nat, now: int, sendFails: bool): (r: ResendResult)
    requires draw < 900000
    ensures !Truthy(email) ==> r == ResendResult(Fail(400, "Email is required"), entries, None)
    ensures Truthy(email) && FindByEmail(users, email.value).None? ==>
      r == ResendResult(Fail(404, "User not found"), entries, None)
    ensures Truthy(email) && FindByEmail(users, email.value).Some? ==>
      && r.entries.Keys == entries.Keys + {email.value}
      && r.entries[email.value] == ResendEntry(GenerateOTP(draw), now + ResendLifetimeMs)
      && (forall e :: e in entries && e != email.value ==> r.entries[e] == entries[e])
      && r.mail == Some(OtpMail(email.value, GenerateOTP(draw), FindByEmail(users, email.value).value.name))
      && r.reply == (if sendFails then Fail(500, "Internal server error") else Ok(200, "OTP resent successfully"))
  {
    if !Truthy(email) then ResendResult(Fail(400, "Email is required"), entries, None)
    else
      match FindByEmail(users, email.value)
      case None => ResendResult(Fail(404, "User not found"), entries, None)
      case Some(user) =>
        var code := GenerateOTP(draw);
        var updated := entries[email.value := ResendEntry(code, now + ResendLifetimeMs)];
        var reply := if sendFails then Fail(500, "Internal server error") else Ok(200, "OTP resent successfully");
        ResendResult(reply, updated, Some(OtpMail(email.value, code, user.name)))
  }

  /** The module-level map of the route file. */
  class OtpStore {
    var entries: map<string, ResendEntry>

    constructor ()
      ensures entries == map[]
    {
      entries := map[];
    }

    /** The handler. It reads the user table and writes only this map. */
    method Resend(db: Database, email: Option<string>, draw: nat, now: int, sendFails: bool)
      returns (reply: Reply<string>, mail: Option<Mail>)
      requires draw < 900000
      modifies this
      ensures ResendSpec(db.users, old(entries), email, draw, now, sendFails) == ResendResult(reply, entries, mail)
      ensures db.otps == old(db.otps) && db.users == old(db.users)
    {
      if !Truthy(email) {
        return Fail(400, "Email is required"), None;
      }
      var user := FindByEmail(db.users, email.value);
      if user.None? {
        return Fail(404, "User not found"), None;
      }
      var code := GenerateOTP(draw);
      entries := entries[email.value := ResendEntry(code, now + ResendLifetimeMs)];
      mail := Some(OtpMail(email.value, code, user.value.name));
      if sendFails {
        return Fail(500, "Internal server error"), mail;
      }
      reply := Ok(200, "OTP resent successfully");
    }
  }
}

=== FILE: schema.dfy ===
/**
 * The persisted tables the route handlers read and write, as the handlers see
 * them through the ORM: users, the OTP ledger (one row per email), products,
 * bookings, inquiries and contact-form submissions. Each handler runs as one
 * atomic step on a `Database`.
 */
module Schema {
  import opened Common

  datatype Role = USER | ADMIN

  datatype User = User(
    id: string,
    name: string,
    email: string,
    phone: Option<string>,
    avatar: Option<string>,
    password: string,      // the bcrypt hash, never the plain text
    role: Role,
    verified: bool,
    createdAt: int)

  /** A row of the OTP ledger; the ledger is keyed by email. */
  datatype OtpRecord = OtpRecord(otp: string, expiresAt: int)

  datatype ProductRow = ProductRow(
    id: string,
    name: string,
    description: string,
    price: int,
    images: string,        // JSON text
    colors: string,        // JSON text, matched with `contains`
    sizes: string,         // JSON text
    categoryId: string,
    subcategoryId: Option<string>,
    featured: bool,
    available: bool,
    stock: int,
    sku: Option<string>,
    tags: string,          // JSON text, like `colors`
    createdAt: int)

  datatype Booking = Booking(
    id: string,
    name: string,
    email: string,
    phone: string,
    date: int,
    time: string,
    message: Option<string>,
    status: string,
    userId: Option<string>,
    createdAt: int)

  datatype Inquiry = Inquiry(
    id: string,
    name: string,
    email: string,
    phone: Option<string>,
    message: string,
    productId: Option<string>,
    userId: Option<string>,
    status: string,
    createdAt: int)

  datatype ContactForm = ContactForm(
    id: string,
    name: string,
    email: string,
    phone: Option<string>,
    subject: string,
    message: string,
    status: string,
    createdAt: int)

  function BookingCreatedAt(b: Booking): int { b.createdAt }
  function InquiryCreatedAt(q: Inquiry): int { q.createdAt }
  function ContactCreatedAt(f: ContactForm): int { f.createdAt }

  /** The `{ bookings }` body of the booking reads. */
  datatype BookingList = BookingList(bookings: seq<Booking>)

  /** A handler's answer: an error status with its message, or a status with a body. */
  datatype Reply<T> = Fail(status: nat, message: string) | Ok(status: nat, body: T)

  /** The `{ message, id }` body of a stored submission. */
  datatype Receipt = Receipt(message: string, id: string)

  /** The outbound e-mails a handler asks the mail transport to send. */
  datatype Mail = OtpMail(to: string, otp: string, name: string) | WelcomeMail(to: string, name: string)

  /** `findUnique({ where: { email } })` */
  function FindByEmail(users: seq<User>, email: string): (r: Option<User>)
    ensures r.Some? ==> r.value in users && r.value.email == email
    ensures r.None? ==> forall i :: 0 <= i < |users| ==> users[i].email != email
    decreases |users|
  {
    if users == [] then None
    else if users[0].email == email then Some(users[0])
    else FindByEmail(users[1..], email)
  }

  /** `findUnique({ where: { id } })` */
  function FindById(users: seq<User>, id: string): (r: Option<User>)
    ensures r.Some? ==> r.value in users && r.value.id == id
    ensures r.None? ==> forall i :: 0 <= i < |users| ==> users[i].id != id
    decreases |users|
  {
    if users == [] then None
    else if users[0].id == id then Some(users[0])
    else FindById(users[1..], id)
  }

  /** The unique constraint on `User.email`. */
  predicate UniqueEmails(users: seq<User>) {
    forall i, j :: 0 <= i < j < |users| ==> users[i].email != users[j].email
  }

  /** The primary key `User.id`. */
  predicate UniqueIds(users: seq<User>) {
    forall i, j :: 0 <= i < j < |users| ==> users[i].id != users[j].id
  }

  /** Appending a row whose email and id are not yet stored keeps both keys unique. */
  lemma AppendedUnique(users: seq<User>, u: User)
    ensures UniqueEmails(users) && FindByEmail(users, u.email).None? ==> UniqueEmails(users + [u])
    ensures UniqueIds(users) && FindById(users, u.id).None? ==> UniqueIds(users + [u])
  {
    var r := users + [u];
    forall i, j | 0 <= i < j < |r| && j < |users| ensures r[i] == users[i] && r[j] == users[j] {
    }
    forall i | 0 <= i < |users| ensures r[i] == users[i] && r[|users|] == u {
    }
  }

  /** Under the unique constraint, a lookup by email finds the one user with that email. */
  lemma {:induction false} FindByEmailUnique(users: seq<User>, u: User)
    requires UniqueEmails(users) && u in users
    ensures FindByEmail(users, u.email) == Some(u)
    decreases |users|
  {
    if users[0] != u {
      assert users[0].email != u.email by {
        var k :| 0 <= k < |users| && users[k] == u;
        assert k > 0;
      }
      assert u in users[1..] by {
        var k :| 0 <= k < |users| && users[k] == u;
        assert users[1..][k - 1] == u;
      }
      FindByEmailUnique(users[1..], u);
    }
  }

  /** `update({ where: { id }, data })`: every row with that id is replaced by `f` of itself. */
  function UpdateById(users: seq<User>, id: string, f: User -> User): (r: seq<User>)
    ensures |r| == |users|
    ensures forall i :: 0 <= i < |users| ==> r[i] == if users[i].id == id then f(users[i]) else users[i]
  {
    seq(|users|, i requires 0 <= i < |users| => if users[i].id == id then f(users[i]) else users[i])
  }

  /** All tables of the store. */
  class Database {
    var users: seq<User>
    var otps: map<string, OtpRecord>
    var products: seq<ProductRow>
    var bookings: seq<Booking>
    var inquiries: seq<Inquiry>
    var contactForms: seq<ContactForm>

    constructor ()
      ensures users == [] && otps == map[] && products == []
      ensures bookings == [] && inquiries == [] && contactForms == []
    {
      users, otps, products := [], map[], [];
      bookings, inquiries, contactForms := [], [], [];
    }
  }
}

=== FILE: session_store.dfy ===
/**
 * The client auth session store (src/stores/auth.ts): five fields that every
 * action overwrites, with the invariant that the session is authenticated
 * exactly when a user is held.
 */
module SessionStore {
  import opened Common
  import opened Schema

  /** The user as the client keeps it. */
  datatype SessionUser = SessionUser(id: string, email: string, name: string, phone: Option<string>,
                                     avatar: Option<string>, role: Role, verified: bool)

  /** `Partial<User>`: a field that is present replaces the user's field. */
  datatype UserPatch = UserPatch(id: Option<string>, email: Option<string>, name: Option<string>,
                                 phone: Option<string>, avatar: Option<string>, role: Option<Role>,
                                 verified: Option<bool>)

  const NoChanges: UserPatch := UserPatch(None, None, None, None, None, None, None)

  function Pick<T>(patch: Option<T>, current: T): T {
    if patch.Some? then patch.value else current
  }

  function PickOptional(patch: Option<string>, current: Option<string>): Option<string> {
    if patch.Some? then patch else current
  }

  /** `{ ...user, ...updates }`: every field the patch holds wins; every other field is kept. */
  function Overlay(u: SessionUser, p: UserPatch): (r: SessionUser)
    ensures p.id.Some? ==> r.id == p.id.value
    ensures p.id.None? ==> r.id == u.id
    ensures p.email.Some? ==> r.email == p.email.value
    ensures p.email.None? ==> r.email == u.email
    ensures p.name.Some? ==> r.name == p.name.value
    ensures p.name.None? ==> r.name == u.name
    ensures p.phone.Some? ==> r.phone == p.phone
    ensures p.phone.None? ==> r.phone == u.phone
    ensures p.avatar.Some? ==> r.avatar == p.avatar
    ensures p.avatar.None? ==> r.avatar == u.avatar
    ensures p.role.Some? ==> r.role == p.role.value
    ensures p.role.None? ==> r.role == u.role
    ensures p.verified.Some? ==> r.verified == p.verified.value
    ensures p.verified.None? ==> r.verified == u.verified
  {
    SessionUser(Pick(p.id, u.id), Pick(p.email, u.email), Pick(p.name, u.name),
                PickOptional(p.phone, u.phone), PickOptional(p.avatar, u.avatar),
                Pick(p.role, u.role), Pick(p.verified, u.verified))
  }

  /** Two patches applied one after the other: the later one wins field by field. */
  function Then(first: UserPatch, second: UserPatch): UserPatch {
    UserPatch(PickOptional(second.id, first.id), PickOptional(second.email, first.email),
              PickOptional(second.name, first.name), PickOptional(second.phone, first.phone),
              PickOptional(second.avatar, first.avatar),
              if second.role.Some? then second.role else first.role,
              if second.verified.Some? then second.verified else first.verified)
  }

  /** An empty patch changes nothing. */
  lemma OverlayNothing(u: SessionUser)
    ensures Overlay(u, NoChanges) == u
  {
  }

  /** Applying the same patch twice is the same as applying it once. */
  lemma OverlayIdempotent(u: SessionUser, p: UserPatch)
    ensures Overlay(Overlay(u, p), p) == Overlay(u, p)
  {
  }

  /** Two updates in a row are one update by the merged patch. */
  lemma OverlayThen(u: SessionUser, first: UserPatch, second: UserPatch)
    ensures Overlay(Overlay(u, first), second) == Overlay(u, Then(first, second))
  {
  }

  /** The part of the state written to local storage under "auth-storage". */
  datatype PersistedSession = PersistedSession(user: Option<SessionUser>, isAuthenticated: bool)

  class AuthStore {
    var user: Option<SessionUser>
    var isAuthenticated: bool
    var isLoading: bool
    var otpSent: bool
    var otpEmail: Option<string>

    /** The session is authenticated exactly when a user is held. */
    predicate Valid()
      reads this
    {
      isAuthenticated <==> user.Some?
    }

    constructor ()
      ensures user.None? && !isAuthenticated && !isLoading && !otpSent && otpEmail.None?
      ensures Valid()
    {
      user := None;
      isAuthenticated := false;
      isLoading := false;
      otpSent := false;
      otpEmail := None;
    }

    /** `setUser`: authenticated iff the user is not null. */
    method SetUser(u: Option<SessionUser>)
      modifies this`user, this`isAuthenticated
      ensures user == u && isAuthenticated == u.Some?
      ensures Valid()
    {
      user := u;
      isAuthenticated := u.Some?;
    }

    method SetLoading(loading: bool)
      modifies this`isLoading
      ensures isLoading == loading
    {
      isLoading := loading;
    }

    /** `setOTPSent`: an omitted or empty email is stored as null. */
    method SetOTPSent(sent: bool, email: Option<string>)
      modifies this`otpSent, this`otpEmail
      ensures otpSent == sent && otpEmail == OrNull(email)
      ensures otpEmail.Some? <==> Truthy(email)
    {
      otpSent := sent;
      otpEmail := OrNull(email);
    }

    /** `login`: hold the user and clear the pending-code fields and the loading flag. */
    method Login(u: SessionUser)
      modifies this
      ensures user == Some(u) && isAuthenticated && !isLoading && !otpSent && otpEmail.None?
      ensures Valid()
    {
      user := Some(u);
      isAuthenticated := true;
      isLoading := false;
      otpSent := false;
      otpEmail := None;
    }

    /**
     * `logout`: the request that clears the cookie is awaited and any failure of it is
     * caught, so the state is reset to the initial one in every case.
     */
    method Logout()
      modifies this
      ensures user.None? && !isAuthenticated && !isLoading && !otpSent && otpEmail.None?
      ensures Valid()
    {
      user := None;
      isAuthenticated := false;
      isLoading := false;
      otpSent := false;
      otpEmail := None;
    }

    /** `updateUser`: nothing happens without a user; otherwise the patch is laid over it. */
    method UpdateUser(p: UserPatch)
      modifies this`user
      ensures old(user).None? ==> user.None?
      ensures old(user).Some? ==> user == Some(Overlay(old(user).value, p))
      ensures old(Valid()) ==> Valid()
    {
      if user.Some? {
        user := Some(Overlay(user.value, p));
      }
    }

    /** `partialize`: only the user and the flag are persisted. */
    function Partialize(): (p: PersistedSession)
      reads this
      ensures p.user == user && p.isAuthenticated == isAuthenticated
      ensures Valid() ==> (p.isAuthenticated <==> p.user.Some?)
    {
      PersistedSession(user, isAuthenticated)
    }
  }
}

=== FILE: user_history.dfy ===
/**
 * GET /api/contact/user and GET /api/bookings/user
 * (src/app/api/contact/user/route.ts, src/app/api/bookings/user/route.ts):
 * the caller's own submissions, found by the caller's email, newest first.
 */
module UserHistory {
  import opened Common
  import opened Schema
  import opened AuthLib
  import opened RequestAuth

  /** The owner ladder both routes share; a failed token check is a 500 here. */
  function OwnerReply<T>(users: seq<User>, caller: Caller, found: User -> T): (r: Reply<T>)
    ensures caller == NoToken ==> r == Fail(401, "No token")
    ensures caller == BadToken ==> r == Fail(500, "Internal server error")
    ensures caller.Decoded? && FindById(users, caller.claims.userId).None? ==> r == Fail(404, "User not found")
    ensures r.Ok? <==> caller.Decoded? && FindById(users, caller.claims.userId).Some?
    ensures r.Ok? ==> r == Ok(200, found(FindById(users, caller.claims.userId).value))
  {
    match caller
    case NoToken => Fail(401, "No token")
    case BadToken => Fail(500, "Internal server error")
    case Decoded(claims) =>
      match FindById(users, claims.userId)
      case None => Fail(404, "User not found")
      case Some(u) => Ok(200, found(u))
  }

  /** GET /api/contact/user */
  function UserContactForms(users: seq<User>, forms: seq<ContactForm>, cookie: Option<string>,
                            authorization: Option<string>, jwt: Jwt, env: Env): (r: Reply<seq<ContactForm>>)
    ensures var caller := Authenticate(cookie, authorization, jwt, env);
      r.Ok? ==> && caller.Decoded? && FindById(users, caller.claims.userId).Some?
                && var email := FindById(users, caller.claims.userId).value.email;
                   && SortedDesc(r.body, ContactCreatedAt)
                   && (forall i :: 0 <= i < |r.body| ==> r.body[i].email == email && r.body[i] in forms)
                   && (forall i :: 0 <= i < |forms| && forms[i].email == email ==> forms[i] in r.body)
                   && (forall f: ContactForm :: multiset(r.body)[f] == if f.email == email then multiset(forms)[f] else 0)
    ensures Authenticate(cookie, authorization, jwt, env) == NoToken ==> r == Fail(401, "No token")
    ensures Authenticate(cookie, authorization, jwt, env) == BadToken ==> r == Fail(500, "Internal server error")
    ensures var caller := Authenticate(cookie, authorization, jwt, env);
      caller.Decoded? && FindById(users, caller.claims.userId).None? ==> r == Fail(404, "User not found")
    ensures var caller := Authenticate(cookie, authorization, jwt, env);
      r.Ok? <==> caller.Decoded? && FindById(users, caller.claims.userId).Some?
  {
    var caller := Authenticate(cookie, authorization, jwt, env);
    var r := OwnerReply(users, caller,
                        (u: User) => FindManyDesc(forms, (f: ContactForm) => f.email == u.email, ContactCreatedAt));
    if r.Ok? then
      var email := FindById(users, caller.claims.userId).value.email;
      assert forall f: ContactForm :: multiset(r.body)[f] == if f.email == email then multiset(forms)[f] else 0 by {
        forall f: ContactForm ensures multiset(r.body)[f] == if f.email == email then multiset(forms)[f] else 0 {
          FilterMultiset(forms, (g: ContactForm) => g.email == email, f);
        }
      }
      r
    else r
  }

  /** GET /api/bookings/user: by the account's email, so bookings made signed out are included. */
  function UserBookings(users: seq<User>, bookings: seq<Booking>, cookie: Option<string>,
                        authorization: Option<string>, jwt: Jwt, env: Env): (r: Reply<BookingList>)
    ensures var caller := Authenticate(cookie, authorization, jwt, env);
      r.Ok? ==> && caller.Decoded? && FindById(users, caller.claims.userId).Some?
                && var email := FindById(users, caller.claims.userId).value.email;
                   && SortedDesc(r.body.bookings, BookingCreatedAt)
                   && (forall i :: 0 <= i < |r.body.bookings| ==>
                         r.body.bookings[i].email == email && r.body.bookings[i] in bookings)
                   && (forall i :: 0 <= i < |bookings| && bookings[i].email == email ==> bookings[i] in r.body.bookings)
                   && (forall b :: multiset(r.body.bookings)[b] == if b.email == email then multiset(bookings)[b] else 0)
    ensures Authenticate(cookie, authorization, jwt, env) == NoToken ==> r == Fail(401, "No token")
    ensures Authenticate(cookie, authorization, jwt, env) == BadToken ==> r == Fail(500, "Internal server error")
    ensures var caller := Authenticate(cookie, authorization, jwt, env);
      caller.Decoded? && FindById(users, caller.claims.userId).None? ==> r == Fail(404, "User not found")
    ensures var caller := Authenticate(cookie, authorization, jwt, env);
      r.Ok? <==> caller.Decoded? && FindById(users, caller.claims.userId).Some?
  {
    var caller := Authenticate(cookie, authorization, jwt, env);
    var r := OwnerReply(users, caller,
                        (u: User) => BookingList(FindManyDesc(bookings, (b: Booking) => b.email == u.email, BookingCreatedAt)));
    if r.Ok? then
      var email := FindById(users, caller.claims.userId).value.email;
      assert forall b :: multiset(r.body.bookings)[b] == if b.email == email then multiset(bookings)[b] else 0 by {
        forall b ensures multiset(r.body.bookings)[b] == if b.email == email then multiset(bookings)[b] else 0 {
          FilterMultiset(bookings, (x: Booking) => x.email == email, b);
        }
      }
      r
    else r
  }

  /** A booking made signed out (no user id) under the account's email is listed for that account. */
  lemma AnonymousBookingListed(users: seq<User>, bookings: seq<Booking>, cookie: Option<string>,
                               authorization: Option<string>, jwt: Jwt, env: Env, k: nat)
    requires k < |bookings| && bookings[k].userId.None?
    requires UserBookings(users, bookings, cookie, authorization, jwt, env).Ok?
    requires bookings[k].email == FindById(users, Authenticate(cookie, authorization, jwt, env).claims.userId).value.email
    ensures bookings[k] in UserBookings(users, bookings, cookie, authorization, jwt, env).body.bookings
  {
  }

  /** Someone else's submission is never listed. */
  lemma OthersNotListed(users: seq<User>, forms: seq<ContactForm>, cookie: Option<string>,
                        authorization: Option<string>, jwt: Jwt, env: Env, f: ContactForm)
    requires UserContactForms(users, forms, cookie, authorization, jwt, env).Ok?
    requires f.email != FindById(users, Authenticate(cookie, authorization, jwt, env).claims.userId).value.email
    ensures f !in UserContactForms(users, forms, cookie, authorization, jwt, env).body
  {
  }
}

=== FILE: verify_otp_route.dfy ===
/**
 * POST /api/auth/verify-otp (src/app/api/auth/verify-otp/route.ts): the outcome
 * ladder of a verification attempt. The checks run in a fixed order: missing
 * fields, unknown user, no ledger row, wrong code, expired code; only then is
 * the code accepted. The wrong-code check comes BEFORE the expiry check, so a
 * wrong guess at an expired row leaves that row in place.
 */
module VerifyOtpRoute {
  import opened Common
  import opened Schema
  import opened AuthLib

  /** Seven days, in seconds. */
  const SessionMaxAge: int := 7 * 24 * 60 * 60

  datatype Outcome = MissingFields | UnknownUser | NoChallenge | WrongCode | Expired | Accepted

  /** The user as the verify response shows it: the password hash is left out. */
  datatype PublicUser = PublicUser(id: string, name: string, email: string, phone: Option<string>,
                                   avatar: Option<string>, role: Role, verified: bool)

  /** The user as the response shows it: everything but the password hash and the creation time. */
  function Public(u: User): (p: PublicUser)
    ensures p.id == u.id && p.email == u.email && p.role == u.role && p.verified == u.verified
  {
    PublicUser(u.id, u.name, u.email, u.phone, u.avatar, u.role, u.verified)
  }

  /** Two users look the same in a response exactly when they differ at most in hash and creation time. */
  lemma PublicHidesOnlySecrets(u: User, w: User)
    ensures Public(u) == Public(w) <==> u.(password := w.password, createdAt := w.createdAt) == w
  {
  }

  datatype Cookie = Cookie(name: string, value: string, httpOnly: bool, secure: bool,
                           sameSite: string, path: string, maxAge: int)

  datatype SessionBody = SessionBody(message: string, token: string, user: PublicUser, cookie: Cookie)

  /** The reply, both tables afterwards, and the e-mail the handler sent, if any. */
  datatype VerifyResult = VerifyResult(reply: Reply<SessionBody>, users: seq<User>,
                                       otps: map<string, OtpRecord>, mail: Option<Mail>)

  function MarkVerified(u: User): User {
    u.(verified := true)
  }

  /** Which rung of the ladder an attempt stops at, stated as conditions on the tables. */
  function Classify(users: seq<User>, otps: map<string, OtpRecord>, email: Option<string>,
                    otp: Option<string>, now: int): (o: Outcome)
    ensures o == MissingFields <==> !Truthy(email) || !Truthy(otp)
    ensures o == UnknownUser <==> Truthy(email) && Truthy(otp) && FindByEmail(users, email.value).None?
    ensures o == NoChallenge ==> email.value !in otps
    ensures o == WrongCode ==> email.value in otps && otps[email.value].otp != otp.value
    ensures o == Expired ==>
      email.value in otps && otps[email.value].otp == otp.value && now > otps[email.value].expiresAt
    ensures o == Accepted <==>
      && Truthy(email) && Truthy(otp) && FindByEmail(users, email.value).Some?
      && email.value in otps && otps[email.value].otp == otp.value && now <= otps[email.value].expiresAt
  {
    if !Truthy(email) || !Truthy(otp) then MissingFields
    else if FindByEmail(users, email.value).None? then UnknownUser
    else if email.value !in otps then NoChallenge
    else if otps[email.value].otp != otp.value then WrongCode
    else if now > otps[email.value].expiresAt then Expired
    else Accepted
  }

  /** What one verification request does to the tables and what it answers. */
  function VerifySpec(users: seq<User>, otps: map<string, OtpRecord>, email: Option<string>,
                      otp: Option<string>, now: int, jwt: Jwt, env: Env): (r: VerifyResult)
    ensures var o := Classify(users, otps, email, otp, now);
      && (r.reply.Ok? <==> o == Accepted)
      && (o == MissingFields ==> r.reply == Fail(400, "Email and OTP are required"))
      && (o == UnknownUser ==> r.reply == Fail(404, "User not found"))
      && (o == NoChallenge ==> r.reply == Fail(400, "Invalid or expired OTP"))
      && (o == WrongCode ==> r.reply == Fail(400, "Invalid OTP"))
      && (o == Expired ==> r.reply == Fail(400, "OTP has expired. Please request a new one."))
      && (o != Expired && o != Accepted ==> r.otps == otps)
      && (o == Expired || o == Accepted ==> r.otps == otps - {email.value})
      && (o != Accepted ==> r.users == users && r.mail.None?)
    ensures r.reply.Ok? ==>
      var u := FindByEmail(users, email.value).value;
      var token := GenerateToken(jwt, env, Claims(u.id, u.email, u.role));
      && r.users == UpdateById(users, u.id, MarkVerified)
      && r.reply == Ok(200, SessionBody("Login successful", token, Public(u.(verified := true)),
                                        Cookie("auth-token", token, true, env.production, "none", "/", SessionMaxAge)))
      && r.reply.body.user.verified
      && r.mail == (if u.verified then None else Some(WelcomeMail(u.email, u.name)))
  {
    if !Truthy(email) || !Truthy(otp) then
      VerifyResult(Fail(400, "Email and OTP are required"), users, otps, None)
    else
      match FindByEmail(users, email.value)
      case None => VerifyResult(Fail(404, "User not found"), users, otps, None)
      case Some(user) =>
        if email.value !in otps then
          VerifyResult(Fail(400, "Invalid or expired OTP"), users, otps, None)
        else
          var stored := otps[email.value];
          if stored.otp != otp.value then
            VerifyResult(Fail(400, "Invalid OTP"), users, otps, None)
          else if now > stored.expiresAt then
            VerifyResult(Fail(400, "OTP has expired. Please request a new one."), users, otps - {email.value}, None)
          else
            var remaining := otps - {email.value};
            var updatedUsers := UpdateById(users, user.id, MarkVerified);
            var updatedUser := MarkVerified(user);
            var token := GenerateToken(jwt, env, Claims(user.id, user.email, user.role));
            var mail := if !user.verified then Some(WelcomeMail(user.email, user.name)) else None;
            var cookie := Cookie("auth-token", token, true, env.production, "none", "/", SessionMaxAge);
            VerifyResult(Ok(200, SessionBody("Login successful", token, Public(updatedUser), cookie)),
                         updatedUsers, remaining, mail)
  }

  /** Under the table's unique keys, a successful verification marks that user verified and no one else. */
  lemma {:induction false} AcceptedVerifiesOnlyThatUser(users: seq<User>, otps: map<string, OtpRecord>,
                                                       email: string, otp: string, now: int, jwt: Jwt, env: Env)
    requires UniqueIds(users) && UniqueEmails(users)
    requires VerifySpec(users, otps, Some(email), Some(otp), now, jwt, env).reply.Ok?
    ensures var r := VerifySpec(users, otps, Some(email), Some(otp), now, jwt, env);
      && |r.users| == |users|
      && forall i :: 0 <= i < |users| ==>
           r.users[i] == if users[i].email == email then users[i].(verified := true) else users[i]
  {
    var u := FindByEmail(users, email).value;
    var r := VerifySpec(users, otps, Some(email), Some(otp), now, jwt, env);
    var k :| 0 <= k < |users| && users[k] == u;
    forall i | 0 <= i < |users|
      ensures r.users[i] == if users[i].email == email then users[i].(verified := true) else users[i]
    {
      if users[i].email == email {
        FindByEmailUnique(users, users[i]);
      } else {
        assert i != k && users[k].id == u.id;
      }
    }
  }

  /** The handler itself, one atomic step on the user table and the OTP ledger. */
  method VerifyOtp(db: Database, email: Option<string>, otp: Option<string>, now: int, jwt: Jwt, env: Env)
    returns (reply: Reply<SessionBody>, mail: Option<Mail>)
    modifies db`users, db`otps
    ensures VerifySpec(old(db.users), old(db.otps), email, otp, now, jwt, env) ==
            VerifyResult(reply, db.users, db.otps, mail)
  {
    mail := None;
    if !Truthy(email) || !Truthy(otp) {
      return Fail(400, "Email and OTP are required"), mail;
    }
    var found := FindByEmail(db.users, email.value);
    if found.None? {
      return Fail(404, "User not found"), mail;
    }
    var user := found.value;
    if email.value !in db.otps {
      return Fail(400, "Invalid or expired OTP"), mail;
    }
    var stored := db.otps[email.value];
    if stored.otp != otp.value {
      return Fail(400, "Invalid OTP"), mail;
    }
    if now > stored.expiresAt {
      db.otps := db.otps - {email.value};
      return Fail(400, "OTP has expired. Please request a new one."), mail;
    }
    db.otps := db.otps - {email.value};
    db.users := UpdateById(db.users, user.id, MarkVerified);
    var updatedUser := MarkVerified(user);
    var token := GenerateToken(jwt, env, Claims(user.id, user.email, user.role));
    if !user.verified {
      mail := Some(WelcomeMail(user.email, user.name));
    }
    var cookie := Cookie("auth-token", token, true, env.production, "none", "/", SessionMaxAge);
    reply := Ok(200, SessionBody("Login successful", token, Public(updatedUser), cookie));
  }
}
